=== FILE: README.md ===
# AI Vocab — a Dafny model of the app's decision logic

AI Vocab is a React and Firebase app for learning English–Bangla vocabulary.
Most of its behaviour is a sequence of small, sequential decisions spread over services,
utilities and components. Once I/O, the clock and failures are parameters, each of these
decisions is deterministic. This project models them as pure functions over immutable
datatypes and proves what the code promises about them.

The modules follow the source files:

- `SyncService` (`src/services/syncService.ts`): one `syncVocabularies` cycle.
  - The guard, the query plan (incremental past a truthy cursor, or the newest 500), the fetch,
    the upsert by id, the cursor advance, the index-error fallback to the newest 50, and
    the `finally` that clears the in-flight flag.
  - The remote store is a sequence of records with integer `updatedAt`. The local cache is
    a map from id to record. The cursor is an `Option<int>`. "Now" and every failure are
    fields of an environment record.
  - `startSyncManager` and `stopSyncManager` are modelled as handle state.
- `DuplicateChecker` (`src/tests/duplicateDetection.test.ts`): the matcher the test file
  exercises.
  - It matches on word and part of speech, ignoring ASCII case.
  - It covers the bulk check, the statistics and the non-duplicate filter, and the test
    file's seven cases proved about the fixture.
- `TextCleaner` (`src/utils/textCleaner.ts`): `cleanTextContent`, `sanitizeForDisplay`,
  and the tag removal and final cleaning of `stripMarkdown`, as character-level rewrites.
- `EnhanceVocabulary` (`src/services/enhanceVocabularyService.ts`): the API-key choice, the
  missing-field analysis, the `specificFields` narrowing, the early `{}`, and the filtering
  of the reply.
- `UtmTracking` and `UtmContext` (`src/utils/utmTracking.ts`, `src/contexts/UTMContext.tsx`):
  - extraction of the five `utm_*` keys;
  - storage with a 30-day expiry over a two-key store and a clock;
  - the query string and the URL rewrite;
  - the provider's URL-over-storage precedence and its callbacks.
- `BackendTest` (`src/admin/BackendTest.tsx`): the chunked upload loop, the CSV row
  mapping, and the selection toggles.
- `AdminDashboard` (`src/admin/AdminDashboard.tsx`): the `stats` memo. It covers the
  part-of-speech distribution, the pie data, the recent words, the growth series and
  "added today".
- `ResourceGallery` (`src/admin/AdminResourceGallery.tsx`): the column breakpoints, the
  filter and sort, the grid rows, and the virtualiser count.
- `PrintVocabulary` (`src/pages/PrintVocabulary.tsx`): the initial selection, the filter,
  the PDF guards, the table rows, the preview and the file name.
- `ContentImages` (`src/utils/contentImageProcessor.ts`): the markdown rewrite of inline
  `data:image` images, and the HTML branch's "verbatim unless something changed" rule.
- `VoiceSearch` (`src/hooks/useVoiceSearch.ts`): the two-recognizer session as an event
  machine. Recognizer callbacks, timers, start and stop are events.
- `ShareContext` (`src/contexts/ShareContext.tsx`): the re-entrancy guard, the state reset,
  the tracking calls and the image file name.
- `VocabCard` (`src/components/VocabCard.tsx`): the text size tiers, the button visibility,
  the delete confirmation and the `isImproving` flag.
- Shared helpers:
  - `Wrappers`: `Option` and `Result`.
  - `Strings`: JavaScript `trim`, `split`, `join` and `.length` in UTF-16 code units,
    with the whitespace set of sections 12.2 and 12.3 of ECMA-262.
  - `Seqs`: filter, chunks and flatten.
  - `Sorting`: a stable insertion sort by an integer key.

## Model

| member | source | states |
|---|---|---|
| SyncService.Plan | src/services/syncService.ts:29-45 | A truthy stored cursor (present and not 0) gives the incremental query past that cursor; a missing or 0 cursor gives the newest 500 |
| SyncService.ZeroCursorLoadsNewest | src/services/syncService.ts:30 | A cursor of 0 fails the truthiness test and plans the same initial load as no cursor |
| SyncService.RunAfter | src/services/syncService.ts:33-37 | The incremental query returns exactly the remote records updated strictly after the cursor, newest first, with no limit |
| SyncService.RunNewest | src/services/syncService.ts:40-44 | A bounded query returns min(n, total) records, newest first, drawn from the remote store; no record left out is newer than one returned |
| SyncService.Run | src/services/syncService.ts:29-47 | Either query returns remote records newest first; the incremental one exactly those updated after the cursor, the bounded one the newest min(n, total) |
| SyncService.Upsert | src/services/syncService.ts:62-63 | After the bulk write each fetched id holds its last copy in the batch, and every other id keeps its cached record |
| SyncService.LastById | src/services/syncService.ts:62-63 | Nothing exactly when no batch record has the id; otherwise a batch record with that id after which no other has it |
| SyncService.Recover | src/services/syncService.ts:68-91 | Only an index error triggers a fallback, and then exactly one query for the newest 50. It succeeds only if that query returns records that are written; otherwise nothing changes and the cursor never moves |
| SyncService.Store | src/services/syncService.ts:47-67 | After a successful query the flag stays set, the cursor either stays or advances to now on success, and at most one fallback query follows |
| SyncService.Attempt | src/services/syncService.ts:26-91 | The try block keeps the flag set and issues at most two queries. When the cursor read succeeds the first is the planned query, and a second is always the fallback |
| SyncService.FirstQueryFollowsCursor | src/services/syncService.ts:26-47 | When the cursor read succeeds, the first query issued is the one the stored cursor plans |
| SyncService.SyncVocabularies | src/services/syncService.ts:22-95 | Offline or already syncing returns false and changes nothing; on every path the flag is back to its value before the call; the cursor moves only to now and only on success |
| SyncService.ReentrantCallDropped | src/services/syncService.ts:23-25 | A call made while a cycle holds the flag returns false without touching anything |
| SyncService.EmptyFetchAdvancesCursor | src/services/syncService.ts:49-53 | An empty fetch advances the cursor to now, returns true and leaves the cache alone |
| SyncService.FetchUpsertsThenAdvances | src/services/syncService.ts:55-67 | A non-empty fetch is upserted into the cache, then the cursor advances and the cycle returns true |
| SyncService.IndexFailureFallsBack | src/services/syncService.ts:73-91 | An index failure issues the planned query and then one fallback for the newest 50. The cursor never moves, and the result is true exactly when the fallback was non-empty and written |
| SyncService.OtherFailureChangesNothing | src/services/syncService.ts:73-91 | Any other query error returns false, issues no fallback and changes nothing |
| SyncService.MetadataWriteFailureKeepsCacheWrite | src/services/syncService.ts:62-91 | A failing cursor write after a good cache write keeps the written records and the old cursor, and can still trigger the fallback |
| SyncService.LastByIdSole | src/services/syncService.ts:62-63 | A record that is the only one with its id in the batch is what the upsert stores under that id |
| SyncService.IncrementalPullComplete | src/services/syncService.ts:30-67 | After a fault-free incremental cycle from a non-zero cursor, every remote record updated after the old cursor is in the cache exactly as the remote store holds it |
| SyncService.StartSyncManager | src/services/syncService.ts:103-120 | Start is a no-op while a timer exists; otherwise it installs the timer at minutes × 60000 ms and the online listener, and runs one cycle at once |
| SyncService.DefaultPeriod | src/services/syncService.ts:103-110 | Starting with the default of 10 minutes installs a 600000 ms timer |
| SyncService.StopSyncManager | src/services/syncService.ts:125-134 | Stop clears both handles and leaves the coordinator untouched |
| SyncService.StartIsIdempotent | src/services/syncService.ts:103-104 | Starting twice installs one timer and runs one immediate cycle |
| SyncService.StopIsIdempotent | src/services/syncService.ts:125-134 | Stopping twice equals stopping once, and a stopped manager starts again |
| SyncService.OnTimerTick | src/services/syncService.ts:107-109 | A tick runs the guarded cycle exactly when the timer is installed, and the manager then holds the state that cycle left |
| SyncService.OnOnline | src/services/syncService.ts:112-116 | An `online` event runs the guarded cycle exactly when the listener is installed, and the manager then holds the state that cycle left |
| DuplicateChecker.CheckVocabularyDuplicate | src/tests/duplicateDetection.test.ts:58-68 | A candidate is a duplicate exactly when some corpus entry has the same word and part of speech up to ASCII case |
| DuplicateChecker.CaseInsensitive | src/tests/duplicateDetection.test.ts:96-103 | Changing the case of either field never changes the verdict |
| DuplicateChecker.OtherPosIsNotDuplicate | src/tests/duplicateDetection.test.ts:71-78 | A word present only under other parts of speech is not a duplicate |
| DuplicateChecker.CheckBulkVocabularyDuplicates | src/tests/duplicateDetection.test.ts:108-117 | One result per candidate, each the single check against the unchanged corpus |
| DuplicateChecker.GetDuplicateStats | src/tests/duplicateDetection.test.ts:118-127 | The duplicate and unique counts add up to the total and count the results' verdicts |
| DuplicateChecker.FilterNonDuplicates | src/tests/duplicateDetection.test.ts:131-136 | The kept candidates are drawn from the input, every candidate judged unique is kept, and their number is the unique count |
| DuplicateChecker.FilterBulkIsFilterNew | src/tests/duplicateDetection.test.ts:108-136 | Checking a batch and filtering it by the results keeps exactly the candidates new to the corpus, in their original order |
| DuplicateChecker.SingleChecks | src/tests/duplicateDetection.test.ts:58-149 | The fixture verdicts: run/Verb and RUN/verb are duplicates; run/Noun, jump/Verb, and anything against an empty corpus are not |
| DuplicateChecker.BulkCheck | src/tests/duplicateDetection.test.ts:108-137 | The bulk check of the five candidates gives 5 total, 2 duplicates and 3 unique, and the filter keeps jump, book and swim in that order |
| DuplicateChecker.KeepAllUnique | src/tests/duplicateDetection.test.ts:131-136 | When no result is a duplicate the filter keeps every candidate |
| DuplicateChecker.DropTwoDuplicates | src/tests/duplicateDetection.test.ts:131-136 | Two leading duplicates followed by unique candidates leave exactly the unique ones |
| TextCleaner.RemoveZeroWidth | src/utils/textCleaner.ts:16 | Exactly the characters other than U+200B to U+200D and U+FEFF are kept, in their original order; text without them is unchanged |
| TextCleaner.BomStepIsNoOp | src/utils/textCleaner.ts:19 | After the zero-width removal, the leading byte order mark step never changes anything |
| TextCleaner.RemoveControls | src/utils/textCleaner.ts:22 | Exactly the characters that are not stripped controls are kept, in their original order; text without one is unchanged |
| TextCleaner.NormalizeSpaces | src/utils/textCleaner.ts:25 | Each special space becomes a plain space in place, and every other character is kept |
| TextCleaner.NormalizeLineBreaks | src/utils/textCleaner.ts:28-29 | No carriage return is left, only line feeds are added, and text without a carriage return is unchanged |
| TextCleaner.NormalizeLineBreaksOnePass | src/utils/textCleaner.ts:28-29 | The two replacements equal one left-to-right pass in which "\r\n" and a lone '\r' each become one '\n' |
| TextCleaner.CrLfBecomesOneBreak | src/utils/textCleaner.ts:28 | A "\r\n" pair not preceded by a carriage return becomes exactly one line feed, with the text on either side normalised independently |
| TextCleaner.VisibleRemoveInvisibles | src/utils/textCleaner.ts:16-25 | The character steps keep every visible character, in order |
| TextCleaner.VisibleLineBreaks | src/utils/textCleaner.ts:28-29 | The line-break step keeps every visible character, in order |
| TextCleaner.CollapseBlankLines | src/utils/textCleaner.ts:32 | No run of three line feeds is left, every character is a line feed or comes from the input, and the text starts with a line feed exactly when the input did |
| TextCleaner.CollapseBlankLinesFixpoint | src/utils/textCleaner.ts:32 | Text without a run of three line feeds is left unchanged |
| TextCleaner.VisibleCollapse | src/utils/textCleaner.ts:32 | Collapsing blank lines keeps every visible character, in order |
| TextCleaner.TrimLineEnds | src/utils/textCleaner.ts:35 | No line of the result ends in whitespace |
| TextCleaner.TrimLineEndsLinewise | src/utils/textCleaner.ts:35 | Line by line, the result is the input with each line's trailing whitespace removed; no line is merged, split, added or lost |
| TextCleaner.VisibleTrimLineEnds | src/utils/textCleaner.ts:35 | Trimming line ends keeps every visible character, in order |
| TextCleaner.TrimLineEndsFixpoint | src/utils/textCleaner.ts:35 | Text whose lines already end without whitespace is unchanged |
| TextCleaner.TrimKeepsLinesTrimmed | src/utils/textCleaner.ts:38 | The final trim keeps every line free of trailing whitespace |
| TextCleaner.VisibleTrim | src/utils/textCleaner.ts:38 | The final trim keeps every visible character, in order |
| TextCleaner.CleanPlainText | src/utils/textCleaner.ts:13-40 | The non-HTML result holds no stripped character and no carriage return, no line ends in whitespace, neither end is whitespace, and it has exactly the input's visible characters in the input's order |
| TextCleaner.CleanTextContent | src/utils/textCleaner.ts:5-41 | Empty stays empty, text the HTML test accepts is only trimmed, and any other text comes out clean as above with its visible characters kept in order |
| TextCleaner.CleanPlainTextFixpoint | src/utils/textCleaner.ts:5-40 | Already clean text without a run of three line feeds comes out of the plain-text branch, and of the cleaner when the HTML test rejects it, unchanged |
| TextCleaner.CleanTextContentTrimmed | src/utils/textCleaner.ts:5-41 | Whichever branch is taken, the result neither starts nor ends with whitespace |
| TextCleaner.PlainAsciiUnchanged | src/utils/textCleaner.ts:13-29 | Printable ASCII text without a carriage return passes the character steps unchanged |
| TextCleaner.WhitespaceLinesEscapeCollapse | src/utils/textCleaner.ts:32-38 | Two space-only lines become three consecutive line feeds after cleaning, and cleaning again changes the text, so the cleaner is not idempotent |
| TextCleaner.SanitizeForDisplay | src/utils/textCleaner.ts:46-55 | The display sanitiser adds nothing to the cleaner: its own empty-text guard agrees with the cleaner's, so its result is the cleaned text |
| TextCleaner.RemoveTags | src/utils/textCleaner.ts:94 | No complete tag is left, the text never grows, and text without a tag is unchanged |
| TextCleaner.RemoveTagsIdempotent | src/utils/textCleaner.ts:94 | Removing tags twice is removing them once |
| TextCleaner.NoTagIsNotHtml | src/utils/textCleaner.ts:10 | Text without a complete tag never passes the HTML test |
| TextCleaner.StripMarkdown | src/utils/textCleaner.ts:61-96 | The result always comes from the plain-text branch of the cleaner, so it is clean in the sense above |
| EnhanceVocabulary.KeyToUse | src/services/enhanceVocabularyService.ts:3 | A non-empty argument wins, then a non-empty stored key; a chosen key is never empty, and there is no key exactly when the argument, the stored key and the environment key are all missing or empty |
| EnhanceVocabulary.NamesDistinct | src/services/enhanceVocabularyService.ts:13-45 | The seven field names are distinct and none is "bangla" |
| EnhanceVocabulary.MissingOf | src/services/enhanceVocabularyService.ts:10-45 | Reference definition: the fields of an order that are missing, in that order |
| EnhanceVocabulary.NeedsEnhancement | src/services/enhanceVocabularyService.ts:10-45 | The pushed list equals the reference definition, so it holds exactly the missing fields in the fixed check order |
| EnhanceVocabulary.PushChain | src/services/enhanceVocabularyService.ts:13-45 | The reference definition over the check order is the chain of seven conditional pushes |
| EnhanceVocabulary.VerbFormsOnlyForVerbs | src/services/enhanceVocabularyService.ts:13-15 | "verbForms" is listed exactly when the part of speech is exactly "Verb" and verb forms are absent |
| EnhanceVocabulary.NarrowFields | src/services/enhanceVocabularyService.ts:47-50 | Without a non-empty request lacking "all" the list is unchanged; otherwise it keeps exactly the listed fields whose name was asked for |
| EnhanceVocabulary.FilterMissingOf | src/services/enhanceVocabularyService.ts:10-50 | Filtering the missing fields of an order keeps those that pass both tests, still in that order |
| EnhanceVocabulary.NarrowedNeeds | src/services/enhanceVocabularyService.ts:10-50 | The narrowed list is exactly the fields that are missing and asked for, in the fixed check order |
| EnhanceVocabulary.AllMeansEverything | src/services/enhanceVocabularyService.ts:48 | A request naming "all" narrows nothing |
| EnhanceVocabulary.KeepRequested | src/services/enhanceVocabularyService.ts:146-152 | The returned keys are exactly the listed field names the reply defines, with the reply's values |
| EnhanceVocabulary.Enhance | src/services/enhanceVocabularyService.ts:1-154 | A missing key throws before any analysis; an empty final list returns {} with no request; otherwise the request carries exactly the narrowed list, a thrown reply error is passed on, and a parsed reply is cut down to the listed fields |
| EnhanceVocabulary.CompleteEntryNeedsNothing | src/services/enhanceVocabularyService.ts:13-55 | An entry with every field well filled returns {} without a request |
| UtmTracking.ExtractKeys | src/utils/utmTracking.ts:27-32 | A key is extracted exactly when it is among the keys read and its query value is non-empty, with that value |
| UtmTracking.ExtractUTMParams | src/utils/utmTracking.ts:16-35 | Exactly the five UTM keys whose query value is non-empty, each with that value |
| UtmTracking.ExtractEmptyIff | src/utils/utmTracking.ts:16-35 | The extracted object is empty exactly when the query carries no non-empty UTM value |
| UtmTracking.PersistUTMParams | src/utils/utmTracking.ts:40-55 | An empty object writes nothing; otherwise the parameters are stored with an expiry 30 days on, and each failing write leaves what it would have replaced |
| UtmTracking.ClearUTMParams | src/utils/utmTracking.ts:88-96 | Both storage keys are removed |
| UtmTracking.GetStoredUTMParams | src/utils/utmTracking.ts:61-83 | Parameters come back exactly when they are stored, parse and are not past their expiry; an expired read removes both keys; otherwise storage is untouched |
| UtmTracking.ExpiredStaysExpired | src/utils/utmTracking.ts:69-71 | Once past its expiry, stored data stays expired at every later instant, and data without an expiry never expires |
| UtmTracking.PersistThenRead | src/utils/utmTracking.ts:44-78 | A read no later than 30 days after a persist gives back the persisted parameters |
| UtmTracking.PersistThenReadExpired | src/utils/utmTracking.ts:69-75 | A read after the 30 days returns null and leaves storage empty |
| UtmTracking.NoExpiryNeverExpires | src/utils/utmTracking.ts:66-78 | Parameters stored without an expiry key never expire |
| UtmTracking.FailedExpiryWriteKeepsOldDeadline | src/utils/utmTracking.ts:44-54 | When only the expiry write fails, the new parameters expire at the old deadline |
| UtmTracking.TrackEvent | src/utils/utmTracking.ts:101-113 | The event carries its name, the current time and exactly the parameters given |
| UtmTracking.SetParam | src/utils/utmTracking.ts:128 | After a set, the name has exactly one pair with the new value, and the pairs of every other name are unchanged; the result is exactly the `Placed` arrangement: the new pair takes the place of the first pair with the name and later ones are dropped, or it is appended when the name was absent |
| UtmTracking.SetAll | src/utils/utmTracking.ts:126-130 | When no key is truthy the query is unchanged |
| UtmTracking.SetAllSets | src/utils/utmTracking.ts:126-130 | After the sets each truthy key has exactly one pair with its value, and every name not set keeps its pairs |
| UtmTracking.FreshSetAppends | src/utils/utmTracking.ts:147-152 | On a query holding none of the names, the sets append exactly the truthy entries in key order |
| UtmTracking.AppendUTMToUrl | src/utils/utmTracking.ts:118-137 | Null or empty parameters, or a URL that fails to parse, give the URL unchanged; otherwise the serialised URL with each truthy key set and all else kept |
| UtmTracking.GetUTMQueryString | src/utils/utmTracking.ts:142-156 | The result is empty exactly for null or all-empty parameters; otherwise it is "?" and the encoded truthy entries joined by "&" |
| UtmTracking.QueryStringRoundTrip | src/utils/utmTracking.ts:142-156 | When encoding never produces '&', splitting the query string after "?" at "&" gives back one encoded piece per truthy entry, in key order |
| UtmContext.Mount | src/contexts/UTMContext.tsx:23 | A new provider holds null |
| UtmContext.OnSearchChange | src/contexts/UTMContext.tsx:27-44 | URL parameters win and are persisted; otherwise unexpired stored parameters are loaded; otherwise the state is kept |
| UtmContext.UrlWins | src/contexts/UTMContext.tsx:31-35 | A URL with UTM parameters sets the state to exactly those parameters, whatever was stored |
| UtmContext.CapturedParamsReturn | src/contexts/UTMContext.tsx:31-43 | Parameters captured on one visit come back on a later visit without any, up to 30 days on, even in a new provider |
| UtmContext.NothingStoredKeepsState | src/contexts/UTMContext.tsx:36-43 | Without URL parameters and without usable stored ones, the state is kept, not reset to null |
| UtmContext.TrackEvent | src/contexts/UTMContext.tsx:55-57 | Events carry the current state |
| UtmContext.GetUTMLink | src/contexts/UTMContext.tsx:60-62 | Links are built from the current state, and a null state leaves the URL unchanged |
| UtmContext.GetUTMQuery | src/contexts/UTMContext.tsx:65-67 | The query string is empty exactly when the current state is null or has no truthy value |
| UtmContext.CallbacksFollowUrl | src/contexts/UTMContext.tsx:27-67 | After a visit with UTM parameters, events carry them and the query string is non-empty |
| UtmContext.UseUTM | src/contexts/UTMContext.tsx:83-89 | Outside a provider the hook throws its error; inside it returns the provider's value |
| BackendTest.UploadDataInChunks | src/admin/BackendTest.tsx:266-283 | Empty data posts nothing. The posted chunks are the data's chunks in order, up to and including a failing request. The status counts are min((j+1)·batchSize, total), and the bar ends at the total after a full upload |
| BackendTest.UploadLoop | src/admin/BackendTest.tsx:270-282 | The loop posts the chunks of the data in order, the status line shows each chunk's end offset, and a rejected request leaves the loop without setting the bar |
| BackendTest.UploadStep | src/admin/BackendTest.tsx:270-281 | Each turn posts the next chunk of the data and keeps the loop invariant |
| BackendTest.UploadDone | src/admin/BackendTest.tsx:270-282 | When the loop ends every chunk has been posted and the last count shown is the total |
| BackendTest.UploadRoundTrip | src/admin/BackendTest.tsx:270-271 | The posted chunks flatten back to the data, and all but the last hold batchSize records |
| BackendTest.MarksAt | src/admin/BackendTest.tsx:272 | The j-th status count is min((j+1)·batchSize, total) |
| BackendTest.Cell | src/admin/BackendTest.tsx:316-325 | A missing cell reads as "" and a present one as itself |
| BackendTest.SplitList | src/admin/BackendTest.tsx:322-323 | An empty cell gives []; otherwise one trimmed item per comma-separated piece, empty pieces kept |
| BackendTest.SplitCountsCommas | src/admin/BackendTest.tsx:322-323 | A cell splits into one piece more than it has commas |
| BackendTest.SplitListRoundTrip | src/admin/BackendTest.tsx:322-323 | Items without surrounding whitespace join back to the cell they came from |
| BackendTest.MapRowFields | src/admin/BackendTest.tsx:316-331 | A mapped row's text columns are their cells or "", an empty part of speech becomes "Unknown", synonyms and antonyms are the split lists, the two flags are true only for the text "true", userId is "bulk-import" and createdAt is the import time |
| BackendTest.MapRowParsed | src/admin/BackendTest.tsx:320-329 | Examples are [] for an empty cell, the parsed array for a cell starting with '[' and the one-element list of the cell otherwise; verb forms and related words are null for an empty cell and the parse of the cell otherwise |
| BackendTest.MapRowFails | src/admin/BackendTest.tsx:320-329 | The mapping throws exactly when one of the JSON cells it parses fails to parse |
| BackendTest.ParseIfSet | src/admin/BackendTest.tsx:328-329 | An empty cell gives null; any other cell gives its parse, and throws exactly when the parse fails |
| BackendTest.MapAll | src/admin/BackendTest.tsx:315 | A mapping that may throw succeeds exactly when every element maps, giving every mapped element in order |
| BackendTest.MapRows | src/admin/BackendTest.tsx:315-332 | All rows map, in order, or the import throws |
| BackendTest.ToggleSelection | src/admin/BackendTest.tsx:197-202 | The toggled id flips membership and every other id is unchanged |
| BackendTest.ToggleTwice | src/admin/BackendTest.tsx:197-202 | Toggling the same id twice restores the selection |
| BackendTest.ToggleSelectAll | src/admin/BackendTest.tsx:204-210 | Checked selects exactly the ids of the results; unchecked selects nothing |
| AdminDashboard.Days | src/admin/AdminDashboard.tsx:74 | A week has 7 days and a month 30 |
| AdminDashboard.PosKey | src/admin/AdminDashboard.tsx:64 | A present part of speech is its own key and a missing one counts as "unknown", so every key is non-empty |
| AdminDashboard.Bump | src/admin/AdminDashboard.tsx:65 | Counting a key adds one to its count, or appends it with count one; the other counts, the key order and key distinctness are kept |
| AdminDashboard.Distribution | src/admin/AdminDashboard.tsx:63-67 | Each key that occurs has exactly one entry, holding its number of occurrences, and the counts sum to the number of words |
| AdminDashboard.PieCoversEveryWord | src/admin/AdminDashboard.tsx:63-71 | The values of the capitalised, sorted pie slices add up to the number of words |
| AdminDashboard.Capitalize | src/admin/AdminDashboard.tsx:70 | The first character is upper-cased and the rest kept |
| AdminDashboard.PieData | src/admin/AdminDashboard.tsx:69-71 | The slices are a permutation of the capitalised distribution, largest first |
| AdminDashboard.SameNameSlices | src/admin/AdminDashboard.tsx:69-71 | Keys differing only in first-letter case give two slices with the same name |
| AdminDashboard.RecentWords | src/admin/AdminDashboard.tsx:50-56 | The recent words are the first min(5, n) of the list sorted newest first |
| AdminDashboard.RecentAreNewest | src/admin/AdminDashboard.tsx:50-56 | No word left out of the recent five is newer than one kept |
| AdminDashboard.GrowthData | src/admin/AdminDashboard.tsx:74-85 | There are 7 or 30 buckets, oldest first, the last for today, each counting the words created that day |
| AdminDashboard.CountOnDay | src/admin/AdminDashboard.tsx:79 | A day never counts more words than there are |
| AdminDashboard.CountOnDayMeans | src/admin/AdminDashboard.tsx:79 | The count is positive exactly when some word was created that day, and equals the total exactly when every word was |
| AdminDashboard.Window | src/admin/AdminDashboard.tsx:76-77 | n consecutive days, oldest first, the last being today |
| AdminDashboard.SumOverDistinctDays | src/admin/AdminDashboard.tsx:76-85 | Counts over distinct days add up to at most the number of words |
| AdminDashboard.GrowthBounded | src/admin/AdminDashboard.tsx:76-85 | The growth buckets together count at most every word |
| AdminDashboard.ComputeStats | src/admin/AdminDashboard.tsx:44-94 | An empty list gives null. Otherwise the total is the list length, and the pie is built from the part-of-speech distribution. "Added today" counts today's words and equals the last growth bucket. The recent words are as above, and the buckets sum to at most the total |
| ResourceGallery.Columns | src/admin/AdminResourceGallery.tsx:77-82 | 4, 3, 2 or 1 columns for widths of at least 1280, 1024, 640, or less |
| ResourceGallery.ColumnsMonotone | src/admin/AdminResourceGallery.tsx:77-82 | A wider window never has fewer columns |
| ResourceGallery.FilteredImages | src/admin/AdminResourceGallery.tsx:101-118 | The result is a permutation of the images whose lower-cased title contains the lower-cased query and whose day matches any date set, in createdAt order for newest or oldest |
| ResourceGallery.EmptyQueryKeepsAll | src/admin/AdminResourceGallery.tsx:104-105 | No query and no date keep every image |
| ResourceGallery.SearchIgnoresCase | src/admin/AdminResourceGallery.tsx:104 | Lower-casing the query never changes what is kept |
| ResourceGallery.GridRows | src/admin/AdminResourceGallery.tsx:121-128 | The grid view gives the images cut into rows of `columns`; the list view gives no rows |
| ResourceGallery.GridRowsRoundTrip | src/admin/AdminResourceGallery.tsx:121-128 | The rows flatten back to the images, each row is non-empty with at most `columns` images, and all but the last are full |
| ResourceGallery.Count | src/admin/AdminResourceGallery.tsx:130 | The count is the number of rows in the grid view and of images in the list view, and is zero exactly when no image is shown |
| PrintVocabulary.InitialPos | src/pages/PrintVocabulary.tsx:38-41 | Loading selects the first entry's part of speech only when nothing is selected and the list is non-empty |
| PrintVocabulary.FilteredVocabs | src/pages/PrintVocabulary.tsx:65-68 | The entries whose part of speech equals the selection exactly, in list order; nothing without a selection |
| PrintVocabulary.FilterIdempotent | src/pages/PrintVocabulary.tsx:65-68 | Filtering the filtered list again changes nothing |
| PrintVocabulary.StartPdf | src/pages/PrintVocabulary.tsx:70-78 | No selection and no matching entry each stop with their message; otherwise the PDF lists the non-empty filtered entries |
| PrintVocabulary.SynonymsText | src/pages/PrintVocabulary.tsx:143 | The synonyms joined by ", ", or "-" when there are none |
| PrintVocabulary.Rows | src/pages/PrintVocabulary.tsx:138-145 | One row per entry, each showing that entry's Bangla and English text (or '-') and its synonym cell, so no text cell is empty |
| PrintVocabulary.RowsNumbered | src/pages/PrintVocabulary.tsx:138-145 | Rows are numbered 1 to n in order, shading alternates starting with the first row, and a non-empty English word is shown as it is |
| PrintVocabulary.PreviewSynonyms | src/pages/PrintVocabulary.tsx:283 | The preview shows at most the first three synonyms, or "-" |
| PrintVocabulary.PreviewIsPrefix | src/pages/PrintVocabulary.tsx:143-283 | The preview is a prefix of the PDF's synonym cell |
| PrintVocabulary.SynonymsRoundTrip | src/pages/PrintVocabulary.tsx:143 | Splitting the synonym cell at commas and trimming gives back the synonyms, when none holds a comma or surrounding whitespace |
| PrintVocabulary.PdfFilename | src/pages/PrintVocabulary.tsx:166 | "vocabulary-", the lower-cased part of speech, "-", the export date character by character with each '/' turned into '-', and ".pdf" |
| PrintVocabulary.FilenameIgnoresCase | src/pages/PrintVocabulary.tsx:166 | The file name does not depend on the case of the part of speech |
| ContentImages.ChosenUrl | src/utils/contentImageProcessor.ts:42 | The medium URL when it is non-empty, the full URL otherwise |
| ContentImages.MatchAt | src/utils/contentImageProcessor.ts:20 | A match at a position is the text of an image with a data-URL source, an alt text without ']' and a source without ')' (the converse is MatchImageAt) |
| ContentImages.MatchImageAt | src/utils/contentImageProcessor.ts:20 | Wherever the text of such an image starts, the pattern matches exactly that image and ends right after it |
| ContentImages.Scan | src/utils/contentImageProcessor.ts:20-22 | The search yields at most one piece per character, and every image piece's alt text has no ']' and its source no ')' (which pieces it yields is ScanPieceAt) |
| ContentImages.ScanHead | src/utils/contentImageProcessor.ts:20-22 | An image matched where the search stands is one piece and the search resumes after it; otherwise the character is one piece |
| ContentImages.ScanFindsImageAt | src/utils/contentImageProcessor.ts:20-22 | An image in the text where the search stands is found there, whole, as one piece |
| ContentImages.ScanAroundImage | src/utils/contentImageProcessor.ts:20-22 | Text without '!' on either side of an image scans to its characters, the one image piece, and the characters after it |
| ContentImages.ScanPieceAt | src/utils/contentImageProcessor.ts:20-22 | Every piece is the one the pattern gives at the position it starts at: the matched image, or the character where nothing matches |
| ContentImages.ScanRoundTrip | src/utils/contentImageProcessor.ts:20-22 | The pieces found by the search render back to the original text |
| ContentImages.ScanFindsDataImages | src/utils/contentImageProcessor.ts:20-22 | Every image piece the search finds has a data-URL source |
| ContentImages.RewritePieceMeans | src/utils/contentImageProcessor.ts:27-47 | A successful upload rewrites the source to the chosen URL and keeps the alt text; a failed one keeps the image; text is kept |
| ContentImages.RewriteKeepsText | src/utils/contentImageProcessor.ts:24-48 | One piece per piece: text stays text and is kept, images stay images and keep their alt text |
| ContentImages.RewriteAt | src/utils/contentImageProcessor.ts:22-48 | Each piece is rewritten by the upload whose ordinal counts the images before it, and by nothing else |
| ContentImages.RewriteAllFail | src/utils/contentImageProcessor.ts:44-47 | When every upload fails, nothing is rewritten |
| ContentImages.ProcessMarkdown | src/utils/contentImageProcessor.ts:17-50 | The result renders the rewritten pieces of the original text, and equals the text when every upload fails (that a present image is found and rewritten is ImageInTextRewritten) |
| ContentImages.LoneImageRewritten | src/utils/contentImageProcessor.ts:20-43 | A lone data image with a successful upload becomes the same image pointing at the upload |
| ContentImages.ImageInTextRewritten | src/utils/contentImageProcessor.ts:17-50 | A data image inside text without other '!' becomes the same image pointing at its upload when the upload succeeds, and the text around it is kept |
| ContentImages.StateOfMeans | src/utils/contentImageProcessor.ts:60-81 | An element is replaced exactly when it has a data-image source and its upload succeeds; otherwise it is untouched |
| ContentImages.RewriteImgsKeeps | src/utils/contentImageProcessor.ts:60-82 | One state per element; only a data image is ever replaced, and an untouched element keeps its source |
| ContentImages.RewriteImgsAt | src/utils/contentImageProcessor.ts:60-82 | Each element is handled by the upload whose ordinal counts the data images before it |
| ContentImages.ProcessHtml | src/utils/contentImageProcessor.ts:52-84 | The serialised document when some image changed; the original text otherwise |
| ContentImages.NoDataImagesVerbatim | src/utils/contentImageProcessor.ts:63-84 | With no data image the text comes back verbatim |
| ContentImages.ProcessContentImages | src/utils/contentImageProcessor.ts:11-86 | Empty content gives "", and content comes back unchanged when every upload fails, on either branch |
| VoiceSearch.StartListening | src/hooks/useVoiceSearch.ts:56-235 | Without support only the notice is shown; otherwise the final flag, language and interim text are reset, and listening starts unless starting the recognizers throws, in which case listening is off again and the failure notice is shown |
| VoiceSearch.HandleResult | src/hooks/useVoiceSearch.ts:89-143 | After a final result everything is ignored; an interim result only updates the live text and language; a final result is delivered once and ends listening |
| VoiceSearch.HandleError | src/hooks/useVoiceSearch.ts:145-185 | "aborted" is always ignored and any error once a result exists is ignored; otherwise the error timer is scheduled |
| VoiceSearch.ErrorNotice | src/hooks/useVoiceSearch.ts:169-181 | "no-speech" and "not-allowed" get their own notices; every other code the generic failure |
| VoiceSearch.HandleEnd | src/hooks/useVoiceSearch.ts:187-204 | The end timer is scheduled only without a final result and with empty captured interim text |
| VoiceSearch.FireTimer | src/hooks/useVoiceSearch.ts:160-202 | A fired timer leaves the pending queue. After a final result it does nothing else; otherwise it ends listening, clears the live text and shows its notice. It never delivers |
| VoiceSearch.StopListening | src/hooks/useVoiceSearch.ts:238-252 | Stop clears listening, the live text and the final flag, and keeps what was delivered |
| VoiceSearch.Step | src/hooks/useVoiceSearch.ts:89-252 | Any event delivers at most one transcript and never changes earlier deliveries |
| VoiceSearch.AtMostOneResult | src/hooks/useVoiceSearch.ts:90-135 | Within a session, whatever the recognizers and timers do, at most one transcript is delivered, and after it nothing else is |
| VoiceSearch.InterimNeverDelivers | src/hooks/useVoiceSearch.ts:98-110 | Interim results never reach the result callback |
| VoiceSearch.ConfigureAsWritten | src/hooks/useVoiceSearch.ts:77-87 | As written, only the English recognizer gets interim results |
| VoiceSearch.Configure | src/hooks/useVoiceSearch.ts:77-87 | The intended configuration gives both recognizers interim results |
| VoiceSearch.AsWrittenNoLiveBangla | src/hooks/useVoiceSearch.ts:84-87 | With the configuration as written, no run ever shows live Bangla text |
| VoiceSearch.ConfiguredShowsLiveBangla | src/hooks/useVoiceSearch.ts:84-87 | With the intended configuration, a Bangla interim result is shown right after a start |
| ShareContext.Begin | src/contexts/ShareContext.tsx:32-43 | A share in progress makes the call a no-op; otherwise the item and its id are set and, when tracking is available, the opening is tracked |
| ShareContext.BusyWhileSharing | src/contexts/ShareContext.tsx:32-106 | The guard is up from the start of a share until its clean-up, unless the item's id is empty, which is falsy and leaves it down |
| ShareContext.Outcome | src/contexts/ShareContext.tsx:66-101 | Each attempt ends in exactly one of native share, download or error, for the item's id |
| ShareContext.ErrorMessage | src/contexts/ShareContext.tsx:93-101 | A missing capture element records its own message; a thrown Error its message; anything else "Unknown error" |
| ShareContext.Finish | src/contexts/ShareContext.tsx:46-106 | Both pieces of state are cleared whatever happened, and, when tracking is available, exactly one outcome is tracked |
| ShareContext.AttemptRoundTrip | src/contexts/ShareContext.tsx:32-106 | A whole attempt shows the item, then leaves the provider idle with the opening and one outcome tracked |
| ShareContext.SecondShareIgnored | src/contexts/ShareContext.tsx:33 | A second share while one is in progress changes nothing |
| ShareContext.DashRuns | src/contexts/ShareContext.tsx:64 | The dashed text holds no whitespace and is never longer than the input |
| ShareContext.DashRunsKeepsWord | src/contexts/ShareContext.tsx:64 | A whitespace-free prefix is kept as it is |
| ShareContext.DashRunsJoinsWords | src/contexts/ShareContext.tsx:64 | Two words are joined by a single '-', however much whitespace separates them |
| ShareContext.DashRunsIdempotent | src/contexts/ShareContext.tsx:64 | Collapsing the runs twice is collapsing them once |
| ShareContext.ImageFilename | src/contexts/ShareContext.tsx:64-80 | "vocabulary-", then the lower-cased English word with its whitespace runs dashed, then ".png", with no whitespace |
| VocabCard.TierOf | src/components/VocabCard.tsx:23-35 | More than 50 code units is long, more than 30 mid-length, otherwise short |
| VocabCard.TierMonotone | src/components/VocabCard.tsx:23-35 | Longer text never gets larger type |
| VocabCard.TextSize | src/components/VocabCard.tsx:23-35 | The Bangla and the English size class of each tier, from one table per script |
| VocabCard.SizeClassesDistinct | src/components/VocabCard.tsx:23-35 | In either script, two texts get the same size class exactly when they are in the same tier |
| VocabCard.ButtonsOf | src/components/VocabCard.tsx:99-161 | Speak always shows; favourite only offline; improve only offline with a handler; delete only for an admin with a handler |
| VocabCard.OnlineEntryButtons | src/components/VocabCard.tsx:99-138 | An entry from the server shows neither the favourite nor the improve button |
| VocabCard.HandleDelete | src/components/VocabCard.tsx:60-65 | The dialog shows only with a handler, and the id is passed on only after confirmation |
| VocabCard.HandleImprove | src/components/VocabCard.tsx:67-79 | With a handler the flag goes true then false and the handler gets the id whether the request resolves or rejects, and an error is logged exactly when it rejects; without one nothing happens |
| Seqs.FilterConcat | src/admin/AdminResourceGallery.tsx:103-107 | Filtering distributes over concatenation, keeping order |
| Seqs.FilterMembers | src/pages/PrintVocabulary.tsx:67 | An element survives a filter exactly when it is in the input and passes |
| Seqs.Chunks | src/admin/AdminResourceGallery.tsx:124-126 | Consecutive slices of n elements, only the last possibly shorter, that flatten back to the input |
| Seqs.ChunksCount | src/admin/AdminResourceGallery.tsx:124-126 | There are no more slices than elements, and none only for the empty input |
| Sorting.SortBy | src/admin/AdminResourceGallery.tsx:108-117 | The sort result is a permutation of its input, ordered by the key |
| Sorting.TakeFirst | src/admin/AdminDashboard.tsx:56 | The first n of a sorted list are sorted, drawn from it, and precede everything left out |
| Strings.Trim | src/utils/textCleaner.ts:38 | The trim never grows the text, and neither of its ends is whitespace |
| Strings.TrimSlice | src/utils/textCleaner.ts:38 | The trim is a slice of the text, with only whitespace outside it |
| Strings.TrimEmptyIff | src/services/enhanceVocabularyService.ts:38 | Text trims to "" exactly when it is all whitespace |
| Strings.JoinSplit | src/admin/BackendTest.tsx:322 | Joining the pieces of a split with the same separator gives back the text |
| Strings.SplitJoin | src/pages/PrintVocabulary.tsx:143 | Splitting a join of separator-free pieces gives back the pieces |
| Strings.ContainsIff | src/services/syncService.ts:73 | `includes` holds exactly when the pattern occurs at some offset |
| Strings.LowerIdempotent | src/admin/AdminResourceGallery.tsx:104 | Lower-casing twice is lower-casing once |

## Left out

- Firestore, Dexie and `localStorage` I/O. The remote store is a sequence, the cache a map and the storage a two-key record. Every failure is a field of the environment.
- The `dexieDb` module is not part of this model. Advancing the cursor sets it to the oracle "now", and a failing bulk write is all-or-nothing.
- Timers and listeners are modelled as handle state and explicit events, not real scheduling. This covers the sync interval, the online listener, the share `setTimeout`, and the voice-search 500 ms and 1000 ms delays.
- The duplicate checker's implementation is not part of this model. Its matcher compares the ASCII lower-cased word and part of speech without trimming; messages and the `duplicates` list are not modelled.
- Network and parsing glue is an oracle. This covers the OpenAI request and prompt text, the JSON extraction and `JSON.parse`, Papa.parse, FileReader, Blob, and the image upload service.
- URL parsing, `URLSearchParams` parsing and percent-encoding are function parameters (sections 5.1 and 6.2 of the WHATWG URL Standard). The rest of the URL is opaque.
- `Object.entries` order is modelled as the fixed key order of the UTM interface.
- Calendar and time zones are replaced by integer timestamps and a `dayOf` function: `isSameDay`, `subDays`, `setDate(+30)` across daylight saving time, `toLocaleDateString`. Thirty days is 30 × 86 400 000 ms.
- Floating point is left out: percentages, the progress-bar rounding, recognition confidence, and PDF scale. The progress bar is modelled as the count it is computed from.
- `toLowerCase` and `toUpperCase` use ASCII case mapping only.
- Dafny characters are Unicode scalar values. `.length` is computed in UTF-16 code units, but strings holding lone surrogates are not modelled.
- DOMParser, `innerHTML` serialisation, html2pdf, html-to-image, `navigator.share` and the clipboard are parameters or left out. The HTML branch takes the document's image sources and a serialiser as inputs.
- Whether content looks like markdown (the regular expression of contentImageProcessor.ts line 15) is an input.
- The markdown rewrites of `stripMarkdown` (lines 67 to 91) are a parameter; only the tag removal and the final cleaning are modelled.
- `String.prototype.replace` replaces the first occurrence of the matched text, which could lie earlier than the match when the same image text appears twice. The model rewrites each match in place.
- `$` substitution patterns in replacement strings are assumed absent.
- React rendering, toasts and `console` output are left out, and so is the `page_view` tracking effect of UTMContext.tsx lines 47-52. The extra fields of `trackEvent` are not modelled.
- The stale `sharingId` closure of `shareAsImage` and the stale `interimTranscript` closure of `handleEnd` are modelled as a captured value, not as React's render cycle.
- Ties in the sorts keep the input order; the browser's sort is also stable.
- AdminDashboard.ComputeStats: "added today" is compared with the last bucket by day number; the `isSameDay` semantics are the `dayOf` parameter.
- AdminDashboard.PieData: the order of equal-valued slices is not stated.
- ResourceGallery.Count: the number of rows is not stated as a ceiling division, only through the chunks.
- BackendTest.MapRow: `JSON.parse` is an oracle, the row is a map from column name to text, and `createdAt` is the import time as a number rather than its ISO-8601 text.
- BackendTest.SplitList: a cell holding only whitespace gives `[""]`, as in the source; nothing downstream distinguishes it.
- EnhanceVocabulary.Enhance: the request and reply are an oracle, so the prompt contents are not stated.
- UtmTracking.GetStoredUTMParams: a storage read that throws is not modelled; a stored value that does not parse reads as null.

## Findings

| source | as written | input that shows it | evidently intended | confidence | as-written member | corrected member |
|---|---|---|---|---|---|---|
| src/hooks/useVoiceSearch.ts:86 | `enRec.interimResults = true` is set a second time, so the Bangla recognizer keeps the default of no interim results | Start a session, then let the Bangla recognizer hear speech before its final result: no live Bangla text is ever shown | `bnRec.interimResults = true`, giving both recognizers live feedback | not executed | VoiceSearch.AsWrittenNoLiveBangla | VoiceSearch.ConfiguredShowsLiveBangla |

=== FILE: admin_dashboard.dfy ===
/** The statistics of the admin dashboard (`src/admin/AdminDashboard.tsx`,
    the `stats` memo): word count, part-of-speech distribution and its pie
    slices, the five newest words, and the per-day growth series with the
    words added today. Instants are integer milliseconds; the calendar day
    of an instant in the local time zone is an oracle `dayOf`. */
module AdminDashboard {
  import opened Wrappers
  import Strings
  import Seqs
  import Sorting

  /** What the statistics read of a vocabulary entry. */
  datatype Vocab = Vocab(id: string, partOfSpeech: string, createdAt: int)

  datatype TimeRange = Week | Month

  /** Line 74: the number of days in the growth series. */
  function Days(range: TimeRange): (n: nat)
    ensures range == Week ==> n == 7
    ensures range == Month ==> n == 30
  {
    if range == Week then 7 else 30
  }

  // ---------------------------------------------------------------------
  // Part-of-speech distribution.

  /** Line 64: an entry without a part of speech counts as 'unknown'. */
  function PosKey(v: Vocab): (k: string)
    ensures k != []
    ensures v.partOfSpeech != [] ==> k == v.partOfSpeech
    ensures v.partOfSpeech == [] ==> k == "unknown"
  {
    if v.partOfSpeech == [] then "unknown" else v.partOfSpeech
  }

  /** One key of the distribution object and its count. */
  type Tally = seq<(string, nat)>

  predicate HasKey(t: Tally, x: string) {
    exists i :: 0 <= i < |t| && t[i].0 == x
  }

  predicate DistinctKeys(t: Tally) {
    forall i, j :: 0 <= i < j < |t| ==> t[i].0 != t[j].0
  }

  /** How many of `keys` equal `k`. */
  function Occurrences(keys: seq<string>, k: string): nat {
    if keys == [] then 0 else (if keys[|keys| - 1] == k then 1 else 0) + Occurrences(keys[..|keys| - 1], k)
  }

  function SumCounts(t: Tally): nat {
    if t == [] then 0 else t[0].1 + SumCounts(t[1..])
  }

  lemma {:induction false} SumCountsAppend(t: Tally, e: (string, nat))
    ensures SumCounts(t + [e]) == SumCounts(t) + e.1
  {
    if t != [] {
      assert (t + [e])[1..] == t[1..] + [e];
      SumCountsAppend(t[1..], e);
    }
  }

  /** Raising the count at one position raises the sum by one. */
  lemma {:induction false} SumCountsBump(t: Tally, i: nat)
    requires i < |t|
    ensures SumCounts(t[i := (t[i].0, t[i].1 + 1)]) == SumCounts(t) + 1
  {
    if i > 0 {
      SumCountsBump(t[1..], i - 1);
      assert t[i := (t[i].0, t[i].1 + 1)][1..] == t[1..][i - 1 := (t[i].0, t[i].1 + 1)];
    }
  }

  function IndexOf(t: Tally, k: string): (r: Option<nat>)
    ensures r.Some? ==> r.value < |t| && t[r.value].0 == k
    ensures r.None? ==> forall i :: 0 <= i < |t| ==> t[i].0 != k
  {
    if t == [] then None
    else if t[0].0 == k then Some(0)
    else match IndexOf(t[1..], k)
      case None => None
      case Some(i) => Some(i + 1)
  }

  /** `acc[pos] = (acc[pos] || 0) + 1`: a known key counts one more; a new
      key is added at the end with count 1. */
  function Bump(t: Tally, k: string): (r: Tally)
    requires DistinctKeys(t)
    ensures DistinctKeys(r)
    ensures forall x :: HasKey(r, x) <==> x == k || HasKey(t, x)
    ensures SumCounts(r) == SumCounts(t) + 1
    ensures forall i :: 0 <= i < |r| ==> r[i].1 == (if i < |t| then t[i].1 else 0) + (if r[i].0 == k then 1 else 0)
    ensures |t| <= |r| && forall i :: 0 <= i < |t| ==> r[i].0 == t[i].0
  {
    match IndexOf(t, k)
    case Some(i) =>
      BumpExisting(t, k, i);
      t[i := (k, t[i].1 + 1)]
    case None =>
      BumpNew(t, k);
      t + [(k, 1)]
  }

  /** Counting a key already present adds one at its place. */
  lemma BumpExisting(t: Tally, k: string, i: nat)
    requires DistinctKeys(t) && i < |t| && t[i].0 == k
    ensures var r := t[i := (k, t[i].1 + 1)];
            && DistinctKeys(r)
            && (forall x :: HasKey(r, x) <==> x == k || HasKey(t, x))
            && SumCounts(r) == SumCounts(t) + 1
            && (forall j :: 0 <= j < |r| ==> r[j].1 == t[j].1 + (if r[j].0 == k then 1 else 0))
            && |r| == |t| && (forall j :: 0 <= j < |t| ==> r[j].0 == t[j].0)
  {
    SumCountsBump(t, i);
    var r := t[i := (k, t[i].1 + 1)];
    assert forall j :: 0 <= j < |t| ==> r[j].0 == t[j].0;
    forall x | HasKey(t, x) ensures HasKey(r, x) {
      var j :| 0 <= j < |t| && t[j].0 == x;
      assert r[j].0 == x;
    }
  }

  /** Counting a new key appends it with count one. */
  lemma BumpNew(t: Tally, k: string)
    requires DistinctKeys(t) && forall j :: 0 <= j < |t| ==> t[j].0 != k
    ensures var r := t + [(k, 1)];
            && DistinctKeys(r)
            && (forall x :: HasKey(r, x) <==> x == k || HasKey(t, x))
            && SumCounts(r) == SumCounts(t) + 1
            && (forall j :: 0 <= j < |r| ==> r[j].1 == (if j < |t| then t[j].1 else 0) + (if r[j].0 == k then 1 else 0))
            && (forall j :: 0 <= j < |t| ==> r[j].0 == t[j].0)
  {
    SumCountsAppend(t, (k, 1));
    var r := t + [(k, 1)];
    assert r[|t|] == (k, 1);
    forall x | HasKey(r, x) ensures x == k || HasKey(t, x) {
      var j :| 0 <= j < |r| && r[j].0 == x;
      if j < |t| { assert t[j].0 == x; }
    }
    forall x | HasKey(t, x) ensures HasKey(r, x) {
      var j :| 0 <= j < |t| && t[j].0 == x;
      assert r[j].0 == x;
    }
  }

  /** Lines 63 to 67: the distribution of `keys`, keys in order of first
      occurrence. */
  function Distribution(keys: seq<string>): (t: Tally)
    ensures DistinctKeys(t)
    ensures forall x :: HasKey(t, x) <==> x in keys
    ensures forall i :: 0 <= i < |t| ==> t[i].1 == Occurrences(keys, t[i].0)
    ensures SumCounts(t) == |keys|
  {
    if keys == [] then []
    else
      var init := keys[..|keys| - 1];
      var k := keys[|keys| - 1];
      assert keys == init + [k];
      var t0 := Distribution(init);
      var t := Bump(t0, k);
      assert forall i :: |t0| <= i < |t| ==> Occurrences(init, t[i].0) == 0 by {
        forall i | |t0| <= i < |t| ensures Occurrences(init, t[i].0) == 0 {
          OccurrencesAbsent(init, t[i].0);
        }
      }
      t
  }

  /** A key that does not occur counts zero. */
  lemma {:induction false} OccurrencesAbsent(keys: seq<string>, k: string)
    requires k !in keys
    ensures Occurrences(keys, k) == 0
  {
    if keys != [] {
      assert forall x :: x in keys[..|keys| - 1] ==> x in keys;
      OccurrencesAbsent(keys[..|keys| - 1], k);
    }
  }

  function PosKeys(vs: seq<Vocab>): (ks: seq<string>)
    ensures |ks| == |vs|
    ensures forall i :: 0 <= i < |vs| ==> ks[i] == PosKey(vs[i])
  {
    if vs == [] then [] else [PosKey(vs[0])] + PosKeys(vs[1..])
  }

  /** One slice of the pie chart. */
  datatype Slice = Slice(name: string, value: nat)

  /** Line 70: the first character upper-cased, the rest unchanged. */
  function Capitalize(s: string): (r: string)
    ensures |r| == |s|
    ensures |s| > 0 ==> r[0] == Strings.UpperChar(s[0]) && r[1..] == s[1..]
  {
    if s == [] then [] else [Strings.UpperChar(s[0])] + s[1..]
  }

  function ToSlices(t: Tally): (r: seq<Slice>)
    ensures |r| == |t|
    ensures forall i :: 0 <= i < |t| ==> r[i] == Slice(Capitalize(t[i].0), t[i].1)
  {
    if t == [] then [] else [Slice(Capitalize(t[0].0), t[0].1)] + ToSlices(t[1..])
  }

  function SliceValue(s: Slice): int { s.value }

  /** Lines 69 to 71: the slices, largest first. */
  function PieData(t: Tally): (r: seq<Slice>)
    ensures Sorting.Sorted(r, SliceValue, true)
    ensures multiset(r) == multiset(ToSlices(t))
  {
    Sorting.SortBy(ToSlices(t), SliceValue, true)
  }

  /** Keys that differ only in the case of their first letter give two
      slices with the same name. */
  lemma SameNameSlices()
    ensures var t := Distribution(["verb", "Verb"]);
            |t| == 2 && ToSlices(t)[0].name == ToSlices(t)[1].name == "Verb"
  {
    var ks: seq<string> := ["verb", "Verb"];
    assert "verb" != "Verb" by { assert "verb"[0] != "Verb"[0]; }
    var t1 := Distribution(ks[..1]);
    assert ks[..1][..0] == [];
    assert t1 == [("verb", 1)] by {
      var one := ks[..1];
      assert one[..0] == [] && one[0] == "verb";
      assert Distribution(one[..0]) == [];
      assert t1 == Bump([], "verb");
    }
    assert IndexOf(t1, "Verb") == None;
    var t := Distribution(ks);
    assert t == Bump(t1, "Verb");
    assert t == [("verb", 1), ("Verb", 1)];
    assert Capitalize("verb") == "Verb";
    assert Capitalize("Verb") == "Verb";
  }

  // ---------------------------------------------------------------------
  // Newest words.

  function CreatedAt(v: Vocab): int { v.createdAt }

  /** Lines 50 to 56: the first five of the list sorted newest first. */
  function RecentWords(vs: seq<Vocab>): (r: seq<Vocab>)
    ensures |r| == if |vs| < 5 then |vs| else 5
    ensures r == Sorting.SortBy(vs, CreatedAt, true)[..|r|]
    ensures forall x :: x in r ==> x in vs
    ensures forall i, j :: 0 <= i < j < |r| ==> r[i].createdAt >= r[j].createdAt
  {
    var sorted := Sorting.SortBy(vs, CreatedAt, true);
    var n := if |vs| < 5 then |vs| else 5;
    NewestPrefix(vs, sorted, n);
    sorted[..n]
  }

  /** A prefix of the newest-first order is drawn from the words and is
      itself newest first. */
  lemma NewestPrefix(vs: seq<Vocab>, sorted: seq<Vocab>, n: nat)
    requires sorted == Sorting.SortBy(vs, CreatedAt, true) && n <= |vs|
    ensures forall x :: x in sorted[..n] ==> x in vs
    ensures forall i, j :: 0 <= i < j < n ==> sorted[..n][i].createdAt >= sorted[..n][j].createdAt
  {
    forall x | x in sorted[..n] ensures x in vs {
      assert x in multiset(sorted);
    }
    forall i, j | 0 <= i < j < n ensures sorted[..n][i].createdAt >= sorted[..n][j].createdAt {
      assert Sorting.InOrder(CreatedAt, true, sorted[i], sorted[j]);
    }
  }

  /** No word left out of the five is newer than one kept. */
  lemma RecentAreNewest(vs: seq<Vocab>)
    ensures var sorted := Sorting.SortBy(vs, CreatedAt, true);
            var r := RecentWords(vs);
            forall i, j :: 0 <= i < |r| <= j < |sorted| ==> r[i].createdAt >= sorted[j].createdAt
  {
    var sorted := Sorting.SortBy(vs, CreatedAt, true);
    Sorting.PrefixDominates(sorted, CreatedAt, true, |RecentWords(vs)|);
  }

  // ---------------------------------------------------------------------
  // Growth.

  /** How many entries were created on calendar day `d`. */
  function CountOnDay(vs: seq<Vocab>, dayOf: int -> int, d: int): (n: nat)
    ensures n <= |vs|
  {
    if vs == [] then 0
    else (if dayOf(vs[0].createdAt) == d then 1 else 0) + CountOnDay(vs[1..], dayOf, d)
  }

  /** A day's count is positive exactly when some entry was created that
      day, and is the whole list exactly when every entry was. */
  lemma {:induction false} CountOnDayMeans(vs: seq<Vocab>, dayOf: int -> int, d: int)
    ensures CountOnDay(vs, dayOf, d) > 0 <==> exists i :: 0 <= i < |vs| && dayOf(vs[i].createdAt) == d
    ensures CountOnDay(vs, dayOf, d) == |vs| <==> forall i :: 0 <= i < |vs| ==> dayOf(vs[i].createdAt) == d
  {
    if vs != [] {
      CountOnDayMeans(vs[1..], dayOf, d);
      assert forall i :: 1 <= i < |vs| ==> vs[i] == vs[1..][i - 1];
    }
  }

  /** Lines 74 to 85: one count per day, oldest first, ending with today
      (`today` is the calendar day of the current instant). */
  method GrowthData(vs: seq<Vocab>, range: TimeRange, dayOf: int -> int, today: int)
    returns (g: seq<nat>)
    ensures |g| == Days(range)
    ensures forall j :: 0 <= j < |g| ==> g[j] == CountOnDay(vs, dayOf, today - (|g| - 1 - j))
  {
    var days := Days(range);
    g := [];
    var i: int := days - 1;
    while i >= 0
      invariant -1 <= i < days
      invariant |g| == days - 1 - i
      invariant forall j :: 0 <= j < |g| ==> g[j] == CountOnDay(vs, dayOf, today - (days - 1 - j))
      decreases i + 1
    {
      g := g + [CountOnDay(vs, dayOf, today - i)];
      i := i - 1;
    }
  }

  /** The days `today - n + 1` up to `today`. */
  function Window(today: int, n: nat): (ds: seq<int>)
    ensures |ds| == n
    ensures forall j :: 0 <= j < n ==> ds[j] == today - (n - 1 - j)
    decreases n
  {
    if n == 0 then [] else Window(today - 1, n - 1) + [today]
  }

  function SumNat(s: seq<nat>): nat {
    if s == [] then 0 else s[0] + SumNat(s[1..])
  }

  function CountsOn(vs: seq<Vocab>, dayOf: int -> int, ds: seq<int>): (cs: seq<nat>)
    ensures |cs| == |ds|
    ensures forall j :: 0 <= j < |ds| ==> cs[j] == CountOnDay(vs, dayOf, ds[j])
  {
    if ds == [] then [] else [CountOnDay(vs, dayOf, ds[0])] + CountsOn(vs, dayOf, ds[1..])
  }

  function Hits(d: int, ds: seq<int>): nat {
    if ds == [] then 0 else (if ds[0] == d then 1 else 0) + Hits(d, ds[1..])
  }

  /** A day occurs at most once among distinct days. */
  lemma {:induction false} HitsAtMostOne(d: int, ds: seq<int>)
    requires forall i, j :: 0 <= i < j < |ds| ==> ds[i] != ds[j]
    ensures Hits(d, ds) <= 1
  {
    if ds != [] {
      HitsAtMostOne(d, ds[1..]);
      if ds[0] == d {
        HitsNone(d, ds[1..]);
      }
    }
  }

  lemma {:induction false} HitsNone(d: int, ds: seq<int>)
    requires d !in ds
    ensures Hits(d, ds) == 0
  {
    if ds != [] {
      HitsNone(d, ds[1..]);
    }
  }

  /** Peeling the first entry off every count. */
  lemma {:induction false} SumCountsOnStep(vs: seq<Vocab>, dayOf: int -> int, ds: seq<int>)
    requires vs != []
    ensures SumNat(CountsOn(vs, dayOf, ds)) == Hits(dayOf(vs[0].createdAt), ds) + SumNat(CountsOn(vs[1..], dayOf, ds))
  {
    if ds != [] {
      SumCountsOnStep(vs, dayOf, ds[1..]);
    }
  }

  /** Counts over distinct days add up to at most the number of entries:
      each entry is counted on at most one day. */
  lemma {:induction false} SumOverDistinctDays(vs: seq<Vocab>, dayOf: int -> int, ds: seq<int>)
    requires forall i, j :: 0 <= i < j < |ds| ==> ds[i] != ds[j]
    ensures SumNat(CountsOn(vs, dayOf, ds)) <= |vs|
  {
    if vs == [] {
      ZeroCounts(dayOf, ds);
    } else {
      SumCountsOnStep(vs, dayOf, ds);
      HitsAtMostOne(dayOf(vs[0].createdAt), ds);
      SumOverDistinctDays(vs[1..], dayOf, ds);
    }
  }

  lemma {:induction false} ZeroCounts(dayOf: int -> int, ds: seq<int>)
    ensures SumNat(CountsOn([], dayOf, ds)) == 0
  {
    if ds != [] {
      ZeroCounts(dayOf, ds[1..]);
    }
  }

  /** A growth series over consecutive days counts every entry at most
      once. */
  lemma GrowthBounded(vs: seq<Vocab>, dayOf: int -> int, today: int, g: seq<nat>)
    requires forall j :: 0 <= j < |g| ==> g[j] == CountOnDay(vs, dayOf, today - (|g| - 1 - j))
    ensures SumNat(g) <= |vs|
  {
    var ds := Window(today, |g|);
    assert g == CountsOn(vs, dayOf, ds);
    SumOverDistinctDays(vs, dayOf, ds);
  }

  /** The statistics object; `None` is the `null` of an empty list. */
  datatype Stats = Stats(totalWords: nat, addedToday: nat, pieData: seq<Slice>,
                         growthData: seq<nat>, recentWords: seq<Vocab>)

  /** Lines 44 to 94. */
  method ComputeStats(vs: seq<Vocab>, range: TimeRange, dayOf: int -> int, now: int)
    returns (stats: Option<Stats>)
    ensures vs == [] <==> stats.None?
    ensures stats.Some? ==>
              && stats.value.totalWords == |vs|
              && stats.value.recentWords == RecentWords(vs)
              && stats.value.pieData == PieData(Distribution(PosKeys(vs)))
              && |stats.value.growthData| == Days(range)
              && stats.value.addedToday == CountOnDay(vs, dayOf, dayOf(now))
              && stats.value.addedToday == stats.value.growthData[Days(range) - 1]
              && SumNat(stats.value.growthData) <= stats.value.totalWords
  {
    if |vs| == 0 {
      return None;
    }
    var today := dayOf(now);
    var growth := GrowthData(vs, range, dayOf, today);
    GrowthBounded(vs, dayOf, today, growth);
    stats := Some(Stats(|vs|, CountOnDay(vs, dayOf, today), PieData(Distribution(PosKeys(vs))),
                        growth, RecentWords(vs)));
  }

  /** The values of the slices added up. */
  function SliceTotal(r: seq<Slice>): nat {
    if r == [] then 0 else r[0].value + SliceTotal(r[1..])
  }

  /** The pie chart, after capitalising and sorting, still accounts for
      every word: its slice values add up to the number of words. */
  lemma PieCoversEveryWord(vs: seq<Vocab>)
    ensures SliceTotal(PieData(Distribution(PosKeys(vs)))) == |vs|
  {
    var t := Distribution(PosKeys(vs));
    SliceTotalOfTally(t);
    SliceTotalPerm(PieData(t), ToSlices(t));
  }

  lemma {:induction false} SliceTotalOfTally(t: Tally)
    ensures SliceTotal(ToSlices(t)) == SumCounts(t)
  {
    if t != [] {
      assert ToSlices(t)[1..] == ToSlices(t[1..]);
      SliceTotalOfTally(t[1..]);
    }
  }

  lemma {:induction false} SliceTotalAppend(a: seq<Slice>, b: seq<Slice>)
    ensures SliceTotal(a + b) == SliceTotal(a) + SliceTotal(b)
  {
    if a == [] {
      assert a + b == b;
    } else {
      assert (a + b)[1..] == a[1..] + b;
      SliceTotalAppend(a[1..], b);
    }
  }

  /** Reordering the slices does not change their total. */
  lemma {:induction false} SliceTotalPerm(a: seq<Slice>, b: seq<Slice>)
    requires multiset(a) == multiset(b)
    ensures SliceTotal(a) == SliceTotal(b)
    decreases |a|
  {
    if a == [] {
      assert |b| == |multiset(b)| == 0;
    } else {
      var k := PositionOf(b, a[0]);
      var b' := DropAt(b, k);
      var a' := DropAt(a, 0);
      SliceTotalPerm(a', b');
      SliceTotalRemove(a, 0);
      SliceTotalRemove(b, k);
    }
  }

  /** A position holding `x`, for an `x` the sequence holds. */
  lemma PositionOf<T>(b: seq<T>, x: T) returns (k: nat)
    requires x in multiset(b)
    ensures k < |b| && b[k] == x
  {
    assert x in b;
    k :| 0 <= k < |b| && b[k] == x;
  }

  /** The sequence without the element at `k`: one copy of it fewer. */
  function DropAt<T>(b: seq<T>, k: nat): (r: seq<T>)
    requires k < |b|
    ensures multiset(r) == multiset(b) - multiset{b[k]}
    ensures r == b[..k] + b[k + 1..]
  {
    assert b == b[..k] + [b[k]] + b[k + 1..];
    b[..k] + b[k + 1..]
  }

  lemma SplitAtIndex<T>(b: seq<T>, k: nat)
    requires k < |b|
    ensures b == b[..k] + ([b[k]] + b[k + 1..])
    ensures ([b[k]] + b[k + 1..])[1..] == b[k + 1..]
  {
  }

  lemma SliceTotalRemove(b: seq<Slice>, k: nat)
    requires k < |b|
    ensures SliceTotal(b) == b[k].value + SliceTotal(DropAt(b, k))
  {
    var pre, post := b[..k], b[k + 1..];
    var rest := [b[k]] + post;
    SplitAtIndex(b, k);
    SliceTotalAppend(pre, rest);
    SliceTotalAppend(pre, post);
    assert SliceTotal(rest) == b[k].value + SliceTotal(post);
  }
}
=== FILE: backend_test.dfy ===
/** The data-handling parts of the admin backend page
    (`src/admin/BackendTest.tsx`): the chunked upload loop, the mapping of
    a CSV row to a vocabulary record, and the selection set of the results
    table. Requests, Papa's CSV parsing and `JSON.parse` are oracles. */
module BackendTest {
  import opened Wrappers
  import Strings
  import Seqs

  /** The default `batchSize` of `uploadDataInChunks`. */
  const DefaultBatchSize: nat := 50

  /** The counts the status line shows after each of the first `k`
      chunks: `Math.min(i + batchSize, total)`. */
  function Marks(k: nat, b: nat, total: nat): (m: seq<nat>)
    ensures |m| == k
  {
    if k == 0 then [] else Marks(k - 1, b, total) + [Seqs.Min(Offset(k, b), total)]
  }

  lemma MarksNext(k: nat, b: nat, total: nat)
    ensures Marks(k + 1, b, total) == Marks(k, b, total) + [Seqs.Min(Offset(k, b) + b, total)]
  {
  }

  /** The loop variable after `k` steps of `i += b`. */
  function Offset(k: nat, b: nat): nat {
    if k == 0 then 0 else Offset(k - 1, b) + b
  }

  lemma {:induction false} OffsetIsProduct(k: nat, b: nat)
    ensures Offset(k, b) == k * b
  {
    if k > 0 {
      OffsetIsProduct(k - 1, b);
      assert k * b == (k - 1) * b + b;
    }
  }

  /** The `j`-th count is the end offset of the `j`-th chunk. */
  lemma {:induction false} MarksAt(k: nat, b: nat, total: nat)
    ensures forall j :: 0 <= j < k ==> Marks(k, b, total)[j] == Seqs.Min((j + 1) * b, total)
  {
    if k > 0 {
      MarksAt(k - 1, b, total);
      OffsetIsProduct(k, b);
    }
  }


  /** `uploadDataInChunks(data, endpoint, batchSize)`. `failAt` is the index
      of the request whose `fetch` rejects, if any; the rejection leaves the
      loop. Returns the chunks posted (the failing one included), the
      counts shown in the status line, the counts the progress bar was set
      from, and whether the loop ran to the end. */
  method UploadDataInChunks<T>(data: seq<T>, batchSize: nat, failAt: Option<nat>)
    returns (sent: seq<seq<T>>, shown: seq<nat>, progressed: seq<nat>, completed: bool)
    requires batchSize > 0
    ensures data == [] ==> sent == [] && completed
    ensures completed <==> failAt.None? || failAt.value >= |Seqs.Chunks(data, batchSize)|
    ensures completed ==> sent == Seqs.Chunks(data, batchSize)
    ensures !completed ==> sent == Seqs.Chunks(data, batchSize)[..failAt.value + 1]
    ensures shown == Marks(|sent|, batchSize, |data|)
    ensures progressed == (if completed then shown else shown[..|shown| - 1])
    ensures completed && data != [] ==> progressed[|progressed| - 1] == |data|
  {
    if data == [] {
      sent, shown, progressed, completed := [], [], [], true;
    } else {
      sent, shown, progressed, completed := UploadLoop(data, batchSize, failAt);
    }
  }

  /** The `for` loop of `uploadDataInChunks` over non-empty data. */
  method UploadLoop<T>(data: seq<T>, batchSize: nat, failAt: Option<nat>)
    returns (sent: seq<seq<T>>, shown: seq<nat>, progressed: seq<nat>, completed: bool)
    requires batchSize > 0 && data != []
    ensures completed <==> failAt.None? || failAt.value >= |Seqs.Chunks(data, batchSize)|
    ensures completed ==> sent == Seqs.Chunks(data, batchSize)
    ensures !completed ==> sent == Seqs.Chunks(data, batchSize)[..failAt.value + 1]
    ensures shown == Marks(|sent|, batchSize, |data|)
    ensures progressed == (if completed then shown else shown[..|shown| - 1])
    ensures completed ==> progressed[|progressed| - 1] == |data|
  {
    var total := |data|;
    sent, shown := [], [];
    var i: nat := 0;
    UploadStart(data, batchSize);
    while i < total
      invariant UploadInv(data, batchSize, sent, shown, i)
      invariant failAt.None? || failAt.value >= |sent|
      decreases total - i
    {
      var end := Seqs.Min(i + batchSize, total);
      var chunk := data[i..end];
      var sent', shown' := sent + [chunk], shown + [end];
      UploadStep(data, batchSize, sent, shown, i, sent', shown');
      if failAt.Some? && failAt.value == |sent| {
        // The progress bar was last set after the previous chunk.
        assert shown'[..|shown|] == shown;
        sent, shown, progressed, completed := sent', shown', shown, false;
        return;
      }
      sent, shown, i := sent', shown', i + batchSize;
    }
    UploadDone(data, batchSize, sent, shown, i);
    progressed, completed := shown, true;
  }

  /** The loop invariant of `uploadDataInChunks`: `i` is the offset after
      the chunks sent so far, those chunks are the first chunks of the data,
      and the status line has shown one count per chunk. */
  ghost predicate UploadInv<T>(data: seq<T>, b: nat, sent: seq<seq<T>>, shown: seq<nat>, i: nat) {
    && b > 0
    && i == Offset(|sent|, b)
    && Seqs.Chunks(data, b) == sent + Seqs.Chunks(data[Seqs.Min(Offset(|sent|, b), |data|)..], b)
    && shown == Marks(|sent|, b, |data|)
    && (i >= |data| ==> |shown| > 0 && shown[|shown| - 1] == |data|)
  }

  /** Before the first turn nothing has been sent. */
  lemma UploadStart<T>(data: seq<T>, b: nat)
    requires b > 0 && data != []
    ensures UploadInv(data, b, [], [], 0)
  {
    assert data[Seqs.Min(0, |data|)..] == data;
    assert [] + Seqs.Chunks(data, b) == Seqs.Chunks(data, b);
  }

  /** One turn of the loop keeps the invariant, and the chunk it posts is
      the next chunk of the data. */
  lemma UploadStep<T>(data: seq<T>, b: nat, sent: seq<seq<T>>, shown: seq<nat>, i: nat, sent': seq<seq<T>>, shown': seq<nat>)
    requires UploadInv(data, b, sent, shown, i)
    requires i < |data|
    requires sent' == sent + [data[i..Seqs.Min(i + b, |data|)]]
    requires shown' == shown + [Seqs.Min(i + b, |data|)]
    ensures UploadInv(data, b, sent', shown', i + b)
    ensures |sent| < |Seqs.Chunks(data, b)|
    ensures sent' == Seqs.Chunks(data, b)[..|sent| + 1]
  {
    var end := Seqs.Min(i + b, |data|);
    assert Seqs.Min(i, |data|) == i;
    StepChunks(data, b, sent, i);
    assert Offset(|sent'|, b) == i + b;
    assert Seqs.Min(Offset(|sent'|, b), |data|) == end;
    assert sent' == sent + [data[i..end]];
    assert Seqs.Chunks(data, b) == sent' + Seqs.Chunks(data[Seqs.Min(Offset(|sent'|, b), |data|)..], b);
    MarksNext(|sent|, b, |data|);
  }

  /** The chunk at offset `i` is the next chunk of the data. */
  lemma StepChunks<T>(data: seq<T>, b: nat, sent: seq<seq<T>>, i: nat)
    requires b > 0 && i < |data|
    requires Seqs.Chunks(data, b) == sent + Seqs.Chunks(data[i..], b)
    ensures var end := Seqs.Min(i + b, |data|);
            && Seqs.Chunks(data, b) == (sent + [data[i..end]]) + Seqs.Chunks(data[end..], b)
            && |sent| < |Seqs.Chunks(data, b)|
            && sent + [data[i..end]] == Seqs.Chunks(data, b)[..|sent| + 1]
  {
    var end := Seqs.Min(i + b, |data|);
    var sent' := sent + [data[i..end]];
    Seqs.ChunksAdvance(data, b, i, end, sent, sent');
    Seqs.PrefixOfAppend(sent', Seqs.Chunks(data[end..], b));
  }

  /** When the loop ends, every chunk has been posted. */
  lemma UploadDone<T>(data: seq<T>, b: nat, sent: seq<seq<T>>, shown: seq<nat>, i: nat)
    requires UploadInv(data, b, sent, shown, i)
    requires i >= |data|
    ensures sent == Seqs.Chunks(data, b)
    ensures |shown| > 0 && shown[|shown| - 1] == |data|
  {
    assert Seqs.Chunks(data[|data|..], b) == [] by { assert data[|data|..] == []; }
  }

  /** The rows of a full upload put back together are the data, in order:
      every chunk but the last holds `batchSize` records. */
  lemma UploadRoundTrip<T>(data: seq<T>, batchSize: nat)
    requires batchSize > 0
    ensures Seqs.Flatten(Seqs.Chunks(data, batchSize)) == data
    ensures forall j :: 0 <= j < |Seqs.Chunks(data, batchSize)| - 1 ==> |Seqs.Chunks(data, batchSize)[j]| == batchSize
  {
  }

  // ---------------------------------------------------------------------
  // CSV rows.

  /** A parsed CSV row: header name to cell text; a missing column is an
      absent key. */
  type Row = map<string, string>

  /** `row.name || ""`: the cell, or "" when it is missing or empty. */
  function Cell(row: Row, name: string): (c: string)
    ensures name in row ==> c == row[name]
    ensures name !in row ==> c == []
  {
    if name in row then row[name] else []
  }

  /** The `examples` column: the parsed JSON array when the cell starts
      with '[', else the cell as a one-element list, or nothing. */
  datatype Examples<J> = ParsedExamples(json: J) | SingleExample(text: string) | NoExamples

  datatype Vocabulary<J> = Vocabulary(
    english: string, bangla: string, partOfSpeech: string, explanation: string,
    pronunciation: string, examples: Examples<J>, synonyms: seq<string>,
    antonyms: seq<string>, origin: string, audioUrl: string, isFromAPI: bool,
    isOnline: bool, verbForms: Option<J>, relatedWords: Option<J>,
    createdAt: int, userId: string)

  const BulkImportUser: string := "bulk-import"
  const UnknownPos: string := "Unknown"

  /** Lines 322 and 323: split on ',' and trim each piece; a missing or
      empty cell gives no items. */
  function SplitList(cell: string): (items: seq<string>)
    ensures cell == [] ==> items == []
    ensures cell != [] ==> |items| == |Strings.Split(cell, ',')|
    ensures cell != [] ==> forall i :: 0 <= i < |items| ==> items[i] == Strings.Trim(Strings.Split(cell, ',')[i])
  {
    if cell == [] then [] else TrimAll(Strings.Split(cell, ','))
  }

  function TrimAll(parts: seq<string>): (r: seq<string>)
    ensures |r| == |parts|
    ensures forall i :: 0 <= i < |parts| ==> r[i] == Strings.Trim(parts[i])
  {
    if parts == [] then [] else [Strings.Trim(parts[0])] + TrimAll(parts[1..])
  }

  /** Pieces are kept even when empty: there is one item per comma, plus
      one. */
  lemma {:induction false} SplitCountsCommas(s: string)
    ensures |Strings.Split(s, ',')| == Seqs.Count(s, IsComma) + 1
  {
    if s != [] {
      SplitCountsCommas(s[1..]);
    }
  }

  predicate IsComma(c: char) { c == ',' }

  /** A list whose items carry no surrounding whitespace joins back to the
      cell it was split from. */
  lemma SplitListRoundTrip(cell: string)
    requires cell != []
    requires forall i :: 0 <= i < |Strings.Split(cell, ',')| ==> Strings.Trim(Strings.Split(cell, ',')[i]) == Strings.Split(cell, ',')[i]
    ensures Strings.Join(SplitList(cell), ",") == cell
  {
    var parts := Strings.Split(cell, ',');
    assert SplitList(cell) == parts;
    assert "," == [','];
    Strings.JoinSplit(cell, ',');
  }

  /** `JSON.parse` of a non-empty cell; `None` when it throws. */
  function ParseIfSet<J>(cell: string, parse: string -> Option<J>): (r: Result<Option<J>, string>)
    ensures cell == [] ==> r == Ok(None)
    ensures cell != [] ==> (r.Err? <==> parse(cell).None?)
    ensures cell != [] && parse(cell).Some? ==> r == Ok(Some(parse(cell).value))
  {
    if cell == [] then Ok(None)
    else match parse(cell)
      case None => Err(cell)
      case Some(j) => Ok(Some(j))
  }

  /** Lines 315 to 332: one CSV row as a vocabulary record, at time `now`.
      A cell `JSON.parse` rejects makes the mapping throw. */
  function MapRow<J>(row: Row, now: int, parse: string -> Option<J>): Result<Vocabulary<J>, string>
  {
    var ex := Cell(row, "examples");
    var examples: Result<Examples<J>, string> :=
      if ex == [] then Ok(NoExamples)
      else if Strings.StartsWith(ex, "[") then
        (match parse(ex) case None => Err(ex) case Some(j) => Ok(ParsedExamples(j)))
      else Ok(SingleExample(ex));
    var verbForms := ParseIfSet(Cell(row, "verbForms"), parse);
    var relatedWords := ParseIfSet(Cell(row, "relatedWords"), parse);
    if examples.Err? then Err(examples.error)
    else if verbForms.Err? then Err(verbForms.error)
    else if relatedWords.Err? then Err(relatedWords.error)
    else
      var pos := Cell(row, "partOfSpeech");
      Ok(Vocabulary(
        Cell(row, "english"), Cell(row, "bangla"), if pos == [] then UnknownPos else pos,
        Cell(row, "explanation"), Cell(row, "pronunciation"), examples.value,
        SplitList(Cell(row, "synonyms")), SplitList(Cell(row, "antonyms")),
        Cell(row, "origin"), Cell(row, "audioUrl"),
        Cell(row, "isFromAPI") == "true", Cell(row, "isOnline") == "true",
        verbForms.value, relatedWords.value, now, BulkImportUser))
  }

  /** Lines 316 to 331: a mapped row copies its text cells, defaults an
      empty part of speech, splits the list cells, reads the flags as the
      string "true", and is stamped with the bulk-import user and `now`. */
  lemma MapRowFields<J>(row: Row, now: int, parse: string -> Option<J>)
    ensures MapRow(row, now, parse).Ok? ==>
              && MapRow(row, now, parse).value.english == Cell(row, "english")
              && MapRow(row, now, parse).value.bangla == Cell(row, "bangla")
              && MapRow(row, now, parse).value.partOfSpeech == (if Cell(row, "partOfSpeech") == [] then UnknownPos else Cell(row, "partOfSpeech"))
              && MapRow(row, now, parse).value.synonyms == SplitList(Cell(row, "synonyms"))
              && MapRow(row, now, parse).value.antonyms == SplitList(Cell(row, "antonyms"))
              && (MapRow(row, now, parse).value.isFromAPI <==> "isFromAPI" in row && row["isFromAPI"] == "true")
              && (MapRow(row, now, parse).value.isOnline <==> "isOnline" in row && row["isOnline"] == "true")
              && MapRow(row, now, parse).value.userId == BulkImportUser
              && MapRow(row, now, parse).value.createdAt == now
              && MapRow(row, now, parse).value.explanation == Cell(row, "explanation")
              && MapRow(row, now, parse).value.pronunciation == Cell(row, "pronunciation")
              && MapRow(row, now, parse).value.origin == Cell(row, "origin")
              && MapRow(row, now, parse).value.audioUrl == Cell(row, "audioUrl")
  {
  }

  /** Lines 320 to 329: how the examples and the two JSON cells of a mapped
      row are read. */
  lemma MapRowParsed<J>(row: Row, now: int, parse: string -> Option<J>)
    ensures MapRow(row, now, parse).Ok? ==>
              && (Cell(row, "examples") == [] ==> MapRow(row, now, parse).value.examples == NoExamples)
              && (Cell(row, "examples") != [] && !Strings.StartsWith(Cell(row, "examples"), "[") ==>
                    MapRow(row, now, parse).value.examples == SingleExample(Cell(row, "examples")))
              && (Strings.StartsWith(Cell(row, "examples"), "[") ==>
                    parse(Cell(row, "examples")).Some? && MapRow(row, now, parse).value.examples == ParsedExamples(parse(Cell(row, "examples")).value))
              && (Cell(row, "verbForms") == [] ==> MapRow(row, now, parse).value.verbForms == None)
              && (Cell(row, "verbForms") != [] ==> MapRow(row, now, parse).value.verbForms == parse(Cell(row, "verbForms")))
              && (Cell(row, "relatedWords") == [] ==> MapRow(row, now, parse).value.relatedWords == None)
              && (Cell(row, "relatedWords") != [] ==> MapRow(row, now, parse).value.relatedWords == parse(Cell(row, "relatedWords")))
  {
  }

  /** Lines 320 to 329: the mapping throws exactly when a JSON cell that is
      parsed does not parse. */
  lemma MapRowFails<J>(row: Row, now: int, parse: string -> Option<J>)
    ensures MapRow(row, now, parse).Err? <==>
              || (Strings.StartsWith(Cell(row, "examples"), "[") && parse(Cell(row, "examples")).None?)
              || (Cell(row, "verbForms") != [] && parse(Cell(row, "verbForms")).None?)
              || (Cell(row, "relatedWords") != [] && parse(Cell(row, "relatedWords")).None?)
  {
  }

  /** `xs.map(f)` where `f` may throw: every element mapped, in order, or
      the first failure. */
  function MapAll<A, B>(xs: seq<A>, f: A -> Result<B, string>): (r: Result<seq<B>, string>)
    ensures r.Ok? <==> forall i :: 0 <= i < |xs| ==> f(xs[i]).Ok?
    ensures r.Ok? ==> |r.value| == |xs| && forall i :: 0 <= i < |xs| ==> r.value[i] == f(xs[i]).value
  {
    if xs == [] then Ok([])
    else match f(xs[0])
      case Err(e) => Err(e)
      case Ok(v) =>
        match MapAll(xs[1..], f)
        case Err(e) =>
          assert exists i :: 0 <= i < |xs[1..]| && f(xs[1..][i]).Err?;
          Err(e)
        case Ok(vs) =>
          assert forall i :: 1 <= i < |xs| ==> xs[i] == xs[1..][i - 1];
          Ok([v] + vs)
  }

  /** `results.data.map(...)` at time `now`. */
  function MapRows<J>(rows: seq<Row>, now: int, parse: string -> Option<J>): (r: Result<seq<Vocabulary<J>>, string>)
    ensures r.Ok? <==> forall i :: 0 <= i < |rows| ==> MapRow(rows[i], now, parse).Ok?
    ensures r.Ok? ==> |r.value| == |rows|
                      && forall i :: 0 <= i < |rows| ==> r.value[i] == MapRow(rows[i], now, parse).value
  {
    MapAll(rows, row => MapRow(row, now, parse))
  }

  // ---------------------------------------------------------------------
  // Selection.

  /** `toggleSelection`: flips the membership of `id` and of nothing else. */
  function ToggleSelection(selected: set<string>, id: string): (r: set<string>)
    ensures id in r <==> id !in selected
    ensures forall x :: x != id ==> (x in r <==> x in selected)
  {
    if id in selected then selected - {id} else selected + {id}
  }

  /** Toggling the same id twice restores the selection. */
  lemma ToggleTwice(selected: set<string>, id: string)
    ensures ToggleSelection(ToggleSelection(selected, id), id) == selected
  {
  }

  /** `toggleSelectAll`: every id of the shown results, or none. */
  function ToggleSelectAll(resultIds: seq<string>, checked: bool): (r: set<string>)
    ensures checked ==> forall x :: x in r <==> x in resultIds
    ensures !checked ==> r == {}
  {
    if checked then IdSet(resultIds) else {}
  }

  function IdSet(ids: seq<string>): (r: set<string>)
    ensures forall x :: x in r <==> x in ids
  {
    if ids == [] then {} else {ids[0]} + IdSet(ids[1..])
  }
}

=== FILE: content_images.dfy ===
/** The inline-image upload of `processContentImages`
    (`src/utils/contentImageProcessor.ts`). On the markdown path the text is
    cut into the pieces the pattern `![alt](data:image/...)` finds, scanning
    left to right as a global regular-expression search does; every image
    piece whose upload succeeds is rewritten to the uploaded address and
    everything else is kept. On the HTML path the parsed document is given
    by the `src` attributes of its `img` elements, and its serialisation is
    an oracle. Each upload is an oracle answering by the image's ordinal and
    its data URL. */
module ContentImages {
  import opened Wrappers
  import Strings
  import Seqs

  /** What the upload service answers on success. */
  datatype Uploaded = Uploaded(url: string, mediumUrl: Option<string>)

  /** `mediumUrl || url`: an empty medium URL counts as absent. */
  function ChosenUrl(u: Uploaded): (r: string)
    ensures u.mediumUrl.Some? && u.mediumUrl.value != [] ==> r == u.mediumUrl.value
    ensures u.mediumUrl.None? || u.mediumUrl.value == [] ==> r == u.url
  {
    if u.mediumUrl.Some? && u.mediumUrl.value != [] then u.mediumUrl.value else u.url
  }

  // ---------------------------------------------------------------------
  // Cutting markdown text into pieces.

  /** A piece of markdown text: one character outside every image, or one
      image found by the pattern. */
  datatype Piece = Lit(c: char) | Img(alt: string, src: string)

  /** `![alt](src)`. */
  function ImageText(alt: string, src: string): string {
    "![" + alt + "](" + src + ")"
  }

  function RenderPiece(p: Piece): string {
    match p
    case Lit(c) => [c]
    case Img(alt, src) => ImageText(alt, src)
  }

  /** The text the pieces stand for. */
  function Render(ps: seq<Piece>): string {
    if ps == [] then [] else RenderPiece(ps[0]) + Render(ps[1..])
  }

  /** The first position at or after `from` holding `c`, or the end. */
  function FindChar(s: string, from: nat, c: char): (j: nat)
    requires from <= |s|
    ensures from <= j <= |s|
    ensures j < |s| ==> s[j] == c
    ensures forall k :: from <= k < j ==> s[k] != c
    decreases |s| - from
  {
    if from == |s| || s[from] == c then from else FindChar(s, from + 1, c)
  }

  const DataImage: string := "data:image/"

  /** An image of the pattern `!\[([^\]]*)\]\((data:image\/[^)]+)\)` starting
      at `i`: its alt text, its source and the position after it. The alt
      text holds no ']' and the source no ')', so the first ']' and the first
      ')' after them close the two parts; there is nothing to backtrack. */
  function MatchAt(s: string, i: nat): (m: Option<(string, string, nat)>)
    requires i <= |s|
    ensures m.Some? ==>
              && i < m.value.2 <= |s|
              && s[i..m.value.2] == ImageText(m.value.0, m.value.1)
              && ']' !in m.value.0 && ')' !in m.value.1
              && Strings.StartsWith(m.value.1, DataImage) && |m.value.1| > |DataImage|
  {
    if i + 1 < |s| && s[i] == '!' && s[i + 1] == '[' then
      var j := FindChar(s, i + 2, ']');
      if j + 1 < |s| && s[j + 1] == '(' then
        var k := FindChar(s, j + 2, ')');
        if k < |s| && Strings.StartsWith(s[j + 2..k], DataImage) && k - (j + 2) > |DataImage| then
          var alt := s[i + 2..j];
          var src := s[j + 2..k];
          ImageAt(s, i, j, k);
          Some((alt, src, k + 1))
        else None
      else None
    else None
  }

  /** The text from `i` to the ')' at `k` is an image whose alt text ends
      at the first ']' (at `j`) and whose source ends at the first ')'. */
  lemma ImageAt(s: string, i: nat, j: nat, k: nat)
    requires i + 2 <= j && j + 2 <= k < |s|
    requires s[i] == '!' && s[i + 1] == '[' && s[j] == ']' && s[j + 1] == '(' && s[k] == ')'
    requires forall n :: i + 2 <= n < j ==> s[n] != ']'
    requires forall n :: j + 2 <= n < k ==> s[n] != ')'
    ensures ']' !in s[i + 2..j] && ')' !in s[j + 2..k]
    ensures s[i..k + 1] == ImageText(s[i + 2..j], s[j + 2..k])
  {
    var alt := s[i + 2..j];
    var src := s[j + 2..k];
    forall n | 0 <= n < |alt| ensures alt[n] != ']' {
      assert alt[n] == s[i + 2 + n];
    }
    forall n | 0 <= n < |src| ensures src[n] != ')' {
      assert src[n] == s[j + 2 + n];
    }
    assert s[i..k + 1] == ImageText(alt, src);
  }

  /** Line 22: the global search over `s` from `i`, as pieces. Every
      piece covers at least one character, and an image piece's alt text and
      source stop at the first ']' and the first ')'. */
  function Scan(s: string, i: nat): (ps: seq<Piece>)
    requires i <= |s|
    ensures |ps| <= |s| - i
    ensures forall n :: 0 <= n < |ps| && ps[n].Img? ==> ']' !in ps[n].alt && ')' !in ps[n].src
    decreases |s| - i
  {
    if i == |s| then []
    else match MatchAt(s, i)
      case Some(m) => [Img(m.0, m.1)] + Scan(s, m.2)
      case None => [Lit(s[i])] + Scan(s, i + 1)
  }

  /** The pieces put back together are the text: cutting loses nothing and
      adds nothing. */
  lemma {:induction false} ScanRoundTrip(s: string, i: nat)
    requires i <= |s|
    ensures Render(Scan(s, i)) == s[i..]
    decreases |s| - i
  {
    if i < |s| {
      var j := ScanNext(s, i);
      ScanUnfold(s, i);
      ScanRoundTrip(s, j);
      SplitAt(s, i, j);
    }
  }

  /** Where the search resumes after the piece that starts at `i`. */
  function ScanNext(s: string, i: nat): (j: nat)
    requires i < |s|
    ensures i < j <= |s|
  {
    match MatchAt(s, i)
    case Some(m) => m.2
    case None => i + 1
  }

  /** The first piece renders to the text up to where the search resumes. */
  lemma ScanUnfold(s: string, i: nat)
    requires i < |s|
    ensures Render(Scan(s, i)) == s[i..ScanNext(s, i)] + Render(Scan(s, ScanNext(s, i)))
  {
    if MatchAt(s, i).Some? {
      ScanUnfoldImage(s, i);
    } else {
      ScanUnfoldChar(s, i);
    }
  }

  lemma ScanUnfoldImage(s: string, i: nat)
    requires i < |s| && MatchAt(s, i).Some?
    ensures Render(Scan(s, i)) == s[i..MatchAt(s, i).value.2] + Render(Scan(s, MatchAt(s, i).value.2))
  {
    var m := MatchAt(s, i).value;
    assert Scan(s, i) == [Img(m.0, m.1)] + Scan(s, m.2);
    RenderCons(Img(m.0, m.1), Scan(s, m.2));
  }

  lemma ScanUnfoldChar(s: string, i: nat)
    requires i < |s| && MatchAt(s, i).None?
    ensures Render(Scan(s, i)) == s[i..i + 1] + Render(Scan(s, i + 1))
  {
    assert Scan(s, i) == [Lit(s[i])] + Scan(s, i + 1);
    RenderCons(Lit(s[i]), Scan(s, i + 1));
    assert s[i..i + 1] == [s[i]];
  }

  lemma SplitAt(s: string, i: nat, j: nat)
    requires i <= j <= |s|
    ensures s[i..] == s[i..j] + s[j..]
  {
  }

  lemma RenderCons(p: Piece, ps: seq<Piece>)
    ensures Render([p] + ps) == RenderPiece(p) + Render(ps)
  {
    assert ([p] + ps)[1..] == ps;
  }

  /** Every image piece the search finds has a data-URL source. */
  lemma {:induction false} ScanFindsDataImages(s: string, i: nat)
    requires i <= |s|
    ensures forall n :: 0 <= n < |Scan(s, i)| && Scan(s, i)[n].Img? ==>
              Strings.StartsWith(Scan(s, i)[n].src, DataImage)
    decreases |s| - i
  {
    if i < |s| {
      match MatchAt(s, i)
      case Some(m) => ScanFindsDataImages(s, m.2);
      case None => ScanFindsDataImages(s, i + 1);
    }
  }

  // ---------------------------------------------------------------------
  // Rewriting the images.

  /** How many images the pieces hold. */
  function Images(ps: seq<Piece>): nat {
    if ps == [] then 0 else (if ps[0].Img? then 1 else 0) + Images(ps[1..])
  }

  /** Lines 28 to 46: one piece after the `k`-th upload answered for it. A
      successful upload rewrites an image's source and keeps its alt text; a
      failed one keeps the image as it was; text is kept. */
  function RewritePiece(p: Piece, upload: (nat, string) -> Option<Uploaded>, k: nat): Piece {
    match p
    case Lit(c) => p
    case Img(alt, src) =>
      match upload(k, src)
      case Some(u) => Img(alt, ChosenUrl(u))
      case None => p
  }

  /** Text is kept; an image keeps its alt text, and its source changes to
      the chosen URL exactly when its upload succeeds. */
  lemma RewritePieceMeans(p: Piece, upload: (nat, string) -> Option<Uploaded>, k: nat)
    ensures RewritePiece(p, upload, k).Lit? <==> p.Lit?
    ensures p.Lit? ==> RewritePiece(p, upload, k) == p
    ensures p.Img? ==> RewritePiece(p, upload, k).alt == p.alt
    ensures p.Img? && upload(k, p.src).Some? ==>
              RewritePiece(p, upload, k).src == ChosenUrl(upload(k, p.src).value)
    ensures p.Img? && upload(k, p.src).None? ==> RewritePiece(p, upload, k) == p
  {
  }

  /** Lines 24 to 48: the images in order, the `k`-th upload answering for
      the `k`-th image. */
  function Rewrite(ps: seq<Piece>, upload: (nat, string) -> Option<Uploaded>, k: nat): (r: seq<Piece>)
    ensures |r| == |ps|
  {
    if ps == [] then []
    else
      var k' := if ps[0].Img? then k + 1 else k;
      RewritePieceMeans(ps[0], upload, k);
      [RewritePiece(ps[0], upload, k)] + Rewrite(ps[1..], upload, k')
  }

  /** The piece at `n` is rewritten by the upload whose ordinal counts the
      images before it, and by nothing else. */
  lemma {:induction false} RewriteAt(ps: seq<Piece>, upload: (nat, string) -> Option<Uploaded>, k: nat)
    ensures forall n :: 0 <= n < |ps| ==>
              Rewrite(ps, upload, k)[n] == RewritePiece(ps[n], upload, k + Images(ps[..n]))
  {
    forall n | 0 <= n < |ps| ensures Rewrite(ps, upload, k)[n] == RewritePiece(ps[n], upload, k + Images(ps[..n])) {
      RewriteAtIndex(ps, upload, k, n);
    }
  }

  lemma {:induction false} RewriteAtIndex(ps: seq<Piece>, upload: (nat, string) -> Option<Uploaded>, k: nat, n: nat)
    requires n < |ps|
    ensures Rewrite(ps, upload, k)[n] == RewritePiece(ps[n], upload, k + Images(ps[..n]))
    decreases n
  {
    var k' := if ps[0].Img? then k + 1 else k;
    RewriteCons(ps, upload, k, n);
    ImagesPrefixStep(ps, n);
    if n > 0 {
      var rest := Rewrite(ps[1..], upload, k');
      var m := k' + Images(ps[1..][..n - 1]);
      RewriteAtIndex(ps[1..], upload, k', n - 1);
      assert ps[1..][n - 1] == ps[n];
      assert rest[n - 1] == RewritePiece(ps[n], upload, m);
      assert m == k + Images(ps[..n]);
      assert Rewrite(ps, upload, k)[n] == rest[n - 1];
    }
  }

  /** One step of the recursion: the first piece is answered by the `k`-th
      upload, the others are the rest's. */
  lemma RewriteCons(ps: seq<Piece>, upload: (nat, string) -> Option<Uploaded>, k: nat, n: nat)
    requires n < |ps|
    ensures n == 0 ==> Rewrite(ps, upload, k)[n] == RewritePiece(ps[0], upload, k)
    ensures n > 0 ==> Rewrite(ps, upload, k)[n] == Rewrite(ps[1..], upload, if ps[0].Img? then k + 1 else k)[n - 1]
  {
  }

  /** One piece per piece: text stays text and is kept, images stay images
      and keep their alt text. */
  lemma RewriteKeepsText(ps: seq<Piece>, upload: (nat, string) -> Option<Uploaded>, k: nat)
    ensures forall n :: 0 <= n < |ps| ==> (Rewrite(ps, upload, k)[n].Lit? <==> ps[n].Lit?)
    ensures forall n :: 0 <= n < |ps| && ps[n].Lit? ==> Rewrite(ps, upload, k)[n] == ps[n]
    ensures forall n :: 0 <= n < |ps| && ps[n].Img? ==> Rewrite(ps, upload, k)[n].alt == ps[n].alt
  {
    RewriteAt(ps, upload, k);
    forall n | 0 <= n < |ps| {
      RewritePieceMeans(ps[n], upload, k + Images(ps[..n]));
    }
  }

  /** Counting the images before `n` is counting the first piece and then
      the images of the rest before it. */
  lemma ImagesPrefixStep(ps: seq<Piece>, n: nat)
    requires n < |ps|
    ensures n == 0 ==> Images(ps[..n]) == 0
    ensures n > 0 ==> Images(ps[..n]) == (if ps[0].Img? then 1 else 0) + Images(ps[1..][..n - 1])
  {
    if n == 0 {
      assert ps[..n] == [];
    } else {
      assert ps[..n][1..] == ps[1..][..n - 1];
    }
  }

  /** When no upload succeeds, nothing is rewritten. */
  lemma {:induction false} RewriteAllFail(ps: seq<Piece>, upload: (nat, string) -> Option<Uploaded>, k: nat)
    requires forall n, src :: upload(n, src).None?
    ensures Rewrite(ps, upload, k) == ps
  {
    var r := Rewrite(ps, upload, k);
    RewriteAt(ps, upload, k);
    forall n | 0 <= n < |ps| ensures r[n] == ps[n] {
      if ps[n].Img? {
        assert upload(k + Images(ps[..n]), ps[n].src).None?;
      }
    }
  }

  /** Lines 17 to 50: the markdown path. */
  function ProcessMarkdown(content: string, upload: (nat, string) -> Option<Uploaded>): (r: string)
    ensures r == Render(Rewrite(Scan(content, 0), upload, 0))
    ensures (forall n, src :: upload(n, src).None?) ==> r == content
  {
    var r := Render(Rewrite(Scan(content, 0), upload, 0));
    assert (forall n, src :: upload(n, src).None?) ==> r == content by {
      if forall n, src :: upload(n, src).None? {
        RewriteAllFail(Scan(content, 0), upload, 0);
        ScanRoundTrip(content, 0);
      }
    }
    r
  }

  /** The parts of an image's text, position by position. */
  lemma ImageTextParts(alt: string, src: string)
    ensures |ImageText(alt, src)| == 5 + |alt| + |src|
    ensures ImageText(alt, src)[0] == '!' && ImageText(alt, src)[1] == '['
    ensures ImageText(alt, src)[2..2 + |alt|] == alt
    ensures ImageText(alt, src)[2 + |alt|] == ']' && ImageText(alt, src)[3 + |alt|] == '('
    ensures ImageText(alt, src)[4 + |alt|..4 + |alt| + |src|] == src
    ensures ImageText(alt, src)[4 + |alt| + |src|] == ')'
  {
  }

  /** The pattern finds every image it describes: wherever the text of an
      image starts whose alt text has no ']' and whose data URL has no ')',
      the match at that position is that image and ends right after it. */
  lemma MatchImageAt(s: string, i: nat, alt: string, src: string)
    requires i + |ImageText(alt, src)| <= |s| && s[i..i + |ImageText(alt, src)|] == ImageText(alt, src)
    requires ']' !in alt && ')' !in src
    requires Strings.StartsWith(src, DataImage) && |src| > |DataImage|
    ensures MatchAt(s, i) == Some((alt, src, i + |ImageText(alt, src)|))
  {
    var j := i + 2 + |alt|;
    var k := j + 2 + |src|;
    ImageAtParts(s, i, alt, src, j, k);
    FirstAfter(s, i + 2, j, alt, ']');
    FirstAfter(s, j + 2, k, src, ')');
    MatchAtFound(s, i, j, k);
  }

  /** The characters and slices of an image's text found at offset `i`:
      its alt text ends at `j` and its data URL at `k`. */
  lemma ImageAtParts(s: string, i: nat, alt: string, src: string, j: nat, k: nat)
    requires i + |ImageText(alt, src)| <= |s| && s[i..i + |ImageText(alt, src)|] == ImageText(alt, src)
    requires j == i + 2 + |alt| && k == j + 2 + |src|
    ensures k + 1 == i + |ImageText(alt, src)| && k < |s|
    ensures s[i] == '!' && s[i + 1] == '[' && s[j] == ']' && s[j + 1] == '(' && s[k] == ')'
    ensures s[i + 2..j] == alt && s[j + 2..k] == src
  {
    var t := ImageText(alt, src);
    var e := i + |t|;
    ImageTextParts(alt, src);
    var w := s[i..e];
    SliceInSlice(s, i, e, 2, 2 + |alt|);
    SliceInSlice(s, i, e, 4 + |alt|, 4 + |alt| + |src|);
    assert s[i] == w[0] && s[i + 1] == w[1] && s[j] == w[2 + |alt|] && s[j + 1] == w[3 + |alt|] && s[k] == w[|t| - 1];
  }

  /** The branch of MatchAt that finds an image: the first ']' after "![" is
      at `j`, a '(' follows, and the first ')' after it, at `k`, closes a
      data URL. */
  lemma MatchAtFound(s: string, i: nat, j: nat, k: nat)
    requires i + 1 < |s| && s[i] == '!' && s[i + 1] == '['
    requires j == FindChar(s, i + 2, ']') && j + 1 < |s| && s[j + 1] == '('
    requires k == FindChar(s, j + 2, ')') && k < |s|
    requires Strings.StartsWith(s[j + 2..k], DataImage) && k - (j + 2) > |DataImage|
    ensures MatchAt(s, i) == Some((s[i + 2..j], s[j + 2..k], k + 1))
  {
  }

  /** When `s[from..j]` is a text without `c` and `s[j]` is `c`, the first
      `c` from `from` on is at `j`. */
  lemma FirstAfter(s: string, from: nat, j: nat, part: string, c: char)
    requires from <= j < |s| && s[from..j] == part && c !in part && s[j] == c
    ensures FindChar(s, from, c) == j
  {
    forall n | from <= n < j ensures s[n] != c {
      assert s[n] == part[n - from];
    }
  }

  /** One step of the search: an image found at `i` becomes one piece and
      the search resumes after it; otherwise the character at `i` is one
      piece and the search resumes at the next one. */
  lemma ScanHead(s: string, i: nat)
    requires i < |s|
    ensures MatchAt(s, i).Some? ==>
              Scan(s, i) == [Img(MatchAt(s, i).value.0, MatchAt(s, i).value.1)] + Scan(s, MatchAt(s, i).value.2)
    ensures MatchAt(s, i).None? ==> Scan(s, i) == [Lit(s[i])] + Scan(s, i + 1)
  {
  }

  /** An image in the text at the position the search has reached is found
      there, whole, as one piece. */
  lemma ScanFindsImageAt(s: string, i: nat, alt: string, src: string)
    requires i + |ImageText(alt, src)| <= |s| && s[i..i + |ImageText(alt, src)|] == ImageText(alt, src)
    requires ']' !in alt && ')' !in src
    requires Strings.StartsWith(src, DataImage) && |src| > |DataImage|
    ensures MatchAt(s, i) == Some((alt, src, i + |ImageText(alt, src)|))
    ensures Scan(s, i) == [Img(alt, src)] + Scan(s, MatchAt(s, i).value.2)
  {
    MatchImageAt(s, i, alt, src);
    ScanImage(s, i, MatchAt(s, i));
  }

  lemma ScanImage(s: string, i: nat, m: Option<(string, string, nat)>)
    requires i < |s| && m.Some? && MatchAt(s, i) == m
    ensures Scan(s, i) == [Img(m.value.0, m.value.1)] + Scan(s, m.value.2)
  {
  }

  /** The piece the pattern gives at position `p`: the image it matches
      there, or the character at `p` when it matches nothing. */
  function PieceAt(s: string, p: nat): Piece
    requires p < |s|
  {
    match MatchAt(s, p)
    case Some(m) => Img(m.0, m.1)
    case None => Lit(s[p])
  }

  /** The first piece is the one the pattern gives where the search
      starts. */
  lemma ScanFirstFits(s: string, i: nat)
    requires i < |s|
    ensures |Scan(s, i)| > 0 && Scan(s, i)[0] == PieceAt(s, i)
  {
    ScanHead(s, i);
  }

  /** The first piece covers the text up to where the search resumes, and
      the rest is the search from there. */
  lemma ScanFirstCovers(s: string, i: nat)
    requires i < |s|
    ensures |Scan(s, i)| > 0 && |RenderPiece(Scan(s, i)[0])| == ScanNext(s, i) - i
    ensures Scan(s, i)[1..] == Scan(s, ScanNext(s, i))
  {
    ScanHead(s, i);
    if MatchAt(s, i).Some? {
      var m := MatchAt(s, i).value;
      assert |ImageText(m.0, m.1)| == |s[i..m.2]|;
    }
  }

  /** Each piece is the one the pattern gives at the position `p` it
      starts at, that is, the position after the text of the pieces before
      it. With ScanRoundTrip this pins the search down: no image is skipped
      where the search lands on it, and no character is taken for an
      image. */
  lemma {:induction false} ScanPieceAt(s: string, i: nat, n: nat, p: nat)
    requires i <= |s| && n < |Scan(s, i)|
    requires p == i + |Render(Scan(s, i)[..n])|
    ensures p < |s| && Scan(s, i)[n] == PieceAt(s, p)
    decreases n
  {
    assert i < |s|;
    if n == 0 {
      assert Scan(s, i)[..n] == [];
      ScanFirstFits(s, i);
    } else {
      var j := ScanNext(s, i);
      ScanPieceShift(s, i, n, p);
      ScanPieceAt(s, j, n - 1, p);
    }
  }

  /** Piece `n` of the search from `i` is piece `n - 1` of the search
      resumed after the first piece, and starts at the same position. */
  lemma ScanPieceShift(s: string, i: nat, n: nat, p: nat)
    requires i < |s| && 0 < n < |Scan(s, i)|
    requires p == i + |Render(Scan(s, i)[..n])|
    ensures n - 1 < |Scan(s, ScanNext(s, i))|
    ensures Scan(s, i)[n] == Scan(s, ScanNext(s, i))[n - 1]
    ensures p == ScanNext(s, i) + |Render(Scan(s, ScanNext(s, i))[..n - 1])|
  {
    var ps := Scan(s, i);
    ScanFirstCovers(s, i);
    var rest := Scan(s, ScanNext(s, i));
    assert ps[..n] == [ps[0]] + rest[..n - 1];
    RenderCons(ps[0], rest[..n - 1]);
  }

  /** Text as character pieces. */
  function Lits(t: string): (ps: seq<Piece>)
    ensures |ps| == |t|
    ensures forall n :: 0 <= n < |t| ==> ps[n] == Lit(t[n])
  {
    if t == [] then [] else [Lit(t[0])] + Lits(t[1..])
  }

  /** Where no image can start, the search yields the characters one by
      one. */
  lemma {:induction false} ScanNoBang(s: string, i: nat, e: nat)
    requires i <= e <= |s|
    requires forall p :: i <= p < e ==> s[p] != '!'
    ensures Scan(s, i) == Lits(s[i..e]) + Scan(s, e)
    decreases e - i
  {
    if i < e {
      ScanChar(s, i);
      ScanNoBang(s, i + 1, e);
      var head := [Lit(s[i])];
      assert Lits(s[i..e]) == head + Lits(s[i + 1..e]) by {
        assert s[i..e][1..] == s[i + 1..e];
      }
      Seqs.AppendAssoc(head, Lits(s[i + 1..e]), Scan(s, e));
    } else {
      assert s[i..e] == [];
    }
  }

  /** No image starts at a character other than '!'. */
  lemma ScanChar(s: string, i: nat)
    requires i < |s| && s[i] != '!'
    ensures Scan(s, i) == [Lit(s[i])] + Scan(s, i + 1)
  {
    assert MatchAt(s, i).None?;
  }

  lemma SliceInSlice<T>(s: seq<T>, i: nat, e: nat, a: nat, b: nat)
    requires i <= e <= |s| && a <= b <= e - i
    ensures s[i..e][a..b] == s[i + a..i + b]
  {
    var w := s[i..e];
    forall k | 0 <= k < b - a ensures w[a..b][k] == s[i + a..i + b][k] {
      assert w[a..b][k] == w[a + k] == s[i + a + k];
    }
  }

  /** The text of joined pieces is the joined texts. */
  lemma {:induction false} RenderAppend(ps: seq<Piece>, qs: seq<Piece>)
    ensures Render(ps + qs) == Render(ps) + Render(qs)
    decreases |ps|
  {
    if ps == [] {
      assert ps + qs == qs;
    } else {
      assert (ps + qs)[0] == ps[0];
      assert (ps + qs)[1..] == ps[1..] + qs;
      RenderAppend(ps[1..], qs);
      Seqs.AppendAssoc(RenderPiece(ps[0]), Render(ps[1..]), Render(qs));
    }
  }

  lemma {:induction false} RenderLits(t: string)
    ensures Render(Lits(t)) == t
  {
    if t != [] {
      assert Lits(t)[1..] == Lits(t[1..]);
      RenderLits(t[1..]);
      assert [t[0]] + t[1..] == t;
    }
  }

  /** Text pieces pass through the rewrite and use up no upload. */
  lemma {:induction false} RewriteLits(t: string, ps: seq<Piece>, upload: (nat, string) -> Option<Uploaded>, k: nat)
    ensures Rewrite(Lits(t) + ps, upload, k) == Lits(t) + Rewrite(ps, upload, k)
  {
    if t == [] {
      assert Lits(t) + ps == ps;
    } else {
      var qs := Lits(t) + ps;
      assert qs[0] == Lit(t[0]);
      assert qs[1..] == Lits(t[1..]) + ps;
      assert Rewrite(qs, upload, k) == [Lit(t[0])] + Rewrite(qs[1..], upload, k);
      RewriteLits(t[1..], ps, upload, k);
      assert Lits(t) == [Lit(t[0])] + Lits(t[1..]);
    }
  }

  /** A data image inside text, whose upload succeeds, is re-pointed at the
      upload, alt text kept, and the text around it is kept; the text
      before and after it holds no '!', so no other image competes. */
  lemma ImageInTextRewritten(a: string, alt: string, src: string, b: string, upload: (nat, string) -> Option<Uploaded>)
    requires '!' !in a && '!' !in b
    requires ']' !in alt && ')' !in src
    requires Strings.StartsWith(src, DataImage) && |src| > |DataImage|
    requires upload(0, src).Some?
    ensures ProcessMarkdown(a + ImageText(alt, src) + b, upload)
            == a + ImageText(alt, ChosenUrl(upload(0, src).value)) + b
  {
    var mid := [Img(alt, src)] + Lits(b);
    ScanAroundImage(a, alt, src, b);
    RewriteLits(a, mid, upload, 0);
    var img := Img(alt, ChosenUrl(upload(0, src).value));
    RewriteLits(b, [], upload, 1);
    assert Rewrite(mid, upload, 0) == [img] + Lits(b) by {
      assert mid[1..] == Lits(b) + [];
    }
    RenderAppend(Lits(a), [img] + Lits(b));
    RenderCons(img, Lits(b));
    RenderLits(a);
    RenderLits(b);
    Seqs.AppendAssoc(a, RenderPiece(img), b);
  }

  /** The scan of an image between two runs of text without '!' is the
      characters of the first run, the image, and those of the second. */
  lemma ScanAroundImage(a: string, alt: string, src: string, b: string)
    requires '!' !in a && '!' !in b
    requires ']' !in alt && ')' !in src
    requires Strings.StartsWith(src, DataImage) && |src| > |DataImage|
    ensures Scan(a + ImageText(alt, src) + b, 0) == Lits(a) + ([Img(alt, src)] + Lits(b))
  {
    var t := ImageText(alt, src);
    var s := a + t + b;
    var e := |a| + |t|;
    assert s[0..|a|] == a && s[|a|..e] == t && s[e..|s|] == b;
    forall p | 0 <= p < |a| ensures s[p] != '!' {
      assert s[p] == a[p];
    }
    forall p | e <= p < |s| ensures s[p] != '!' {
      assert s[p] == b[p - e];
    }
    ScanImageBetween(s, |a|, alt, src);
    assert Lits(s[0..|a|]) == Lits(a);
    assert Lits(s[e..|s|]) == Lits(b);
  }

  /** The same, for an image found at offset `i` of one string. */
  lemma ScanImageBetween(s: string, i: nat, alt: string, src: string)
    requires i + |ImageText(alt, src)| <= |s| && s[i..i + |ImageText(alt, src)|] == ImageText(alt, src)
    requires ']' !in alt && ')' !in src
    requires Strings.StartsWith(src, DataImage) && |src| > |DataImage|
    requires forall p :: 0 <= p < i ==> s[p] != '!'
    requires forall p :: i + |ImageText(alt, src)| <= p < |s| ==> s[p] != '!'
    ensures Scan(s, 0) == Lits(s[0..i]) + ([Img(alt, src)] + Lits(s[i + |ImageText(alt, src)|..|s|]))
  {
    var e := i + |ImageText(alt, src)|;
    ScanNoBang(s, e, |s|);
    var tail := Scan(s, e);
    assert tail == Lits(s[e..|s|]) by {
      assert Scan(s, |s|) == [];
      assert Lits(s[e..|s|]) + [] == Lits(s[e..|s|]);
    }
    ScanFindsImageAt(s, i, alt, src);
    assert Scan(s, i) == [Img(alt, src)] + tail;
    ScanNoBang(s, 0, i);
  }

  /** A lone data image whose upload succeeds becomes the same image
      pointing at the upload, alt text kept. */
  lemma LoneImageRewritten(alt: string, src: string, upload: (nat, string) -> Option<Uploaded>)
    requires ']' !in alt && ')' !in src
    requires Strings.StartsWith(src, DataImage) && |src| > |DataImage|
    requires upload(0, src).Some?
    ensures ProcessMarkdown(ImageText(alt, src), upload) == ImageText(alt, ChosenUrl(upload(0, src).value))
  {
    var t := ImageText(alt, src);
    assert t[0..|t|] == t;
    MatchImageAt(t, 0, alt, src);
    var ps := Scan(t, 0);
    assert Scan(t, |t|) == [];
    assert ps == [Img(alt, src)] + Scan(t, |t|);
    assert Images(ps[..0]) == 0 by { assert ps[..0] == []; }
    var r := Rewrite(ps, upload, 0);
    RewriteAt(ps, upload, 0);
    assert r == [Img(alt, ChosenUrl(upload(0, src).value))];
    RenderCons(r[0], []);
    assert [r[0]] + [] == r;
  }

  // ---------------------------------------------------------------------
  // The HTML path.

  /** An `img` element after the loop: untouched, or pointed at its upload
      (with `data-full-url`, lazy loading and async decoding set). */
  datatype ImgState = Untouched(original: Option<string>) | Replaced(src: string, fullUrl: string)

  /** Line 63: an image the loop uploads. */
  predicate IsDataImage(src: Option<string>) {
    src.Some? && src.value != [] && Strings.StartsWith(src.value, "data:image")
  }

  /** How many of the images are data images. */
  function DataImages(srcs: seq<Option<string>>): nat {
    if srcs == [] then 0 else (if IsDataImage(srcs[0]) then 1 else 0) + DataImages(srcs[1..])
  }

  /** What the loop leaves of one `img` element when it is the `k`-th data
      image. */
  function StateOf(src: Option<string>, upload: (nat, string) -> Option<Uploaded>, k: nat): ImgState {
    if IsDataImage(src) && upload(k, src.value).Some? then
      var u := upload(k, src.value).value;
      Replaced(ChosenUrl(u), u.url)
    else Untouched(src)
  }

  /** An element is replaced exactly when it is a data image whose upload
      succeeds, and then it points at the upload; otherwise it is kept. */
  lemma StateOfMeans(src: Option<string>, upload: (nat, string) -> Option<Uploaded>, k: nat)
    ensures StateOf(src, upload, k).Replaced? <==> IsDataImage(src) && upload(k, src.value).Some?
    ensures StateOf(src, upload, k).Untouched? ==> StateOf(src, upload, k).original == src
    ensures StateOf(src, upload, k).Replaced? ==>
              StateOf(src, upload, k).src == ChosenUrl(upload(k, src.value).value)
              && StateOf(src, upload, k).fullUrl == upload(k, src.value).value.url
  {
  }

  /** Lines 60 to 82: the `img` elements in document order, the `k`-th
      upload answering for the `k`-th data image. */
  function RewriteImgs(srcs: seq<Option<string>>, upload: (nat, string) -> Option<Uploaded>, k: nat)
    : (r: seq<ImgState>)
    ensures |r| == |srcs|
  {
    if srcs == [] then []
    else
      var k' := if IsDataImage(srcs[0]) then k + 1 else k;
      [StateOf(srcs[0], upload, k)] + RewriteImgs(srcs[1..], upload, k')
  }

  /** One state per element: only a data image is ever replaced, and an
      untouched element keeps its source. */
  lemma RewriteImgsKeeps(srcs: seq<Option<string>>, upload: (nat, string) -> Option<Uploaded>, k: nat)
    ensures forall n :: 0 <= n < |srcs| && RewriteImgs(srcs, upload, k)[n].Replaced? ==> IsDataImage(srcs[n])
    ensures forall n :: 0 <= n < |srcs| && RewriteImgs(srcs, upload, k)[n].Untouched? ==>
              RewriteImgs(srcs, upload, k)[n].original == srcs[n]
  {
    RewriteImgsAt(srcs, upload, k);
    forall n | 0 <= n < |srcs| {
      StateOfMeans(srcs[n], upload, k + DataImages(srcs[..n]));
    }
  }

  /** Every data image whose upload succeeds points at the upload, every
      other element is untouched; the ordinal of the upload counts the data
      images before the element. */
  lemma {:induction false} RewriteImgsAt(srcs: seq<Option<string>>, upload: (nat, string) -> Option<Uploaded>, k: nat)
    ensures forall n :: 0 <= n < |srcs| ==>
              RewriteImgs(srcs, upload, k)[n] == StateOf(srcs[n], upload, k + DataImages(srcs[..n]))
  {
    forall n | 0 <= n < |srcs| ensures RewriteImgs(srcs, upload, k)[n] == StateOf(srcs[n], upload, k + DataImages(srcs[..n])) {
      RewriteImgsAtIndex(srcs, upload, k, n);
    }
  }

  lemma {:induction false} RewriteImgsAtIndex(srcs: seq<Option<string>>, upload: (nat, string) -> Option<Uploaded>, k: nat, n: nat)
    requires n < |srcs|
    ensures RewriteImgs(srcs, upload, k)[n] == StateOf(srcs[n], upload, k + DataImages(srcs[..n]))
    decreases n
  {
    var k' := if IsDataImage(srcs[0]) then k + 1 else k;
    RewriteImgsCons(srcs, upload, k, n);
    DataImagesStep(srcs, n);
    if n > 0 {
      var rest := RewriteImgs(srcs[1..], upload, k');
      var m := k' + DataImages(srcs[1..][..n - 1]);
      RewriteImgsAtIndex(srcs[1..], upload, k', n - 1);
      assert srcs[1..][n - 1] == srcs[n];
      assert rest[n - 1] == StateOf(srcs[n], upload, m);
      assert m == k + DataImages(srcs[..n]);
      assert RewriteImgs(srcs, upload, k)[n] == rest[n - 1];
    }
  }

  /** One step of the recursion: the first element is answered by the
      `k`-th upload, the others are the rest's. */
  lemma RewriteImgsCons(srcs: seq<Option<string>>, upload: (nat, string) -> Option<Uploaded>, k: nat, n: nat)
    requires n < |srcs|
    ensures n == 0 ==> RewriteImgs(srcs, upload, k)[n] == StateOf(srcs[0], upload, k)
    ensures n > 0 ==> RewriteImgs(srcs, upload, k)[n]
                      == RewriteImgs(srcs[1..], upload, if IsDataImage(srcs[0]) then k + 1 else k)[n - 1]
  {
  }

  /** Counting the data images before `n` is counting the first element
      and then the data images of the rest before it. */
  lemma DataImagesStep(srcs: seq<Option<string>>, n: nat)
    requires n < |srcs|
    ensures n == 0 ==> DataImages(srcs[..n]) == 0
    ensures n > 0 ==> DataImages(srcs[..n]) == (if IsDataImage(srcs[0]) then 1 else 0) + DataImages(srcs[1..][..n - 1])
  {
    if n == 0 {
      assert srcs[..n] == [];
    } else {
      assert srcs[..n][1..] == srcs[1..][..n - 1];
    }
  }

  predicate AnyReplaced(r: seq<ImgState>) {
    exists n :: 0 <= n < |r| && r[n].Replaced?
  }

  /** Lines 52 to 84: the document re-serialised when some image changed,
      the original text otherwise. */
  function ProcessHtml(content: string, srcs: seq<Option<string>>, upload: (nat, string) -> Option<Uploaded>,
                       serialize: seq<ImgState> -> string): (r: string)
    ensures !AnyReplaced(RewriteImgs(srcs, upload, 0)) ==> r == content
    ensures AnyReplaced(RewriteImgs(srcs, upload, 0)) ==> r == serialize(RewriteImgs(srcs, upload, 0))
  {
    var states := RewriteImgs(srcs, upload, 0);
    if AnyReplaced(states) then serialize(states) else content
  }

  /** With no data image in the document the text comes back verbatim,
      whatever the uploads would answer. */
  lemma NoDataImagesVerbatim(content: string, srcs: seq<Option<string>>, upload: (nat, string) -> Option<Uploaded>,
                             serialize: seq<ImgState> -> string)
    requires forall n :: 0 <= n < |srcs| ==> !IsDataImage(srcs[n])
    ensures ProcessHtml(content, srcs, upload, serialize) == content
  {
    var states := RewriteImgs(srcs, upload, 0);
    RewriteImgsAt(srcs, upload, 0);
    assert forall n :: 0 <= n < |states| ==> states[n] == Untouched(srcs[n]);
  }

  /** Lines 11 to 85. Whether the text looks like markdown is an input. */
  function ProcessContentImages(content: string, looksLikeMarkdown: bool, upload: (nat, string) -> Option<Uploaded>,
                                srcs: seq<Option<string>>, serialize: seq<ImgState> -> string): (r: string)
    ensures content == [] ==> r == []
    ensures content != [] && looksLikeMarkdown ==> r == ProcessMarkdown(content, upload)
    ensures content != [] && !looksLikeMarkdown ==> r == ProcessHtml(content, srcs, upload, serialize)
    ensures content != [] && (forall n, s :: upload(n, s).None?) ==> r == content
  {
    if content == [] then []
    else if looksLikeMarkdown then ProcessMarkdown(content, upload)
    else
      assert (forall n, s :: upload(n, s).None?) ==> ProcessHtml(content, srcs, upload, serialize) == content by {
        if forall n, s :: upload(n, s).None? {
          var states := RewriteImgs(srcs, upload, 0);
          RewriteImgsAt(srcs, upload, 0);
          assert forall n :: 0 <= n < |states| ==> states[n].Untouched?;
        }
      }
      ProcessHtml(content, srcs, upload, serialize)
  }
}

=== FILE: duplicate_checker.dfy ===
/** The duplicate matcher used before vocabulary entries are stored, as
    far as `src/tests/duplicateDetection.test.ts` pins it down: an entry
    is a duplicate when some corpus entry has the same English word and the
    same part of speech, both compared case-insensitively. Bulk checks run
    every candidate against the same static corpus. */
module DuplicateChecker {
  import Strings
  import Seqs

  /** The two fields the matcher compares. */
  datatype Candidate = Candidate(english: string, partOfSpeech: string)

  predicate SameWord(a: Candidate, b: Candidate) {
    Strings.Lower(a.english) == Strings.Lower(b.english)
  }

  predicate IsMatch(a: Candidate, b: Candidate) {
    SameWord(a, b) && Strings.Lower(a.partOfSpeech) == Strings.Lower(b.partOfSpeech)
  }

  /** The part of a check result the tests observe. */
  datatype CheckResult = CheckResult(isDuplicate: bool)

  /** `checkVocabularyDuplicate`. */
  function CheckVocabularyDuplicate(c: Candidate, corpus: seq<Candidate>): (r: CheckResult)
    ensures r.isDuplicate <==> exists i :: 0 <= i < |corpus| && IsMatch(c, corpus[i])
    ensures corpus == [] ==> !r.isDuplicate
  {
    if corpus == [] then CheckResult(false)
    else if IsMatch(c, corpus[0]) then CheckResult(true)
    else
      var r := CheckVocabularyDuplicate(c, corpus[1..]);
      assert forall i :: 1 <= i < |corpus| ==> corpus[i] == corpus[1..][i - 1];
      r
  }

  /** Changing the case of either field never changes the verdict. */
  lemma CaseInsensitive(c: Candidate, corpus: seq<Candidate>)
    ensures CheckVocabularyDuplicate(Candidate(Strings.Lower(c.english), Strings.Lower(c.partOfSpeech)), corpus)
            == CheckVocabularyDuplicate(c, corpus)
  {
    Strings.LowerIdempotent(c.english);
    Strings.LowerIdempotent(c.partOfSpeech);
  }

  /** A word listed only under other parts of speech is not a duplicate. */
  lemma OtherPosIsNotDuplicate(c: Candidate, corpus: seq<Candidate>)
    requires forall i :: 0 <= i < |corpus| && SameWord(c, corpus[i]) ==>
               Strings.Lower(c.partOfSpeech) != Strings.Lower(corpus[i].partOfSpeech)
    ensures !CheckVocabularyDuplicate(c, corpus).isDuplicate
  {
  }

  /** `checkBulkVocabularyDuplicates`: one independent result per
      candidate, each against the unchanged corpus. */
  function CheckBulkVocabularyDuplicates(cs: seq<Candidate>, corpus: seq<Candidate>): (rs: seq<CheckResult>)
    ensures |rs| == |cs|
    ensures forall i :: 0 <= i < |cs| ==> rs[i] == CheckVocabularyDuplicate(cs[i], corpus)
  {
    if cs == [] then []
    else [CheckVocabularyDuplicate(cs[0], corpus)] + CheckBulkVocabularyDuplicates(cs[1..], corpus)
  }

  datatype DuplicateStats = DuplicateStats(total: nat, duplicates: nat, unique: nat)

  predicate IsDup(r: CheckResult) { r.isDuplicate }

  /** `getDuplicateStats`: counts that add up to the total. */
  function GetDuplicateStats(rs: seq<CheckResult>): (st: DuplicateStats)
    ensures st.total == |rs|
    ensures st.duplicates + st.unique == st.total
    ensures st.duplicates == Seqs.Count(rs, IsDup)
  {
    if rs == [] then DuplicateStats(0, 0, 0)
    else
      var st := GetDuplicateStats(rs[1..]);
      if rs[0].isDuplicate then DuplicateStats(st.total + 1, st.duplicates + 1, st.unique)
      else DuplicateStats(st.total + 1, st.duplicates, st.unique + 1)
  }

  /** `filterNonDuplicates`: the candidates whose result is not a
      duplicate, in their original order. */
  function FilterNonDuplicates(cs: seq<Candidate>, rs: seq<CheckResult>): (kept: seq<Candidate>)
    requires |rs| == |cs|
    ensures |kept| == GetDuplicateStats(rs).unique
    ensures forall x :: x in kept ==> x in cs
    ensures forall i :: 0 <= i < |cs| && !rs[i].isDuplicate ==> cs[i] in kept
  {
    if cs == [] then []
    else
      var rest := FilterNonDuplicates(cs[1..], rs[1..]);
      assert forall i :: 1 <= i < |cs| ==> cs[i] == cs[1..][i - 1] && rs[i] == rs[1..][i - 1];
      (if rs[0].isDuplicate then [] else [cs[0]]) + rest
  }

  /** Whether a candidate is new to the corpus. */
  function NewTo(corpus: seq<Candidate>): Candidate -> bool {
    c => !CheckVocabularyDuplicate(c, corpus).isDuplicate
  }

  /** Checking a batch and filtering it by its results keeps exactly the
      candidates that are new to the corpus, in their original order. */
  lemma {:induction false} FilterBulkIsFilterNew(cs: seq<Candidate>, corpus: seq<Candidate>)
    ensures FilterNonDuplicates(cs, CheckBulkVocabularyDuplicates(cs, corpus)) == Seqs.Filter(cs, NewTo(corpus))
  {
    if cs != [] {
      FilterBulkIsFilterNew(cs[1..], corpus);
    }
  }

  // ---------------------------------------------------------------------
  // The fixture of the test file.

  function Fixture(): seq<Candidate> {
    [Candidate("run", "Verb"), Candidate("walk", "Verb"), Candidate("book", "Noun")]
  }

  function BulkCandidates(): seq<Candidate> {
    [Candidate("run", "Verb"), Candidate("walk", "Verb"), Candidate("jump", "Verb"),
     Candidate("book", "Verb"), Candidate("swim", "Verb")]
  }

  lemma LowerFacts()
    ensures Strings.Lower("run") == "run" && Strings.Lower("RUN") == "run"
    ensures Strings.Lower("walk") == "walk" && Strings.Lower("book") == "book"
    ensures Strings.Lower("jump") == "jump" && Strings.Lower("swim") == "swim"
    ensures Strings.Lower("Verb") == "verb" && Strings.Lower("verb") == "verb"
    ensures Strings.Lower("Noun") == "noun"
  {
    assert Strings.Lower("RUN") == "run";
    assert Strings.Lower("Verb") == "verb";
    assert Strings.Lower("Noun") == "noun";
  }

  /** Test cases 1 to 4 and 7 of the test file. */
  lemma SingleChecks()
    ensures CheckVocabularyDuplicate(Candidate("run", "Verb"), Fixture()).isDuplicate
    ensures !CheckVocabularyDuplicate(Candidate("run", "Noun"), Fixture()).isDuplicate
    ensures !CheckVocabularyDuplicate(Candidate("jump", "Verb"), Fixture()).isDuplicate
    ensures CheckVocabularyDuplicate(Candidate("RUN", "verb"), Fixture()).isDuplicate
    ensures !CheckVocabularyDuplicate(Candidate("test", "Noun"), []).isDuplicate
  {
    LowerFacts();
    assert IsMatch(Candidate("run", "Verb"), Fixture()[0]);
    assert IsMatch(Candidate("RUN", "verb"), Fixture()[0]);
    assert "noun" != "verb" by { assert "noun"[0] != "verb"[0]; }
    assert "jump" != "run" && "jump" != "walk" && "jump" != "book" by {
      assert "jump"[0] != "run"[0] && "jump"[0] != "walk"[0] && "jump"[0] != "book"[0];
    }
    assert "run" != "walk" && "run" != "book" by {
      assert "run"[0] != "walk"[0] && "run"[0] != "book"[0];
    }
  }

  /** Test cases 5 and 6: two duplicates, three unique, and the unique
      ones are jump, book and swim in that order. */
  lemma BulkCheck()
    ensures var rs := CheckBulkVocabularyDuplicates(BulkCandidates(), Fixture());
            && GetDuplicateStats(rs) == DuplicateStats(5, 2, 3)
            && FilterNonDuplicates(BulkCandidates(), rs)
                 == [Candidate("jump", "Verb"), Candidate("book", "Verb"), Candidate("swim", "Verb")]
  {
    BulkResults();
    ExpectedStats();
    ExpectedFilter();
  }

  function ExpectedResults(): seq<CheckResult> {
    [CheckResult(true), CheckResult(true), CheckResult(false), CheckResult(false), CheckResult(false)]
  }

  lemma BulkResults()
    ensures CheckBulkVocabularyDuplicates(BulkCandidates(), Fixture()) == ExpectedResults()
  {
    var cs := BulkCandidates();
    var e := ExpectedResults();
    BulkVerdicts();
    assert cs[0] == Candidate("run", "Verb") && cs[1] == Candidate("walk", "Verb");
    assert cs[2] == Candidate("jump", "Verb") && cs[3] == Candidate("book", "Verb");
    assert cs[4] == Candidate("swim", "Verb");
    BulkFromVerdicts(cs, Fixture(), e);
  }

  /** The bulk check is the list of the single checks' verdicts. */
  lemma BulkFromVerdicts(cs: seq<Candidate>, corpus: seq<Candidate>, e: seq<CheckResult>)
    requires |e| == |cs|
    requires forall i :: 0 <= i < |cs| ==> e[i].isDuplicate == CheckVocabularyDuplicate(cs[i], corpus).isDuplicate
    ensures CheckBulkVocabularyDuplicates(cs, corpus) == e
  {
  }

  lemma ExpectedStats()
    ensures GetDuplicateStats(ExpectedResults()) == DuplicateStats(5, 2, 3)
  {
    var e := ExpectedResults();
    assert GetDuplicateStats(e[4..]) == DuplicateStats(1, 0, 1);
    assert GetDuplicateStats(e[3..]) == DuplicateStats(2, 0, 2);
    assert GetDuplicateStats(e[2..]) == DuplicateStats(3, 0, 3);
    assert GetDuplicateStats(e[1..]) == DuplicateStats(4, 1, 3);
  }

  lemma ExpectedFilter()
    ensures FilterNonDuplicates(BulkCandidates(), ExpectedResults())
              == [Candidate("jump", "Verb"), Candidate("book", "Verb"), Candidate("swim", "Verb")]
  {
    var cs, rs := BulkCandidates(), ExpectedResults();
    assert rs[0].isDuplicate && rs[1].isDuplicate;
    assert forall i :: 2 <= i < |rs| ==> !rs[i].isDuplicate;
    DropTwoDuplicates(cs, rs);
    assert cs[2..] == [Candidate("jump", "Verb"), Candidate("book", "Verb"), Candidate("swim", "Verb")];
  }

  /** Two duplicates followed by unique candidates leave the unique ones. */
  lemma DropTwoDuplicates(cs: seq<Candidate>, rs: seq<CheckResult>)
    requires |rs| == |cs| >= 2 && rs[0].isDuplicate && rs[1].isDuplicate
    requires forall i :: 2 <= i < |rs| ==> !rs[i].isDuplicate
    ensures FilterNonDuplicates(cs, rs) == cs[2..]
  {
    SkipDuplicate(cs, rs);
    SkipDuplicate(cs[1..], rs[1..]);
    assert cs[1..][1..] == cs[2..] && rs[1..][1..] == rs[2..];
    KeepAllUnique(cs[2..], rs[2..]);
  }

  /** A candidate judged a duplicate is dropped. */
  lemma SkipDuplicate(cs: seq<Candidate>, rs: seq<CheckResult>)
    requires |rs| == |cs| && cs != [] && rs[0].isDuplicate
    ensures FilterNonDuplicates(cs, rs) == FilterNonDuplicates(cs[1..], rs[1..])
  {
  }

  /** When no result is a duplicate every candidate is kept. */
  lemma {:induction false} KeepAllUnique(cs: seq<Candidate>, rs: seq<CheckResult>)
    requires |rs| == |cs|
    requires forall i :: 0 <= i < |rs| ==> !rs[i].isDuplicate
    ensures FilterNonDuplicates(cs, rs) == cs
  {
    if cs != [] {
      KeepAllUnique(cs[1..], rs[1..]);
      assert [cs[0]] + cs[1..] == cs;
    }
  }

  /** Filtering a candidate in front of others. */
  lemma FilterCons(c: Candidate, cs: seq<Candidate>, r: CheckResult, rs: seq<CheckResult>)
    requires |rs| == |cs|
    ensures FilterNonDuplicates([c] + cs, [r] + rs)
              == (if r.isDuplicate then [] else [c]) + FilterNonDuplicates(cs, rs)
  {
    assert ([c] + cs)[1..] == cs && ([r] + rs)[1..] == rs;
  }

  /** A candidate matching no fixture entry is unique. */
  lemma NoFixtureMatch(c: Candidate)
    requires !IsMatch(c, Fixture()[0]) && !IsMatch(c, Fixture()[1]) && !IsMatch(c, Fixture()[2])
    ensures !CheckVocabularyDuplicate(c, Fixture()).isDuplicate
  {
    assert forall i :: 0 <= i < |Fixture()| ==> !IsMatch(c, Fixture()[i]);
  }

  lemma BulkVerdicts()
    ensures CheckVocabularyDuplicate(Candidate("run", "Verb"), Fixture()).isDuplicate
    ensures CheckVocabularyDuplicate(Candidate("walk", "Verb"), Fixture()).isDuplicate
    ensures !CheckVocabularyDuplicate(Candidate("jump", "Verb"), Fixture()).isDuplicate
    ensures !CheckVocabularyDuplicate(Candidate("book", "Verb"), Fixture()).isDuplicate
    ensures !CheckVocabularyDuplicate(Candidate("swim", "Verb"), Fixture()).isDuplicate
  {
    RunWalkDuplicates();
    LowerFacts();
    NewWordUnique("jump", "Verb");
    BookVerbUnique();
    NewWordUnique("swim", "Verb");
  }

  lemma RunWalkDuplicates()
    ensures CheckVocabularyDuplicate(Candidate("run", "Verb"), Fixture()).isDuplicate
    ensures CheckVocabularyDuplicate(Candidate("walk", "Verb"), Fixture()).isDuplicate
  {
    LowerFacts();
    assert IsMatch(Candidate("run", "Verb"), Fixture()[0]);
    assert IsMatch(Candidate("walk", "Verb"), Fixture()[1]);
  }

  /** A lower-case word whose first letter starts no fixture word is
      unique, whatever its part of speech. */
  lemma NewWordUnique(w: string, pos: string)
    requires w != [] && Strings.Lower(w) == w
    requires w[0] != 'r' && w[0] != 'w' && w[0] != 'b'
    ensures !CheckVocabularyDuplicate(Candidate(w, pos), Fixture()).isDuplicate
  {
    LowerFacts();
    assert "run"[0] == 'r' && "walk"[0] == 'w' && "book"[0] == 'b';
    NoFixtureMatch(Candidate(w, pos));
  }

  lemma BookVerbUnique()
    ensures !CheckVocabularyDuplicate(Candidate("book", "Verb"), Fixture()).isDuplicate
  {
    LowerFacts();
    assert "book"[0] != "run"[0] && "book"[0] != "walk"[0];
    assert "verb"[0] != "noun"[0];
    NoFixtureMatch(Candidate("book", "Verb"));
  }
}

=== FILE: enhance_vocabulary.dfy ===
/** The field-gap analysis of `enhanceVocabulary`
    (`src/services/enhanceVocabularyService.ts`): which fields of a
    vocabulary entry count as missing, how a caller's `specificFields`
    narrows that list, when no request is made at all, and how the reply
    is cut down to the listed fields. The request itself and the parsing of
    the reply are an oracle. */
module EnhanceVocabulary {
  import opened Wrappers
  import Strings
  import Seqs

  /** What the analysis reads of a vocabulary entry. An absent array is
      `None`; a present one is given by its length. */
  datatype VocabFields = VocabFields(
    partOfSpeech: string,
    hasVerbForms: bool,
    synonyms: Option<nat>,
    antonyms: Option<nat>,
    examples: Option<nat>,
    relatedWords: Option<nat>,
    pronunciation: Option<string>,
    explanation: Option<string>)

  /** The fields the analysis can list, in the order it checks them. */
  datatype Field = VerbForms | Synonyms | Antonyms | Examples | RelatedWords | Pronunciation | Explanation

  /** The name a field has in `specificFields` and in the reply. */
  function Name(f: Field): string {
    match f
    case VerbForms => "verbForms"
    case Synonyms => "synonyms"
    case Antonyms => "antonyms"
    case Examples => "examples"
    case RelatedWords => "relatedWords"
    case Pronunciation => "pronunciation"
    case Explanation => "explanation"
  }

  /** Different fields have different names, and none is called "bangla",
      so the rule for "bangla" can never be included in a prompt. */
  lemma NamesDistinct(f: Field, g: Field)
    ensures Name(f) == Name(g) ==> f == g
    ensures Name(f) != "bangla"
  {
    assert |Name(f)| != |"bangla"|;
  }

  /** The order in which the analysis checks the fields. */
  function FieldOrder(): (o: seq<Field>)
    ensures forall f :: f in o
  {
    var o := [VerbForms, Synonyms, Antonyms, Examples, RelatedWords, Pronunciation, Explanation];
    assert forall f :: f in o by {
      forall f ensures f in o {
        Listed(f, o);
      }
    }
    o
  }

  lemma Listed(f: Field, o: seq<Field>)
    requires o == [VerbForms, Synonyms, Antonyms, Examples, RelatedWords, Pronunciation, Explanation]
    ensures f in o
  {
    if f == VerbForms { assert o[0] == f; }
    else if f == Synonyms { assert o[1] == f; }
    else if f == Antonyms { assert o[2] == f; }
    else if f == Examples { assert o[3] == f; }
    else if f == RelatedWords { assert o[4] == f; }
    else if f == Pronunciation { assert o[5] == f; }
    else { assert o[6] == f; }
  }

  predicate FewerThan(n: Option<nat>, k: nat) {
    n.None? || n.value < k
  }

  /** Field by field, what "missing" means. */
  predicate IsMissing(v: VocabFields, f: Field) {
    match f
    case VerbForms => v.partOfSpeech == "Verb" && !v.hasVerbForms
    case Synonyms => FewerThan(v.synonyms, 3)
    case Antonyms => FewerThan(v.antonyms, 3)
    case Examples => FewerThan(v.examples, 1)
    case RelatedWords => FewerThan(v.relatedWords, 1)
    case Pronunciation => v.pronunciation.None? || Strings.Trim(v.pronunciation.value) == []
    case Explanation => v.explanation.None? || Strings.Utf16Length(v.explanation.value) < 50
  }

  /** Reference definition: the fields of `order` that satisfy `missing`,
      in that order. */
  function MissingOf(order: seq<Field>, missing: Field -> bool): (r: seq<Field>)
    ensures forall f :: f in r <==> f in order && missing(f)
  {
    if order == [] then []
    else
      var init := order[..|order| - 1];
      var last := order[|order| - 1];
      assert order == init + [last];
      PushIf(MissingOf(init, missing), missing(last), last)
  }

  function PushIf(list: seq<Field>, cond: bool, f: Field): seq<Field> {
    if cond then list + [f] else list
  }

  /** Lines 10 to 45: the `needsEnhancement` list, pushed check by check:
      exactly the missing fields, in the fixed check order. */
  function NeedsEnhancement(v: VocabFields): (r: seq<Field>)
    ensures r == MissingOf(FieldOrder(), f => IsMissing(v, f))
    ensures forall f :: f in r <==> IsMissing(v, f)
  {
    var l0 := PushIf([], IsMissing(v, VerbForms), VerbForms);
    var l1 := PushIf(l0, IsMissing(v, Synonyms), Synonyms);
    var l2 := PushIf(l1, IsMissing(v, Antonyms), Antonyms);
    var l3 := PushIf(l2, IsMissing(v, Examples), Examples);
    var l4 := PushIf(l3, IsMissing(v, RelatedWords), RelatedWords);
    var l5 := PushIf(l4, IsMissing(v, Pronunciation), Pronunciation);
    var r := PushIf(l5, IsMissing(v, Explanation), Explanation);
    PushChain(f => IsMissing(v, f));
    r
  }

  /** The reference definition over the check order, unrolled field by
      field. */
  lemma PushChain(m: Field -> bool)
    ensures MissingOf(FieldOrder(), m)
            == PushIf(PushIf(PushIf(PushIf(PushIf(PushIf(PushIf([],
                 m(VerbForms), VerbForms), m(Synonyms), Synonyms), m(Antonyms), Antonyms),
                 m(Examples), Examples), m(RelatedWords), RelatedWords),
                 m(Pronunciation), Pronunciation), m(Explanation), Explanation)
  {
    var p0: seq<Field> := [];
    var p1 := p0 + [VerbForms];
    var p2 := p1 + [Synonyms];
    var p3 := p2 + [Antonyms];
    var p4 := p3 + [Examples];
    var p5 := p4 + [RelatedWords];
    var p6 := p5 + [Pronunciation];
    var p7 := p6 + [Explanation];
    MissingOfSnoc(p0, VerbForms, m);
    MissingOfSnoc(p1, Synonyms, m);
    MissingOfSnoc(p2, Antonyms, m);
    MissingOfSnoc(p3, Examples, m);
    MissingOfSnoc(p4, RelatedWords, m);
    MissingOfSnoc(p5, Pronunciation, m);
    MissingOfSnoc(p6, Explanation, m);
    assert p7 == FieldOrder();
  }

  /** One more field in the check order pushes it when it is missing. */
  lemma MissingOfSnoc(init: seq<Field>, last: Field, m: Field -> bool)
    ensures MissingOf(init + [last], m) == PushIf(MissingOf(init, m), m(last), last)
  {
    assert (init + [last])[..|init|] == init;
  }

  /** Line 48: a non-empty `specificFields` without "all" narrows the
      list; anything else leaves it alone. */
  predicate Narrows(specificFields: Option<seq<string>>) {
    specificFields.Some? && |specificFields.value| > 0 && "all" !in specificFields.value
  }

  /** Lines 47 to 50: the narrowed list keeps the original order and only
      fields the caller asked for. */
  function NarrowFields(fields: seq<Field>, specificFields: Option<seq<string>>): (r: seq<Field>)
    ensures !Narrows(specificFields) ==> r == fields
    ensures Narrows(specificFields) ==>
              forall f :: f in r <==> f in fields && Name(f) in specificFields.value
    ensures |r| <= |fields|
  {
    if Narrows(specificFields) then
      var asked := specificFields.value;
      var r := Seqs.Filter(fields, Asked(asked));
      assert forall i :: 0 <= i < |fields| && Name(fields[i]) in asked ==> fields[i] in r;
      r
    else fields
  }

  /** Whether the caller asked for the field, by name. */
  function Asked(asked: seq<string>): Field -> bool {
    f => Name(f) in asked
  }

  /** The reference definition only looks at `missing` pointwise. */
  lemma {:induction false} MissingOfSame(order: seq<Field>, m1: Field -> bool, m2: Field -> bool)
    requires forall f :: m1(f) == m2(f)
    ensures MissingOf(order, m1) == MissingOf(order, m2)
    decreases |order|
  {
    if order != [] {
      MissingOfSame(order[..|order| - 1], m1, m2);
    }
  }

  /** Filtering the fields that satisfy `m` by `p` keeps those that satisfy
      both, still in the order of `order`. */
  lemma {:induction false} FilterMissingOf(order: seq<Field>, m: Field -> bool, p: Field -> bool)
    ensures Seqs.Filter(MissingOf(order, m), p) == MissingOf(order, f => m(f) && p(f))
    decreases |order|
  {
    if order != [] {
      var init := order[..|order| - 1];
      var last := order[|order| - 1];
      FilterMissingOf(init, m, p);
      MissingOfSame(init, f => m(f) && p(f), f => m(f) && p(f));
      if m(last) {
        Seqs.FilterConcat(MissingOf(init, m), [last], p);
      }
    }
  }

  /** Narrowing the missing list leaves exactly the fields that are both
      missing and asked for, in the check order. */
  lemma NarrowedNeeds(v: VocabFields, specificFields: Option<seq<string>>)
    ensures Narrows(specificFields) ==>
              NarrowFields(NeedsEnhancement(v), specificFields)
              == MissingOf(FieldOrder(), f => IsMissing(v, f) && Name(f) in specificFields.value)
  {
    if Narrows(specificFields) {
      var m := f => IsMissing(v, f);
      var p := Asked(specificFields.value);
      FilterMissingOf(FieldOrder(), m, p);
      MissingOfSame(FieldOrder(), f => m(f) && p(f), f => IsMissing(v, f) && Name(f) in specificFields.value);
    }
  }

  /** `apiKey || localStorage.getItem(...) || env`: the first non-empty
      key. */
  function KeyToUse(apiKey: Option<string>, stored: Option<string>, env: Option<string>): (k: Option<string>)
    ensures k.Some? ==> |k.value| > 0
    ensures k.None? <==> (apiKey.None? || apiKey.value == []) && (stored.None? || stored.value == []) && (env.None? || env.value == [])
    ensures apiKey.Some? && apiKey.value != [] ==> k == apiKey
    ensures (apiKey.None? || apiKey.value == []) && stored.Some? && stored.value != [] ==> k == stored
  {
    if apiKey.Some? && apiKey.value != [] then apiKey
    else if stored.Some? && stored.value != [] then stored
    else if env.Some? && env.value != [] then env
    else None
  }

  /** One call of `enhanceVocabulary`. `requested` holds the field list
      sent to the model when a request was made; `reply` is the parsed
      reply of that request, or the error it threw. */
  datatype Outcome<V> = Outcome(requested: Option<seq<Field>>, result: Result<map<string, V>, string>)

  const MissingKeyMessage: string := "OpenAI API key is required"

  /** Lines 147 to 152: the reply restricted to the listed fields it
      defines. */
  function KeepRequested<V>(parsed: map<string, V>, fields: seq<Field>): (r: map<string, V>)
    ensures forall k :: k in r <==> k in parsed && exists f :: f in fields && Name(f) == k
    ensures forall k :: k in r ==> r[k] == parsed[k]
  {
    map k | k in parsed.Keys && (exists f :: f in fields && Name(f) == k) :: parsed[k]
  }

  function Enhance<V>(v: VocabFields, apiKey: Option<string>, stored: Option<string>, env: Option<string>,
                      specificFields: Option<seq<string>>, reply: Result<map<string, V>, string>): (o: Outcome<V>)
    ensures KeyToUse(apiKey, stored, env).None? ==> o == Outcome(None, Err(MissingKeyMessage))
    ensures o.requested.Some? ==>
              && KeyToUse(apiKey, stored, env).Some?
              && o.requested.value == NarrowFields(NeedsEnhancement(v), specificFields)
              && |o.requested.value| > 0
    ensures KeyToUse(apiKey, stored, env).Some? && NarrowFields(NeedsEnhancement(v), specificFields) == [] ==>
              o == Outcome(None, Ok(map[]))
    ensures o.requested.Some? && reply.Err? ==> o.result == reply
    ensures KeyToUse(apiKey, stored, env).Some? && NarrowFields(NeedsEnhancement(v), specificFields) != [] ==>
              && o.requested == Some(NarrowFields(NeedsEnhancement(v), specificFields))
              && (reply.Ok? ==> o.result == Ok(KeepRequested(reply.value, o.requested.value)))
    ensures o.requested.Some? && reply.Ok? ==>
              o.result.Ok? && forall k :: k in o.result.value ==>
                k in reply.value && o.result.value[k] == reply.value[k]
                && exists f :: f in o.requested.value && Name(f) == k && IsMissing(v, f)
  {
    if KeyToUse(apiKey, stored, env).None? then Outcome(None, Err(MissingKeyMessage))
    else
      var fields := NarrowFields(NeedsEnhancement(v), specificFields);
      if fields == [] then Outcome(None, Ok(map[]))
      else match reply
        case Err(e) => Outcome(Some(fields), Err(e))
        case Ok(parsed) => Outcome(Some(fields), Ok(KeepRequested(parsed, fields)))
  }

  /** An "all" among the requested fields means no narrowing. */
  lemma AllMeansEverything(fields: seq<Field>, specificFields: seq<string>)
    requires "all" in specificFields
    ensures NarrowFields(fields, Some(specificFields)) == fields
  {
  }

  /** An entry with every field well filled needs nothing and sends no
      request. */
  lemma CompleteEntryNeedsNothing<V>(v: VocabFields, key: string, reply: Result<map<string, V>, string>)
    requires key != []
    requires v.partOfSpeech != "Verb" || v.hasVerbForms
    requires !FewerThan(v.synonyms, 3) && !FewerThan(v.antonyms, 3)
    requires !FewerThan(v.examples, 1) && !FewerThan(v.relatedWords, 1)
    requires v.pronunciation.Some? && Strings.Trim(v.pronunciation.value) != []
    requires v.explanation.Some? && Strings.Utf16Length(v.explanation.value) >= 50
    ensures Enhance(v, Some(key), None, None, None, reply) == Outcome(None, Ok(map[]))
  {
    assert forall f :: !IsMissing(v, f);
  }

  /** A verb without verb forms asks for them unless narrowed away; the
      same word as a noun never does. */
  lemma VerbFormsOnlyForVerbs(v: VocabFields)
    ensures VerbForms in NeedsEnhancement(v) <==> v.partOfSpeech == "Verb" && !v.hasVerbForms
  {
  }
}

=== FILE: print_vocabulary.dfy ===
/** The list logic of the print page (`src/pages/PrintVocabulary.tsx`):
    the part-of-speech selection and filter, the guards before a PDF is
    built, the table rows of the PDF, the synonym preview and the PDF file
    name. The export date text (`toLocaleDateString`) is an input. */
module PrintVocabulary {
  import opened Wrappers
  import Strings
  import Seqs

  /** What the page reads of a vocabulary entry; absent synonyms are
      `None`. */
  datatype Vocab = Vocab(bangla: string, english: string, partOfSpeech: string, synonyms: Option<seq<string>>)

  /** Lines 38 to 41: with nothing selected yet, loading a non-empty list
      selects the first entry's part of speech. */
  function InitialPos(selected: string, vocabs: seq<Vocab>): (pos: string)
    ensures selected != [] ==> pos == selected
    ensures selected == [] && vocabs == [] ==> pos == []
    ensures selected == [] && vocabs != [] ==> pos == vocabs[0].partOfSpeech
  {
    if selected == [] && |vocabs| > 0 then vocabs[0].partOfSpeech else selected
  }

  /** The filter predicate, as a named function so that two filters over
      the same part of speech are the same filter. */
  function HasPos(pos: string): Vocab -> bool {
    (v: Vocab) => v.partOfSpeech == pos
  }

  /** Lines 65 to 68: the entries whose part of speech equals the
      selection, case included, in list order; nothing without a
      selection. */
  function FilteredVocabs(vs: seq<Vocab>, pos: string): (r: seq<Vocab>)
    ensures pos == [] ==> r == []
    ensures forall x :: x in r <==> pos != [] && x in vs && x.partOfSpeech == pos
    ensures pos != [] ==> r == Seqs.Filter(vs, HasPos(pos))
  {
    if pos == [] then []
    else
      Seqs.FilterMembers(vs, HasPos(pos));
      Seqs.Filter(vs, HasPos(pos))
  }

  /** Filtering the filtered list again changes nothing. */
  lemma FilterIdempotent(vs: seq<Vocab>, pos: string)
    ensures FilteredVocabs(FilteredVocabs(vs, pos), pos) == FilteredVocabs(vs, pos)
  {
    if pos != [] {
      Seqs.FilterFilter(vs, HasPos(pos), HasPos(pos));
    }
  }

  const NoPosMessage: string := "Please select a part of speech first"
  const NoWordsMessage: string := "No vocabularies found for selected part of speech"

  /** Lines 71 to 78: the guards of `handleGeneratePDF`. On success, the
      entries the PDF lists. */
  function StartPdf(vs: seq<Vocab>, pos: string): (r: Result<seq<Vocab>, string>)
    ensures pos == [] <==> r == Err(NoPosMessage)
    ensures r == Err(NoWordsMessage) <==> pos != [] && forall x :: x in vs ==> x.partOfSpeech != pos
    ensures r.Ok? ==> r.value == FilteredVocabs(vs, pos) && |r.value| > 0
  {
    if pos == [] then Err(NoPosMessage)
    else
      var fs := FilteredVocabs(vs, pos);
      if |fs| == 0 then Err(NoWordsMessage)
      else
        assert fs[0] in fs;
        Ok(fs)
  }

  /** `text || '-'`. */
  function OrDash(s: string): (r: string)
    ensures r != []
    ensures s != [] ==> r == s
  {
    if s == [] then "-" else s
  }

  /** The synonyms joined with ", ", or '-' when there are none. */
  function SynonymsText(synonyms: Option<seq<string>>): (r: string)
    ensures synonyms.None? || synonyms.value == [] ==> r == "-"
    ensures synonyms.Some? && synonyms.value != [] ==> r == Strings.Join(synonyms.value, ", ")
  {
    if synonyms.Some? && |synonyms.value| > 0 then Strings.Join(synonyms.value, ", ") else "-"
  }

  /** One table row of the PDF. */
  datatype Row = Row(number: nat, shaded: bool, bangla: string, english: string, synonyms: string)

  /** Lines 138 to 145: one row per entry, numbered from 1, the rows at
      even indices shaded, empty texts shown as '-'. */
  function Rows(vs: seq<Vocab>): (rows: seq<Row>)
    ensures |rows| == |vs|
    ensures forall i :: 0 <= i < |rows| ==> rows[i].bangla != [] && rows[i].english != []
    ensures forall i :: 0 <= i < |vs| ==>
              && rows[i].bangla == OrDash(vs[i].bangla)
              && rows[i].english == OrDash(vs[i].english)
              && rows[i].synonyms == SynonymsText(vs[i].synonyms)
  {
    seq(|vs|, i requires 0 <= i < |vs| =>
      Row(i + 1, i % 2 == 0, OrDash(vs[i].bangla), OrDash(vs[i].english), SynonymsText(vs[i].synonyms)))
  }

  /** The rows count 1, 2, 3, ... with the shading alternating from a
      shaded first row, and each shows its own entry. */
  lemma RowsNumbered(vs: seq<Vocab>)
    ensures var rows := Rows(vs);
            && (|rows| > 0 ==> rows[0].number == 1 && rows[0].shaded)
            && (forall i :: 0 <= i < |rows| - 1 ==>
                  rows[i].shaded != rows[i + 1].shaded && rows[i + 1].number == rows[i].number + 1)
            && (forall i :: 0 <= i < |rows| && vs[i].english != [] ==> rows[i].english == vs[i].english)
  {
  }

  /** Line 283: the on-screen preview lists at most the first three
      synonyms. */
  function PreviewSynonyms(synonyms: Option<seq<string>>): (r: string)
    ensures synonyms.None? || synonyms.value == [] ==> r == "-"
    ensures synonyms.Some? && synonyms.value != [] ==>
              r == Strings.Join(synonyms.value[..if |synonyms.value| < 3 then |synonyms.value| else 3], ", ")
  {
    if synonyms.Some? && |synonyms.value| > 0 then
      var s := synonyms.value;
      Strings.Join(s[..if |s| < 3 then |s| else 3], ", ")
    else "-"
  }

  /** The preview is the beginning of the full synonym cell of the PDF. */
  lemma PreviewIsPrefix(synonyms: Option<seq<string>>)
    ensures Strings.StartsWith(SynonymsText(synonyms), PreviewSynonyms(synonyms))
  {
    if synonyms.Some? && |synonyms.value| > 0 {
      var s := synonyms.value;
      JoinPrefix(s, if |s| < 3 then |s| else 3, ", ");
    }
  }

  /** Joining the first `k` pieces gives a prefix of the join of all. */
  lemma {:induction false} JoinPrefix(parts: seq<string>, k: nat, sep: string)
    requires k <= |parts|
    ensures Strings.StartsWith(Strings.Join(parts, sep), Strings.Join(parts[..k], sep))
  {
    var whole := Strings.Join(parts, sep);
    if k == 0 {
      assert Strings.Join(parts[..0], sep) == [];
    } else if k == 1 {
      assert parts[..1] == [parts[0]];
      assert whole[..|parts[0]|] == parts[0] by {
        if |parts| > 1 {
          assert whole == parts[0] + (sep + Strings.Join(parts[1..], sep));
        }
      }
    } else {
      JoinPrefix(parts[1..], k - 1, sep);
      assert parts[..k][1..] == parts[1..][..k - 1];
      var tail := Strings.Join(parts[1..], sep);
      var head := Strings.Join(parts[1..][..k - 1], sep);
      assert whole == parts[0] + sep + tail;
      assert Strings.Join(parts[..k], sep) == parts[0] + sep + head;
      assert tail[..|head|] == head;
    }
  }

  /** Every synonym after the first, as it appears between two commas of
      the cell: with the space of the ", " in front. */
  function Spaced(parts: seq<string>): (r: seq<string>)
    ensures |r| == |parts|
    ensures forall i :: 0 <= i < |parts| ==> r[i] == " " + parts[i]
  {
    if parts == [] then [] else [" " + parts[0]] + Spaced(parts[1..])
  }

  lemma {:induction false} JoinSpaced(parts: seq<string>)
    requires |parts| >= 1
    ensures Strings.Join(parts, ", ") == Strings.Join([parts[0]] + Spaced(parts[1..]), [','])
  {
    if |parts| >= 2 {
      var rest := parts[1..];
      JoinSpaced(rest);
      assert rest[0] == parts[1] && rest[1..] == parts[2..];
      var l := [parts[0]] + Spaced(rest);
      assert Spaced(rest) == [" " + parts[1]] + Spaced(parts[2..]);
      assert l[1..] == Spaced(rest);
      JoinLeadingSpace(parts[1], Spaced(parts[2..]));
      var x := Strings.Join(rest, ", ");
      assert Strings.Join(l, [',']) == parts[0] + [','] + (" " + x);
      assert Strings.Join(parts, ", ") == parts[0] + ", " + x;
      assert parts[0] + [','] + (" " + x) == parts[0] + ", " + x;
    }
  }

  /** A space in front of the first piece is a space in front of the join. */
  lemma JoinLeadingSpace(first: string, rest: seq<string>)
    ensures Strings.Join([" " + first] + rest, [',']) == " " + Strings.Join([first] + rest, [','])
  {
    if rest != [] {
      assert ([" " + first] + rest)[1..] == rest;
      assert ([first] + rest)[1..] == rest;
    }
  }

  /** Text that is its own trim is also the trim of itself with a space in
      front. */
  lemma TrimSpaced(p: string)
    requires Strings.Trim(p) == p
    ensures Strings.Trim(" " + p) == p
  {
    var s := " " + p;
    if p == [] {
      assert Strings.TrimEnd(s) == Strings.TrimEnd(s[..0]);
      assert s[..0] == [];
    } else {
      Strings.TrimmedEnds(p);
      assert s[|s| - 1] == p[|p| - 1];
      assert Strings.TrimEnd(s) == s;
      assert s[1..] == p;
      assert Strings.TrimStart(p) == p;
      assert Strings.TrimStart(s) == p;
    }
  }

  /** The pieces of the cell between its commas, as text. */
  function Pieces(synonyms: seq<string>): (r: seq<string>)
    requires |synonyms| >= 1
    ensures |r| == |synonyms| && r[0] == synonyms[0]
    ensures forall i :: 1 <= i < |r| ==> r[i] == " " + synonyms[i]
  {
    [synonyms[0]] + Spaced(synonyms[1..])
  }

  lemma PiecesClean(synonyms: seq<string>)
    requires |synonyms| >= 1
    requires forall i :: 0 <= i < |synonyms| ==> ',' !in synonyms[i] && Strings.Trim(synonyms[i]) == synonyms[i]
    ensures forall i :: 0 <= i < |synonyms| ==> ',' !in Pieces(synonyms)[i]
    ensures forall i :: 0 <= i < |synonyms| ==> Strings.Trim(Pieces(synonyms)[i]) == synonyms[i]
  {
    forall i | 0 <= i < |synonyms|
      ensures ',' !in Pieces(synonyms)[i] && Strings.Trim(Pieces(synonyms)[i]) == synonyms[i]
    {
      PieceClean(synonyms, i);
    }
  }

  /** The piece at `i` has no comma and trims to the `i`-th synonym. */
  lemma PieceClean(synonyms: seq<string>, i: nat)
    requires i < |synonyms|
    requires ',' !in synonyms[i] && Strings.Trim(synonyms[i]) == synonyms[i]
    ensures ',' !in Pieces(synonyms)[i] && Strings.Trim(Pieces(synonyms)[i]) == synonyms[i]
  {
    var p := Pieces(synonyms)[i];
    if i > 0 {
      assert p == " " + synonyms[i];
      TrimSpaced(synonyms[i]);
    }
  }

  /** Splitting the synonym cell at its commas and trimming each piece gives
      back the synonyms, provided none contains a comma or surrounding
      whitespace. */
  lemma SynonymsRoundTrip(synonyms: seq<string>)
    requires |synonyms| >= 1
    requires forall i :: 0 <= i < |synonyms| ==> ',' !in synonyms[i] && Strings.Trim(synonyms[i]) == synonyms[i]
    ensures var pieces := Strings.Split(SynonymsText(Some(synonyms)), ',');
            |pieces| == |synonyms| && forall i :: 0 <= i < |pieces| ==> Strings.Trim(pieces[i]) == synonyms[i]
  {
    JoinSpaced(synonyms);
    PiecesClean(synonyms);
    Strings.SplitJoin(Pieces(synonyms), ',');
  }

  /** Line 166: "vocabulary-", the lower-cased part of speech, "-", the
      export date with every '/' turned into '-', ".pdf". */
  function PdfFilename(pos: string, exportDate: string): (name: string)
    ensures Strings.StartsWith(name, "vocabulary-")
    ensures |name| == |"vocabulary-"| + |pos| + 1 + |exportDate| + |".pdf"|
    ensures name[|name| - 4..] == ".pdf"
    ensures name[11..11 + |pos|] == Strings.Lower(pos)
    ensures name[11 + |pos|] == '-'
    ensures forall i :: 0 <= i < |exportDate| ==>
              name[12 + |pos| + i] == (if exportDate[i] == '/' then '-' else exportDate[i])
    ensures forall i :: 12 + |pos| <= i < |name| - 4 ==> name[i] != '/'
  {
    var d := Strings.ReplaceChar(exportDate, '/', '-');
    var name := "vocabulary-" + Strings.Lower(pos) + "-" + d + ".pdf";
    assert name[12 + |pos|..|name| - 4] == d;
    name
  }

  /** The file name does not depend on the case of the part of speech. */
  lemma FilenameIgnoresCase(pos: string, exportDate: string)
    ensures PdfFilename(Strings.Lower(pos), exportDate) == PdfFilename(pos, exportDate)
  {
    Strings.LowerIdempotent(pos);
  }
}

=== FILE: resource_gallery.dfy ===
/** The list logic of the admin resource gallery
    (`src/admin/AdminResourceGallery.tsx`): the search and date filter, the
    newest/oldest sort, the responsive column count and the cutting of the
    result into grid rows. The calendar day of an instant is an oracle
    `dayOf`; a picked date is given by its day. */
module ResourceGallery {
  import opened Wrappers
  import Strings
  import Seqs
  import Sorting

  /** What the gallery reads of a grammar image. */
  datatype Image = Image(id: string, title: string, createdAt: int)

  datatype ViewMode = Grid | List
  datatype SortOrder = Newest | Oldest

  /** Lines 77 to 82: the column count for a window width. */
  function Columns(width: int): (c: nat)
    ensures 1 <= c <= 4
    ensures c == 4 <==> width >= 1280
    ensures c == 3 <==> 1024 <= width < 1280
    ensures c == 2 <==> 640 <= width < 1024
    ensures c == 1 <==> width < 640
  {
    if width >= 1280 then 4
    else if width >= 1024 then 3
    else if width >= 640 then 2
    else 1
  }

  /** A wider window never shows fewer columns. */
  lemma ColumnsMonotone(w1: int, w2: int)
    requires w1 <= w2
    ensures Columns(w1) <= Columns(w2)
  {
  }

  /** Lines 103 to 107: the title contains the query, both lower-cased, and
      a picked date, if any, is the image's creation day. */
  predicate Keep(img: Image, query: string, date: Option<int>, dayOf: int -> int) {
    && Strings.Contains(Strings.Lower(img.title), Strings.Lower(query))
    && (date.None? || dayOf(img.createdAt) == date.value)
  }

  function CreatedAt(img: Image): int { img.createdAt }

  /** Lines 101 to 118: the kept images, newest or oldest first. */
  function FilteredImages(images: seq<Image>, query: string, date: Option<int>, order: SortOrder,
                          dayOf: int -> int): (r: seq<Image>)
    ensures forall x :: x in r <==> x in images && Keep(x, query, date, dayOf)
    ensures multiset(r) == multiset(Seqs.Filter(images, img => Keep(img, query, date, dayOf)))
    ensures order == Newest ==> forall i, j :: 0 <= i < j < |r| ==> r[i].createdAt >= r[j].createdAt
    ensures order == Oldest ==> forall i, j :: 0 <= i < j < |r| ==> r[i].createdAt <= r[j].createdAt
  {
    var kept := Seqs.Filter(images, img => Keep(img, query, date, dayOf));
    var r := Sorting.SortBy(kept, CreatedAt, order == Newest);
    Seqs.FilterMembers(images, img => Keep(img, query, date, dayOf));
    Seqs.SameMembers(r, kept);
    r
  }

  /** With no query and no date every image is shown. */
  lemma EmptyQueryKeepsAll(images: seq<Image>, order: SortOrder, dayOf: int -> int)
    ensures multiset(FilteredImages(images, "", None, order, dayOf)) == multiset(images)
  {
    forall i | 0 <= i < |images| ensures Keep(images[i], "", None, dayOf) {
      Strings.ContainsEmpty(Strings.Lower(images[i].title));
    }
    Seqs.FilterAll(images, img => Keep(img, "", None, dayOf));
  }

  /** The search ignores ASCII case on both sides. */
  lemma SearchIgnoresCase(img: Image, query: string, date: Option<int>, dayOf: int -> int)
    ensures Keep(img, Strings.Lower(query), date, dayOf) <==> Keep(img, query, date, dayOf)
  {
    Strings.LowerIdempotent(query);
  }

  /** Lines 121 to 128: in grid view, slices of `columns` images; in list
      view, no rows. */
  method GridRows(images: seq<Image>, columns: nat, view: ViewMode) returns (rows: seq<seq<Image>>)
    requires columns >= 1
    ensures view == List ==> rows == []
    ensures view == Grid ==> rows == Seqs.Chunks(images, columns)
  {
    if view != Grid {
      return [];
    }
    rows := [];
    var i := 0;
    while i < |images|
      invariant 0 <= i <= |images|
      invariant Seqs.Chunks(images, columns) == rows + Seqs.Chunks(images[i..], columns)
      decreases |images| - i
    {
      var end := Seqs.Min(i + columns, |images|);
      var rows' := rows + [images[i..end]];
      Seqs.ChunksAdvance(images, columns, i, end, rows, rows');
      rows, i := rows', end;
    }
    assert images[i..] == [];
  }

  /** The grid rows put back together are the filtered images, in order:
      each row is full except possibly the last. */
  lemma GridRowsRoundTrip(images: seq<Image>, columns: nat)
    requires columns >= 1
    ensures Seqs.Flatten(Seqs.Chunks(images, columns)) == images
    ensures forall j :: 0 <= j < |Seqs.Chunks(images, columns)| ==> 0 < |Seqs.Chunks(images, columns)[j]| <= columns
    ensures forall j :: 0 <= j < |Seqs.Chunks(images, columns)| - 1 ==> |Seqs.Chunks(images, columns)[j]| == columns
  {
  }

  /** Line 130: the virtualiser draws one item per grid row in grid view
      and one per image in list view; either way there is something to draw
      exactly when some image passed the filter. */
  function Count(images: seq<Image>, columns: nat, view: ViewMode): (n: nat)
    requires columns >= 1
    ensures view == Grid ==> n == |Seqs.Chunks(images, columns)|
    ensures view == List ==> n == |images|
    ensures n == 0 <==> images == []
    ensures n <= |images|
  {
    Seqs.ChunksCount(images, columns);
    if view == Grid then |Seqs.Chunks(images, columns)| else |images|
  }
}

=== FILE: seqs.dfy ===
/** Sequence operations shared by several components: order-preserving
    filtering, fixed-size chunking and its inverse. */
module Seqs {

  /** Array.prototype.filter. */
  function Filter<T>(s: seq<T>, p: T -> bool): (r: seq<T>)
    ensures |r| <= |s|
    ensures forall i :: 0 <= i < |r| ==> p(r[i])
    ensures forall i :: 0 <= i < |r| ==> r[i] in s
    ensures forall i :: 0 <= i < |s| && p(s[i]) ==> s[i] in r
  {
    if s == [] then []
    else (if p(s[0]) then [s[0]] else []) + Filter(s[1..], p)
  }

  /** Filtering distributes over concatenation: it keeps the survivors in
      their original order. */
  lemma {:induction false} FilterConcat<T>(a: seq<T>, b: seq<T>, p: T -> bool)
    ensures Filter(a + b, p) == Filter(a, p) + Filter(b, p)
  {
    if a == [] {
      assert a + b == b;
    } else {
      var h := if p(a[0]) then [a[0]] else [];
      assert (a + b)[0] == a[0];
      assert (a + b)[1..] == a[1..] + b;
      FilterConcat(a[1..], b, p);
      assert Filter(a + b, p) == h + Filter(a[1..] + b, p);
    }
  }

  /** A filter that every element passes changes nothing; one that no
      element passes leaves nothing. */
  lemma {:induction false} FilterAll<T>(s: seq<T>, p: T -> bool)
    ensures (forall i :: 0 <= i < |s| ==> p(s[i])) ==> Filter(s, p) == s
    ensures (forall i :: 0 <= i < |s| ==> !p(s[i])) ==> Filter(s, p) == []
  {
    if s != [] {
      FilterAll(s[1..], p);
      assert [s[0]] + s[1..] == s;
    }
  }

  /** Two sequences the filter treats alike stay alike behind the same
      prefix. */
  lemma FilterSamePrefix<T>(pre: seq<T>, a: seq<T>, b: seq<T>, p: T -> bool)
    requires Filter(a, p) == Filter(b, p)
    ensures Filter(pre + a, p) == Filter(pre + b, p)
  {
    FilterConcat(pre, a, p);
    FilterConcat(pre, b, p);
  }

  /** Two sequences the filter treats alike stay alike behind prefixes
      that it drops entirely. */
  lemma FilterSkipped<T>(pa: seq<T>, a: seq<T>, pb: seq<T>, b: seq<T>, p: T -> bool)
    requires forall k :: 0 <= k < |pa| ==> !p(pa[k])
    requires forall k :: 0 <= k < |pb| ==> !p(pb[k])
    requires Filter(a, p) == Filter(b, p)
    ensures Filter(pa + a, p) == Filter(pb + b, p)
  {
    FilterConcat(pa, a, p);
    FilterConcat(pb, b, p);
    FilterAll(pa, p);
    FilterAll(pb, p);
  }

  /** Rewriting a sequence in place without touching any element that
      passes `p`, and without creating one, does not change what the filter
      keeps. */
  lemma {:induction false} FilterPointwise<T>(s: seq<T>, r: seq<T>, p: T -> bool)
    requires |r| == |s|
    requires forall k :: 0 <= k < |s| && (p(s[k]) || p(r[k])) ==> r[k] == s[k]
    ensures Filter(r, p) == Filter(s, p)
  {
    if s != [] {
      FilterPointwise(s[1..], r[1..], p);
    }
  }

  /** Filtering by a condition that implies an earlier filter's condition
      sees through the earlier filter. */
  lemma {:induction false} FilterFilter<T>(s: seq<T>, p: T -> bool, q: T -> bool)
    requires forall x :: q(x) ==> p(x)
    ensures Filter(Filter(s, p), q) == Filter(s, q)
  {
    if s != [] {
      FilterFilter(s[1..], p, q);
      if p(s[0]) {
        assert Filter(s, p) == [s[0]] + Filter(s[1..], p);
        FilterConcat([s[0]], Filter(s[1..], p), q);
        assert Filter([s[0]], q) == (if q(s[0]) then [s[0]] else []) + Filter([s[0]][1..], q);
      } else {
        assert Filter(s, p) == [] + Filter(s[1..], p);
        assert Filter(s, p) == Filter(s[1..], p);
      }
    }
  }

  /** An element is in the filtered sequence exactly when it is in the
      original and satisfies the predicate. */
  lemma FilterMembers<T>(s: seq<T>, p: T -> bool)
    ensures forall x :: x in Filter(s, p) <==> x in s && p(x)
  {
    var r := Filter(s, p);
    forall x | x in r ensures x in s && p(x) {
      var i :| 0 <= i < |r| && r[i] == x;
    }
    forall x | x in s && p(x) ensures x in r {
      var i :| 0 <= i < |s| && s[i] == x;
    }
  }

  /** Sequences with the same multiset have the same members. */
  lemma SameMembers<T>(a: seq<T>, b: seq<T>)
    requires multiset(a) == multiset(b)
    ensures forall x :: x in a <==> x in b
  {
    forall x ensures x in a <==> x in b {
      assert x in a <==> x in multiset(a);
      assert x in b <==> x in multiset(b);
    }
  }

  /** Number of elements satisfying `p`. */
  function Count<T>(s: seq<T>, p: T -> bool): nat {
    |Filter(s, p)|
  }

  lemma {:induction false} CountSplit<T>(s: seq<T>, p: T -> bool, q: T -> bool)
    requires forall i :: 0 <= i < |s| ==> (p(s[i]) <==> !q(s[i]))
    ensures Count(s, p) + Count(s, q) == |s|
  {
    if s != [] {
      CountSplit(s[1..], p, q);
    }
  }

  function Flatten<T>(rows: seq<seq<T>>): seq<T> {
    if rows == [] then [] else rows[0] + Flatten(rows[1..])
  }

  lemma {:induction false} FlattenAppend<T>(rows: seq<seq<T>>, row: seq<T>)
    ensures Flatten(rows + [row]) == Flatten(rows) + row
  {
    if rows != [] {
      assert (rows + [row])[1..] == rows[1..] + [row];
      FlattenAppend(rows[1..], row);
    }
  }

  /** Cuts `s` into consecutive slices of `n` elements; only the last slice
      may be shorter. Flattening the slices gives back `s`. */
  function Chunks<T>(s: seq<T>, n: nat): (rows: seq<seq<T>>)
    requires n > 0
    ensures Flatten(rows) == s
    ensures forall i :: 0 <= i < |rows| ==> 0 < |rows[i]| <= n
    ensures forall i :: 0 <= i < |rows| - 1 ==> |rows[i]| == n
    decreases |s|
  {
    if s == [] then []
    else if |s| <= n then [s]
    else
      var rest := Chunks(s[n..], n);
      var rows := [s[..n]] + rest;
      assert rows[1..] == rest;
      assert s == s[..n] + s[n..];
      rows
  }

  function Min(a: nat, b: nat): nat { if a <= b then a else b }

  /** Taking the chunk at `i` moves it from the chunks still to cut to the
      chunks already cut. */
  lemma ChunksAdvance<T>(s: seq<T>, n: nat, i: nat, end: nat, done: seq<seq<T>>, done': seq<seq<T>>)
    requires n > 0 && i < |s| && end == Min(i + n, |s|)
    requires Chunks(s, n) == done + Chunks(s[i..], n)
    requires done' == done + [s[i..end]]
    ensures Chunks(s, n) == done' + Chunks(s[end..], n)
  {
    ChunksStep(s, i, n);
    AppendAssoc(done, [s[i..end]], Chunks(s[end..], n));
  }

  lemma PrefixOfAppend<T>(a: seq<T>, b: seq<T>)
    ensures (a + b)[..|a|] == a
  {
  }

  lemma AppendAssoc<T>(a: seq<T>, b: seq<T>, c: seq<T>)
    ensures a + (b + c) == (a + b) + c
  {
  }

  /** Taking and dropping after a drop are slices of the original. */
  lemma DropThenCut<T>(s: seq<T>, a: nat, n: nat)
    requires a + n <= |s|
    ensures s[a..][..n] == s[a..a + n]
    ensures s[a..][n..] == s[a + n..]
  {
    forall k | 0 <= k < n ensures s[a..][..n][k] == s[a..a + n][k] {
      assert s[a..][k] == s[a + k];
    }
  }

  /** Cutting a sequence in two and gluing the halves back changes nothing. */
  lemma CutAndGlue<T>(s: seq<T>, k: nat)
    requires k <= |s|
    ensures s[..k] + s[k..] == s
  {
  }

  /** Cutting at offset `i` takes one chunk off the front of the rest. */
  lemma ChunksStep<T>(s: seq<T>, i: nat, n: nat)
    requires n > 0 && i < |s|
    ensures Chunks(s[i..], n) == [s[i..Min(i + n, |s|)]] + Chunks(s[Min(i + n, |s|)..], n)
  {
    var t := s[i..];
    if |t| <= n {
      assert Min(i + n, |s|) == |s|;
      assert s[|s|..] == [];
      assert s[i..|s|] == t;
    } else {
      assert t[..n] == s[i..i + n];
      assert t[n..] == s[i + n..];
    }
  }

  /** Every slice is non-empty, so there are no more slices than
      elements, and none at all only for the empty sequence. */
  lemma {:induction false} ChunksCount<T>(s: seq<T>, n: nat)
    requires n > 0
    ensures |Chunks(s, n)| <= |s|
    ensures |Chunks(s, n)| == 0 <==> s == []
    decreases |s|
  {
    if |s| > n {
      ChunksCount(s[n..], n);
    }
  }

  function Sum(s: seq<int>): int {
    if s == [] then 0 else s[0] + Sum(s[1..])
  }
}

=== FILE: share_context.dfy ===
/** The share-as-image flow of `ShareProvider`
    (`src/contexts/ShareContext.tsx`): the re-entrancy guard, the state the
    capture renders from, the file name of the image, the tracking events
    and the clean-up after every attempt. Rendering, capturing, the native
    share sheet and the download are an oracle reporting how the attempt
    went. */
module ShareContext {
  import opened Wrappers
  import Strings

  /** What the flow reads of a vocabulary entry. */
  datatype Item = Item(id: string, english: string, bangla: string)

  datatype ShareMethod = NativeShare | Download

  /** The tracking calls the flow makes. */
  datatype Tracked =
    | ModalOpen(id: string, english: string, bangla: string)
    | Completed(id: string, via: ShareMethod)
    | ShareError(id: string, message: string)

  /** The provider's state; `tracked` lists the tracking calls made, in
      order. */
  datatype Share = Share(sharingId: Option<string>, itemToShare: Option<Item>, tracked: seq<Tracked>)

  /** `if (sharingId)`: an empty id is falsy and does not block. */
  predicate Busy(s: Share) {
    s.sharingId.Some? && s.sharingId.value != []
  }

  /** Lines 32 to 43: the synchronous part of `shareAsImage`. While a share
      is in progress nothing happens; otherwise the item is put up for
      capture, and the opening of the share is tracked when tracking is
      available. */
  function Begin(s: Share, item: Item, tracking: bool): (r: Share)
    ensures Busy(s) ==> r == s
    ensures !Busy(s) ==> r.itemToShare == Some(item) && r.sharingId == Some(item.id)
    ensures !Busy(s) ==> r.tracked == s.tracked + (if tracking then [ModalOpen(item.id, item.english, item.bangla)] else [])
  {
    if Busy(s) then s
    else
      var t := if tracking then s.tracked + [ModalOpen(item.id, item.english, item.bangla)] else s.tracked;
      Share(Some(item.id), Some(item), t)
  }

  /** How the capture-and-share part went. `Failed` carries the message of
      the error thrown, or `None` when what was thrown is not an `Error`. */
  datatype Attempt = NoCaptureElement | Failed(message: Option<string>) | SharedNatively | Downloaded

  const NoElementMessage: string := "Capture element not found"

  /** Lines 93 to 101: the message recorded with a failure. */
  function ErrorMessage(a: Attempt): (m: string)
    requires a.NoCaptureElement? || a.Failed?
    ensures a.Failed? && a.message.Some? ==> m == a.message.value
    ensures a.NoCaptureElement? ==> m == NoElementMessage
    ensures a.Failed? && a.message.None? ==> m == "Unknown error"
  {
    if a.NoCaptureElement? then NoElementMessage
    else a.message.GetOr("Unknown error")
  }

  /** The tracking call an attempt ends with. */
  function Outcome(item: Item, a: Attempt): (t: Tracked)
    ensures a.SharedNatively? <==> t == Completed(item.id, NativeShare)
    ensures a.Downloaded? <==> t == Completed(item.id, Download)
    ensures a.NoCaptureElement? || a.Failed? <==> t.ShareError?
    ensures t.id == item.id
  {
    match a
    case SharedNatively => Completed(item.id, NativeShare)
    case Downloaded => Completed(item.id, Download)
    case _ => ShareError(item.id, ErrorMessage(a))
  }

  /** The guard is up from the start of a share until its clean-up, except
      for an item whose id is empty: that id is falsy, so the guard stays
      down and a second share is let through. */
  lemma BusyWhileSharing(s: Share, item: Item, a: Attempt, tracking: bool)
    requires !Busy(s)
    ensures Busy(Begin(s, item, tracking)) <==> item.id != []
    ensures !Busy(Finish(Begin(s, item, tracking), item, a, tracking))
  {
  }

  /** Lines 46 to 106: the timer part. Exactly one outcome is tracked when
      tracking is available, and the `finally` block clears both pieces of
      state whatever happened. */
  function Finish(s: Share, item: Item, a: Attempt, tracking: bool): (r: Share)
    ensures r.sharingId.None? && r.itemToShare.None?
    ensures tracking ==> r.tracked == s.tracked + [Outcome(item, a)]
    ensures !tracking ==> r.tracked == s.tracked
  {
    var t := if tracking then s.tracked + [Outcome(item, a)] else s.tracked;
    Share(None, None, t)
  }

  /** One whole attempt from an idle provider: the item is shown while it
      is captured, and afterwards the provider is idle again with two
      tracking calls, the opening and exactly one outcome. */
  lemma AttemptRoundTrip(s: Share, item: Item, a: Attempt)
    requires !Busy(s)
    ensures var during := Begin(s, item, true);
            var after := Finish(during, item, a, true);
            && during.itemToShare == Some(item)
            && after.sharingId.None? && after.itemToShare.None?
            && after.tracked == s.tracked + [ModalOpen(item.id, item.english, item.bangla), Outcome(item, a)]
            && !Busy(after)
  {
  }

  /** A second share while one is in progress changes nothing, so the item
      on screen is the first one. */
  lemma SecondShareIgnored(s: Share, first: Item, second: Item)
    requires !Busy(s) && first.id != []
    ensures Begin(Begin(s, first, true), second, true) == Begin(s, first, true)
  {
  }

  // ---------------------------------------------------------------------
  // File name.

  predicate NoSpace(s: string) {
    forall k :: 0 <= k < |s| ==> !Strings.IsJsWhitespace(s[k])
  }

  predicate AllSpace(s: string) {
    forall k :: 0 <= k < |s| ==> Strings.IsJsWhitespace(s[k])
  }

  /** Drops the whitespace at the front of `s`. */
  function DropSpace(s: string): (r: string)
    ensures |r| <= |s| && r == s[|s| - |r|..]
    ensures r != [] ==> !Strings.IsJsWhitespace(r[0])
  {
    if s != [] && Strings.IsJsWhitespace(s[0]) then DropSpace(s[1..]) else s
  }

  /** `replace(/\s+/g, '-')`: every run of whitespace becomes one '-'. */
  function DashRuns(s: string): (r: string)
    ensures NoSpace(r)
    ensures |r| <= |s|
    decreases |s|
  {
    if s == [] then []
    else if Strings.IsJsWhitespace(s[0]) then
      var rest := DashRuns(DropSpace(s[1..]));
      NoSpaceCons('-', rest);
      "-" + rest
    else
      var rest := DashRuns(s[1..]);
      NoSpaceCons(s[0], rest);
      [s[0]] + rest
  }

  /** A character that is not whitespace in front of text without
      whitespace. */
  lemma NoSpaceCons(c: char, rest: string)
    requires !Strings.IsJsWhitespace(c) && NoSpace(rest)
    ensures NoSpace([c] + rest)
  {
    forall k | 0 <= k < |[c] + rest| ensures !Strings.IsJsWhitespace(([c] + rest)[k]) {
      if k > 0 { assert ([c] + rest)[k] == rest[k - 1]; }
    }
  }

  /** A whitespace-free prefix is kept as it is. */
  lemma {:induction false} DashRunsKeepsWord(a: string, rest: string)
    requires NoSpace(a)
    ensures DashRuns(a + rest) == a + DashRuns(rest)
  {
    if a != [] {
      assert (a + rest)[0] == a[0];
      assert (a + rest)[1..] == a[1..] + rest;
      assert NoSpace(a[1..]) by {
        forall k | 0 <= k < |a[1..]| ensures !Strings.IsJsWhitespace(a[1..][k]) {
          assert a[1..][k] == a[k + 1];
        }
      }
      DashRunsKeepsWord(a[1..], rest);
      assert [a[0]] + (a[1..] + DashRuns(rest)) == a + DashRuns(rest);
    } else {
      assert a + rest == rest;
    }
  }

  /** Text without whitespace is left as it is. */
  lemma DashRunsNoSpace(s: string)
    requires NoSpace(s)
    ensures DashRuns(s) == s
  {
    DashRunsKeepsWord(s, []);
    assert s + [] == s;
  }

  /** Collapsing the runs twice is collapsing them once. */
  lemma DashRunsIdempotent(s: string)
    ensures DashRuns(DashRuns(s)) == DashRuns(s)
  {
    DashRunsNoSpace(DashRuns(s));
  }

  lemma {:induction false} DropSpaceRun(gap: string, b: string)
    requires AllSpace(gap)
    requires b == [] || !Strings.IsJsWhitespace(b[0])
    ensures DropSpace(gap + b) == b
  {
    if gap != [] {
      assert (gap + b)[1..] == gap[1..] + b;
      assert AllSpace(gap[1..]) by {
        forall k | 0 <= k < |gap[1..]| ensures Strings.IsJsWhitespace(gap[1..][k]) {
          assert gap[1..][k] == gap[k + 1];
        }
      }
      DropSpaceRun(gap[1..], b);
    } else {
      assert gap + b == b;
    }
  }

  /** A run of whitespace becomes a single dash. */
  lemma DashRunsGap(gap: string, b: string)
    requires gap != [] && AllSpace(gap)
    requires b == [] || !Strings.IsJsWhitespace(b[0])
    ensures DashRuns(gap + b) == "-" + DashRuns(b)
  {
    assert (gap + b)[0] == gap[0];
    assert (gap + b)[1..] == gap[1..] + b;
    assert AllSpace(gap[1..]) by {
      forall k | 0 <= k < |gap[1..]| ensures Strings.IsJsWhitespace(gap[1..][k]) {
        assert gap[1..][k] == gap[k + 1];
      }
    }
    DropSpaceRun(gap[1..], b);
  }

  /** Two words are joined by one dash, however much space separates
      them. */
  lemma DashRunsJoinsWords(a: string, gap: string, b: string)
    requires NoSpace(a)
    requires gap != [] && AllSpace(gap)
    requires b == [] || !Strings.IsJsWhitespace(b[0])
    ensures DashRuns(a + (gap + b)) == a + ("-" + DashRuns(b))
  {
    DashRunsKeepsWord(a, gap + b);
    DashRunsGap(gap, b);
  }

  /** Lines 64 and 80: the image's file name and download name. */
  function ImageFilename(english: string): (name: string)
    ensures |name| == 15 + |DashRuns(Strings.Lower(english))|
    ensures Strings.StartsWith(name, "vocabulary-")
    ensures name[|name| - 4..] == ".png"
    ensures name[11..|name| - 4] == DashRuns(Strings.Lower(english))
    ensures NoSpace(name)
  {
    var middle := DashRuns(Strings.Lower(english));
    var name := "vocabulary-" + middle + ".png";
    assert name[11..|name| - 4] == middle;
    assert NoSpace(name) by {
      forall k | 0 <= k < |name| ensures !Strings.IsJsWhitespace(name[k]) {
        if 11 <= k < |name| - 4 {
          assert name[k] == middle[k - 11];
        }
      }
    }
    name
  }
}

=== FILE: sorting.dfy ===
/** A stable sort by an integer key, the way `Array.prototype.sort` orders
    records under a comparator `(a, b) => key(b) - key(a)` (newest first)
    or `(a, b) => key(a) - key(b)` (oldest first). */
module Sorting {

  /** `x` may come before `y`: keys non-increasing when `desc`,
      non-decreasing otherwise. */
  predicate InOrder<T>(key: T -> int, desc: bool, x: T, y: T) {
    if desc then key(x) >= key(y) else key(x) <= key(y)
  }

  predicate Sorted<T>(s: seq<T>, key: T -> int, desc: bool) {
    forall i, j :: 0 <= i < j < |s| ==> InOrder(key, desc, s[i], s[j])
  }

  /** Puts `x` in front of the first element it may precede, so that it
      stays ahead of later elements with an equal key. */
  function Insert<T>(x: T, t: seq<T>, key: T -> int, desc: bool): (r: seq<T>)
    requires Sorted(t, key, desc)
    ensures Sorted(r, key, desc)
    ensures multiset(r) == multiset(t) + multiset{x}
    ensures |r| == |t| + 1
  {
    if t == [] || InOrder(key, desc, x, t[0]) then
      SortedCons(x, t, key, desc);
      [x] + t
    else
      var rest := Insert(x, t[1..], key, desc);
      HeadPrecedes(t[0], x, t[1..], rest, key, desc);
      SortedCons(t[0], rest, key, desc);
      assert t == [t[0]] + t[1..];
      assert multiset([t[0]] + rest) == multiset{t[0]} + multiset(rest);
      [t[0]] + rest
  }

  /** An element that may precede everything in a sorted sequence (or
      just its first element) may go in front of it. */
  lemma SortedCons<T>(h: T, t: seq<T>, key: T -> int, desc: bool)
    requires Sorted(t, key, desc)
    requires t == [] || InOrder(key, desc, h, t[0]) || forall k :: 0 <= k < |t| ==> InOrder(key, desc, h, t[k])
    ensures Sorted([h] + t, key, desc)
  {
    var r := [h] + t;
    forall i, j | 0 <= i < j < |r| ensures InOrder(key, desc, r[i], r[j]) {
      assert r[j] == t[j - 1];
      if i > 0 {
        assert r[i] == t[i - 1];
      } else if j > 1 {
        assert InOrder(key, desc, t[0], t[j - 1]);
      }
    }
  }

  /** An element that may precede `x` and everything in `t` may precede
      every element of a rearrangement of `t` and `x`. */
  lemma HeadPrecedes<T>(h: T, x: T, t: seq<T>, rest: seq<T>, key: T -> int, desc: bool)
    requires !InOrder(key, desc, x, h)
    requires forall k :: 0 <= k < |t| ==> InOrder(key, desc, h, t[k])
    requires multiset(rest) == multiset(t) + multiset{x}
    ensures forall k :: 0 <= k < |rest| ==> InOrder(key, desc, h, rest[k])
  {
    forall k | 0 <= k < |rest| ensures InOrder(key, desc, h, rest[k]) {
      assert rest[k] in multiset(rest);
      if rest[k] != x {
        assert rest[k] in multiset(t);
        var j :| 0 <= j < |t| && t[j] == rest[k];
      }
    }
  }

  /** Insertion sort of `s` by `key`. */
  function SortBy<T>(s: seq<T>, key: T -> int, desc: bool): (r: seq<T>)
    ensures Sorted(r, key, desc)
    ensures multiset(r) == multiset(s)
    ensures |r| == |s|
  {
    if s == [] then []
    else
      var r := Insert(s[0], SortBy(s[1..], key, desc), key, desc);
      assert s == [s[0]] + s[1..];
      r
  }

  /** In a sorted sequence, every element of a prefix may precede every
      element after it: the first `n` of a newest-first order are the
      newest `n`. */
  lemma PrefixDominates<T>(s: seq<T>, key: T -> int, desc: bool, n: nat)
    requires Sorted(s, key, desc)
    requires n <= |s|
    ensures forall i, j :: 0 <= i < n <= j < |s| ==> InOrder(key, desc, s[i], s[j])
  {
  }

  /** The first `n` of a sorted sequence: sorted, drawn from it, and
      preceding everything left out. */
  lemma TakeFirst<T>(s: seq<T>, key: T -> int, desc: bool, n: nat)
    requires Sorted(s, key, desc)
    requires n <= |s|
    ensures Sorted(s[..n], key, desc)
    ensures multiset(s[..n]) <= multiset(s)
    ensures forall x, y :: x in multiset(s) - multiset(s[..n]) && y in s[..n] ==> InOrder(key, desc, y, x)
  {
    assert s == s[..n] + s[n..];
    assert multiset(s) == multiset(s[..n]) + multiset(s[n..]);
    assert multiset(s) - multiset(s[..n]) == multiset(s[n..]);
    PrefixDominates(s, key, desc, n);
    forall x, y | x in multiset(s) - multiset(s[..n]) && y in s[..n] ensures InOrder(key, desc, y, x) {
      assert x in s[n..];
      var j :| 0 <= j < |s[n..]| && s[n..][j] == x;
      var i :| 0 <= i < n && s[..n][i] == y;
      assert s[n + j] == x && s[i] == y;
    }
  }
}

=== FILE: strings.dfy ===
/** The JavaScript string operations the application relies on, over
    `string` (a sequence of Unicode scalar values). */
module Strings {

  /** A LineTerminator code point of ECMA-262 section 12.3. */
  predicate IsLineTerminator(c: char) {
    var n := c as int;
    n == 0x0A || n == 0x0D || n == 0x2028 || n == 0x2029
  }

  /** A WhiteSpace (ECMA-262 section 12.2, with the Zs category of
      Unicode 15) or LineTerminator code point: exactly what
      `String.prototype.trim` strips and what the regular-expression class
      `\s` matches. */
  predicate IsJsWhitespace(c: char) {
    var n := c as int;
    || n == 0x09 || n == 0x0B || n == 0x0C || n == 0x20 || n == 0xA0 || n == 0xFEFF
    || n == 0x1680 || (0x2000 <= n <= 0x200A) || n == 0x202F || n == 0x205F || n == 0x3000
    || IsLineTerminator(c)
  }

  predicate IsAsciiDigit(c: char) { '0' <= c <= '9' }

  predicate IsAsciiLetter(c: char) { ('a' <= c <= 'z') || ('A' <= c <= 'Z') }

  /** `r` sits in `s` at offset `a`. */
  predicate IsSliceAt(r: string, s: string, a: int) {
    0 <= a && a + |r| <= |s| && r == s[a..a + |r|]
  }

  /** String.prototype.trimEnd. */
  function TrimEnd(s: string): (r: string)
    ensures |r| <= |s| && r == s[..|r|]
    ensures |r| > 0 ==> !IsJsWhitespace(r[|r| - 1])
    ensures forall k :: |r| <= k < |s| ==> IsJsWhitespace(s[k])
  {
    if |s| > 0 && IsJsWhitespace(s[|s| - 1]) then TrimEnd(s[..|s| - 1]) else s
  }

  /** String.prototype.trimStart. */
  function TrimStart(s: string): (r: string)
    ensures |r| <= |s| && r == s[|s| - |r|..]
    ensures |r| > 0 ==> !IsJsWhitespace(r[0])
    ensures forall k :: 0 <= k < |s| - |r| ==> IsJsWhitespace(s[k])
  {
    if |s| > 0 && IsJsWhitespace(s[0]) then TrimStart(s[1..]) else s
  }

  /** String.prototype.trim: drops the whitespace at both ends. */
  function Trim(s: string): (r: string)
    ensures |r| <= |s|
    ensures |r| > 0 ==> !IsJsWhitespace(r[0]) && !IsJsWhitespace(r[|r| - 1])
  {
    TrimStart(TrimEnd(s))
  }

  /** The trim is the slice of `s` at some offset `a`, and everything
      outside it is whitespace. */
  lemma TrimSlice(s: string) returns (a: nat)
    ensures IsSliceAt(Trim(s), s, a)
    ensures forall k :: 0 <= k < a ==> IsJsWhitespace(s[k])
    ensures forall k :: a + |Trim(s)| <= k < |s| ==> IsJsWhitespace(s[k])
  {
    var e := TrimEnd(s);
    var r := TrimStart(e);
    a := |e| - |r|;
    assert r == e[a..];
    assert e == s[..|e|];
    assert e[a..] == s[a..|e|];
    forall k | 0 <= k < a ensures IsJsWhitespace(s[k]) {
      assert s[k] == e[k];
    }
  }

  /** Text that neither starts nor ends with whitespace is its own trim. */
  lemma TrimUnchanged(s: string)
    requires |s| > 0 ==> !IsJsWhitespace(s[0]) && !IsJsWhitespace(s[|s| - 1])
    ensures Trim(s) == s
  {
    assert TrimEnd(s) == s;
    assert TrimStart(s) == s;
  }

  /** Text that is its own trim neither starts nor ends with whitespace. */
  lemma TrimmedEnds(s: string)
    requires Trim(s) == s
    ensures |s| > 0 ==> !IsJsWhitespace(s[0]) && !IsJsWhitespace(s[|s| - 1])
  {
  }

  /** A string made of whitespace only trims to the empty string, and
      conversely. */
  lemma TrimEmptyIff(s: string)
    ensures Trim(s) == [] <==> forall k :: 0 <= k < |s| ==> IsJsWhitespace(s[k])
  {
    var r := Trim(s);
    var a := TrimSlice(s);
    if r != [] {
      assert s[a] == r[0];
    }
  }

  /** String.prototype.split with a one-character separator. */
  function Split(s: string, sep: char): (parts: seq<string>)
    ensures |parts| >= 1
    ensures forall i :: 0 <= i < |parts| ==> sep !in parts[i]
  {
    if s == [] then [[]]
    else
      var rest := Split(s[1..], sep);
      if s[0] == sep then [[]] + rest
      else [[s[0]] + rest[0]] + rest[1..]
  }

  /** Array.prototype.join. */
  function Join(parts: seq<string>, sep: string): string {
    if |parts| == 0 then []
    else if |parts| == 1 then parts[0]
    else parts[0] + sep + Join(parts[1..], sep)
  }

  /** Joining the pieces of a split with the same separator gives back the
      original string. */
  lemma {:induction false} JoinSplit(s: string, sep: char)
    ensures Join(Split(s, sep), [sep]) == s
  {
    if s != [] {
      var rest := Split(s[1..], sep);
      JoinSplit(s[1..], sep);
      if |rest| >= 2 {
        assert Join(rest, [sep]) == rest[0] + [sep] + Join(rest[1..], [sep]);
      }
      if s[0] != sep {
        assert Split(s, sep) == [[s[0]] + rest[0]] + rest[1..];
        assert s == [s[0]] + s[1..];
      } else {
        assert Split(s, sep) == [[]] + rest;
        assert s == [sep] + s[1..];
      }
    }
  }

  lemma {:induction false} SplitNoSep(a: string, sep: char)
    requires sep !in a
    ensures Split(a, sep) == [a]
  {
    if a != [] {
      SplitNoSep(a[1..], sep);
      assert [a[0]] + a[1..] == a;
    }
  }

  lemma {:induction false} SplitPrefix(a: string, sep: char, b: string)
    requires sep !in a
    ensures Split(a + [sep] + b, sep) == [a] + Split(b, sep)
  {
    if a == [] {
      assert a + [sep] + b == [sep] + b;
      assert ([sep] + b)[1..] == b;
    } else {
      assert (a + [sep] + b)[1..] == a[1..] + [sep] + b;
      SplitPrefix(a[1..], sep, b);
      assert [a[0]] + a[1..] == a;
    }
  }

  /** Splitting a join of separator-free pieces gives back the pieces. */
  lemma {:induction false} SplitJoin(parts: seq<string>, sep: char)
    requires |parts| >= 1
    requires forall i :: 0 <= i < |parts| ==> sep !in parts[i]
    ensures Split(Join(parts, [sep]), sep) == parts
  {
    if |parts| == 1 {
      SplitNoSep(parts[0], sep);
    } else {
      SplitJoin(parts[1..], sep);
      SplitPrefix(parts[0], sep, Join(parts[1..], [sep]));
      assert [parts[0]] + parts[1..] == parts;
    }
  }

  /** Every character of `s` satisfies `p`. */
  predicate AllChars(s: string, p: char -> bool) {
    forall k :: 0 <= k < |s| ==> p(s[k])
  }

  /** Splitting keeps every character property of the input in each piece. */
  lemma {:induction false} SplitAllChars(s: string, sep: char, p: char -> bool)
    requires AllChars(s, p)
    ensures forall i :: 0 <= i < |Split(s, sep)| ==> AllChars(Split(s, sep)[i], p)
  {
    if s != [] {
      SplitAllChars(s[1..], sep, p);
      var rest := Split(s[1..], sep);
      if s[0] != sep {
        var first := [s[0]] + rest[0];
        assert AllChars(first, p) by {
          forall k | 0 <= k < |first| ensures p(first[k]) {
            if k > 0 { assert first[k] == rest[0][k - 1]; }
          }
        }
        assert Split(s, sep) == [first] + rest[1..];
      }
    }
  }

  /** A join of pieces and a separator that all satisfy `p` satisfies `p`. */
  lemma {:induction false} JoinAllChars(parts: seq<string>, sep: string, p: char -> bool)
    requires forall i :: 0 <= i < |parts| ==> AllChars(parts[i], p)
    requires AllChars(sep, p)
    ensures AllChars(Join(parts, sep), p)
  {
    if |parts| >= 2 {
      JoinAllChars(parts[1..], sep, p);
      var j := parts[0] + sep + Join(parts[1..], sep);
      forall k | 0 <= k < |j| ensures p(j[k]) {
        if k < |parts[0]| {
          assert j[k] == parts[0][k];
        } else if k < |parts[0]| + |sep| {
          assert j[k] == sep[k - |parts[0]|];
        } else {
          assert j[k] == Join(parts[1..], sep)[k - |parts[0]| - |sep|];
        }
      }
    }
  }

  predicate StartsWith(s: string, p: string) {
    |p| <= |s| && s[..|p|] == p
  }

  /** String.prototype.includes. */
  predicate Contains(s: string, p: string)
    decreases |s|
  {
    StartsWith(s, p) || (|s| > 0 && Contains(s[1..], p))
  }

  /** `p` occurs in `s` at offset `i`. */
  predicate OccursAt(s: string, p: string, i: int) {
    0 <= i <= |s| - |p| && s[i..i + |p|] == p
  }

  /** `Contains` holds exactly when the pattern occurs at some offset. */
  lemma {:induction false} ContainsIff(s: string, p: string)
    ensures Contains(s, p) <==> exists i :: OccursAt(s, p, i)
  {
    if |s| > 0 {
      ContainsIff(s[1..], p);
      if StartsWith(s, p) {
        assert OccursAt(s, p, 0);
      }
      if Contains(s[1..], p) {
        var i :| OccursAt(s[1..], p, i);
        assert OccursAt(s, p, i + 1);
      }
      if exists i :: OccursAt(s, p, i) {
        var i :| OccursAt(s, p, i);
        if i > 0 {
          assert OccursAt(s[1..], p, i - 1);
        } else {
          assert s[..|p|] == s[0..|p|];
        }
      }
    } else {
      if Contains(s, p) {
        assert OccursAt(s, p, 0);
      }
      if exists i :: OccursAt(s, p, i) {
        var i :| OccursAt(s, p, i);
        assert p == [];
        assert StartsWith(s, p);
      }
    }
  }

  /** The empty string is contained in every string. */
  lemma ContainsEmpty(s: string)
    ensures Contains(s, [])
  {
    assert StartsWith(s, []);
  }

  /** ASCII case mapping; the Unicode case tables of `toLowerCase` and
      `toUpperCase` are not part of this model. */
  function LowerChar(c: char): char {
    if 'A' <= c <= 'Z' then (c as int + 32) as char else c
  }

  function UpperChar(c: char): char {
    if 'a' <= c <= 'z' then (c as int - 32) as char else c
  }

  function Lower(s: string): (r: string)
    ensures |r| == |s|
    ensures forall i :: 0 <= i < |s| ==> r[i] == LowerChar(s[i])
  {
    seq(|s|, i requires 0 <= i < |s| => LowerChar(s[i]))
  }

  /** Lower-casing is idempotent. */
  lemma LowerIdempotent(s: string)
    ensures Lower(Lower(s)) == Lower(s)
  {
  }

  /** String.prototype.replace with a global one-character pattern. */
  function ReplaceChar(s: string, from: char, to: char): (r: string)
    ensures |r| == |s|
    ensures forall i :: 0 <= i < |s| ==> r[i] == (if s[i] == from then to else s[i])
  {
    seq(|s|, i requires 0 <= i < |s| => if s[i] == from then to else s[i])
  }

  /** JavaScript's `.length`: code points above U+FFFF take two UTF-16
      code units. */
  function Utf16Length(s: string): (n: nat)
    ensures |s| <= n <= 2 * |s|
  {
    if s == [] then 0
    else (if s[0] as int > 0xFFFF then 2 else 1) + Utf16Length(s[1..])
  }
}

=== FILE: sync_service.dfy ===
/** The incremental pull sync of `src/services/syncService.ts`: one call of
    `syncVocabularies` is a pure step from a coordinator state and the
    cycle's environment (connectivity, clock, remote documents, and which
    awaited calls throw) to the next state, the boolean it resolves to, and
    the remote queries it issued. The start/stop manager keeps only the
    timer and listener handles. */
module SyncService {
  import opened Wrappers
  import Strings
  import Seqs
  import Sorting

  type Id = string

  /** A vocabulary document. `updatedAt` is its update time in epoch
      milliseconds; `data` stands for every other field. */
  datatype Record = Record(id: Id, updatedAt: int, data: string)

  function UpdatedAt(r: Record): int { r.updatedAt }

  /** A thrown Firestore or Dexie error: its `code` and optional `message`. */
  datatype Error = Error(code: string, message: Option<string>)

  /** The condition that sends a failed cycle to the fallback query. */
  predicate IsIndexError(e: Error) {
    e.code == "failed-precondition"
    || (e.message.Some? && Strings.Contains(e.message.value, "index"))
  }

  /** The two query shapes the cycle issues against the `vocabularies`
      collection, both ordered by `updatedAt` descending. */
  datatype Query =
    | UpdatedAfter(cursor: int)   // where("updatedAt", ">", cursor), no limit
    | Newest(limit: nat)          // limit(n)

  const InitialLimit: nat := 500
  const FallbackLimit: nat := 50

  predicate IsAfter(c: int, x: Record) { x.updatedAt > c }

  /** A stored cursor is used only when it is truthy: a timestamp of 0 is
      falsy in JavaScript, like a missing one. */
  predicate Truthy(cursor: Option<int>) {
    cursor.Some? && cursor.value != 0
  }

  /** The query issued from the stored cursor: incremental past it, or the
      bounded initial load when there is none or it is 0. */
  function Plan(cursor: Option<int>): (q: Query)
    ensures Truthy(cursor) <==> q.UpdatedAfter?
    ensures Truthy(cursor) ==> q.cursor == cursor.value
    ensures !Truthy(cursor) ==> q == Newest(InitialLimit)
  {
    match cursor
    case Some(c) => if c == 0 then Newest(InitialLimit) else UpdatedAfter(c)
    case None => Newest(InitialLimit)
  }

  /** A stored cursor of 0 plans the same bounded initial load as no
      cursor at all. */
  lemma ZeroCursorLoadsNewest()
    ensures Plan(Some(0)) == Plan(None) == Newest(InitialLimit)
  {
  }

  /** `getDocs` of an incremental query: exactly the documents updated
      after the cursor, newest first, with no limit. Ties keep the order of
      `remote`. */
  function RunAfter(remote: seq<Record>, c: int): (r: seq<Record>)
    ensures Sorting.Sorted(r, UpdatedAt, true)
    ensures multiset(r) == multiset(Seqs.Filter(remote, x => IsAfter(c, x)))
    ensures forall x :: x in r <==> x in remote && x.updatedAt > c
  {
    var kept := Seqs.Filter(remote, x => IsAfter(c, x));
    var r := Sorting.SortBy(kept, UpdatedAt, true);
    assert forall x :: x in r <==> x in multiset(kept);
    r
  }

  /** `getDocs` of a bounded query: the newest `n` documents, newest
      first; nothing left out is newer than anything returned. */
  function RunNewest(remote: seq<Record>, n: nat): (r: seq<Record>)
    ensures Sorting.Sorted(r, UpdatedAt, true)
    ensures |r| == if |remote| < n then |remote| else n
    ensures multiset(r) <= multiset(remote)
    ensures forall x, y :: x in multiset(remote) - multiset(r) && y in r ==> x.updatedAt <= y.updatedAt
  {
    var sorted := Sorting.SortBy(remote, UpdatedAt, true);
    var k := if |sorted| < n then |sorted| else n;
    var r := sorted[..k];
    Sorting.TakeFirst(sorted, UpdatedAt, true, k);
    assert forall x, y :: x in multiset(remote) - multiset(r) && y in r ==> x.updatedAt <= y.updatedAt by {
      forall x, y | x in multiset(remote) - multiset(r) && y in r ensures x.updatedAt <= y.updatedAt {
        assert Sorting.InOrder(UpdatedAt, true, y, x);
      }
    }
    r
  }

  /** What `getDocs` returns for either query shape. */
  function Run(remote: seq<Record>, q: Query): (r: seq<Record>)
    ensures forall x :: x in r ==> x in remote
    ensures Sorting.Sorted(r, UpdatedAt, true)
    ensures q.UpdatedAfter? ==> forall x :: x in r <==> x in remote && x.updatedAt > q.cursor
    ensures q.Newest? ==> |r| == (if |remote| < q.limit then |remote| else q.limit)
    ensures q.Newest? ==>
              forall x, y :: x in multiset(remote) - multiset(r) && y in r ==> x.updatedAt <= y.updatedAt
  {
    match q
    case UpdatedAfter(c) => RunAfter(remote, c)
    case Newest(n) =>
      var r := RunNewest(remote, n);
      assert forall x :: x in r ==> x in multiset(remote);
      r
  }

  /** The last record with id `id` in `items`, if any. */
  function LastById(items: seq<Record>, id: Id): (r: Option<Record>)
    ensures r.None? <==> forall i :: 0 <= i < |items| ==> items[i].id != id
    ensures r.Some? ==>
              exists i :: 0 <= i < |items| && items[i] == r.value && items[i].id == id
                          && forall j :: i < j < |items| ==> items[j].id != id
  {
    if items == [] then None
    else if items[|items| - 1].id == id then Some(items[|items| - 1])
    else
      var init := items[..|items| - 1];
      var r := LastById(init, id);
      LastOfInit(items, init, id, r);
      r
  }

  /** What is last for `id` in all but the final record is last in all of
      them when the final record has another id. */
  lemma LastOfInit(items: seq<Record>, init: seq<Record>, id: Id, r: Option<Record>)
    requires items != [] && init == items[..|items| - 1] && items[|items| - 1].id != id
    requires r.None? <==> forall i :: 0 <= i < |init| ==> init[i].id != id
    requires r.Some? ==>
               exists i :: 0 <= i < |init| && init[i] == r.value && init[i].id == id
                           && forall j :: i < j < |init| ==> init[j].id != id
    ensures r.None? <==> forall i :: 0 <= i < |items| ==> items[i].id != id
    ensures r.Some? ==>
              exists i :: 0 <= i < |items| && items[i] == r.value && items[i].id == id
                          && forall j :: i < j < |items| ==> items[j].id != id
  {
    assert forall i :: 0 <= i < |init| ==> init[i] == items[i];
    if r.Some? {
      var i :| 0 <= i < |init| && init[i] == r.value && init[i].id == id
               && forall j :: i < j < |init| ==> init[j].id != id;
      assert items[i] == r.value && items[i].id == id;
      assert forall j :: i < j < |items| ==> items[j].id != id;
    }
  }

  function Lookup(m: map<Id, Record>, id: Id): Option<Record> {
    if id in m then Some(m[id]) else None
  }

  /** Dexie `bulkPut`: writes `items` in order, overwriting by id. Each id
      ends up holding its last copy in `items`; ids not written keep their
      cached record. */
  function Upsert(cache: map<Id, Record>, items: seq<Record>): (r: map<Id, Record>)
    ensures forall id :: Lookup(r, id) ==
              (if LastById(items, id).Some? then LastById(items, id) else Lookup(cache, id))
    ensures forall id :: id in r ==> r[id].id == id || (id in cache && r[id] == cache[id])
  {
    if items == [] then cache
    else
      var last := items[|items| - 1];
      Upsert(cache, items[..|items| - 1])[last.id := last]
  }

  /** The coordinator: the in-flight flag, the stored cursor (the
      `vocabularies` sync metadata) and the local cache. */
  datatype Coordinator = Coordinator(isSyncing: bool, cursor: Option<int>, cache: map<Id, Record>)

  /** Which awaited call of a cycle throws, and with what. */
  datatype Faults = Faults(
    readMeta: Option<Error>,       // dexieService.getSyncMetadata
    query: Option<Error>,          // getDocs of the planned query
    writeCache: Option<Error>,     // dexieService.addVocabularies (main path)
    writeMeta: Option<Error>,      // dexieService.updateSyncMetadata
    fallbackQuery: Option<Error>,  // getDocs of the fallback query
    fallbackWrite: Option<Error>)  // dexieService.addVocabularies (fallback)

  const NoFaults := Faults(None, None, None, None, None, None)

  /** One cycle's environment: `navigator.onLine`, the clock read by the
      metadata write, the remote collection, and the failures. */
  datatype Env = Env(online: bool, now: int, remote: seq<Record>, faults: Faults)

  /** A cycle's result: the next state, the resolved boolean, and the
      queries sent to the remote store in order. */
  datatype Outcome = Outcome(state: Coordinator, ok: bool, queries: seq<Query>)

  /** The `catch` block: only an index error earns one bounded fallback
      query, whose results are merged without advancing the cursor. */
  function Recover(s: Coordinator, e: Error, env: Env, sent: seq<Query>): (o: Outcome)
    ensures o.state.isSyncing == s.isSyncing && o.state.cursor == s.cursor
    ensures !IsIndexError(e) ==> o == Outcome(s, false, sent)
    ensures IsIndexError(e) ==> o.queries == sent + [Newest(FallbackLimit)]
    ensures o.ok <==> IsIndexError(e) && env.faults.fallbackQuery.None?
                      && Run(env.remote, Newest(FallbackLimit)) != []
                      && env.faults.fallbackWrite.None?
    ensures o.ok ==> o.state.cache == Upsert(s.cache, Run(env.remote, Newest(FallbackLimit)))
    ensures !o.ok ==> o.state == s
  {
    if !IsIndexError(e) then Outcome(s, false, sent)
    else
      var sent' := sent + [Newest(FallbackLimit)];
      if env.faults.fallbackQuery.Some? then Outcome(s, false, sent')
      else
        var items := Run(env.remote, Newest(FallbackLimit));
        if items == [] then Outcome(s, false, sent')
        else if env.faults.fallbackWrite.Some? then Outcome(s, false, sent')
        else Outcome(s.(cache := Upsert(s.cache, items)), true, sent')
  }

  /** The `try` block, run with the in-flight flag set. */
  function Attempt(s: Coordinator, env: Env): (o: Outcome)
    requires s.isSyncing
    ensures o.state.isSyncing
    ensures o.state.cursor == s.cursor || (o.ok && o.state.cursor == Some(env.now))
    ensures |o.queries| <= 2
    ensures |o.queries| == 2 ==> o.queries[1] == Newest(FallbackLimit)
    ensures env.faults.readMeta.None? ==> |o.queries| >= 1 && o.queries[0] == Plan(s.cursor)
  {
    if env.faults.readMeta.Some? then Recover(s, env.faults.readMeta.value, env, [])
    else
      var q := Plan(s.cursor);
      if env.faults.query.Some? then Recover(s, env.faults.query.value, env, [q])
      else Store(s, env, q, Run(env.remote, q))
  }

  /** What follows a successful query `q` that returned `items`: an empty
      answer only advances the cursor; otherwise the items are cached and
      then the cursor advanced. */
  function Store(s: Coordinator, env: Env, q: Query, items: seq<Record>): (o: Outcome)
    requires s.isSyncing
    ensures o.state.isSyncing
    ensures o.state.cursor == s.cursor || (o.ok && o.state.cursor == Some(env.now))
    ensures 1 <= |o.queries| <= 2 && o.queries[0] == q
    ensures |o.queries| == 2 ==> o.queries[1] == Newest(FallbackLimit)
  {
    if items == [] then
      if env.faults.writeMeta.Some? then Recover(s, env.faults.writeMeta.value, env, [q])
      else Outcome(s.(cursor := Some(env.now)), true, [q])
    else if env.faults.writeCache.Some? then Recover(s, env.faults.writeCache.value, env, [q])
    else
      var written := s.(cache := Upsert(s.cache, items));
      if env.faults.writeMeta.Some? then Recover(written, env.faults.writeMeta.value, env, [q])
      else Outcome(written.(cursor := Some(env.now)), true, [q])
  }

  /** `syncVocabularies`: the guard, the attempt, and the `finally` that
      clears the in-flight flag. */
  function SyncVocabularies(s: Coordinator, env: Env): (o: Outcome)
    ensures !env.online || s.isSyncing ==> o == Outcome(s, false, [])
    ensures o.state.isSyncing == s.isSyncing
    ensures o.state.cursor == s.cursor || (o.ok && o.state.cursor == Some(env.now))
    ensures |o.queries| <= 2
    ensures |o.queries| == 2 ==> o.queries[1] == Newest(FallbackLimit)
  {
    if !env.online || s.isSyncing then Outcome(s, false, [])
    else
      var o := Attempt(s.(isSyncing := true), env);
      o.(state := o.state.(isSyncing := false))
  }

  /** A call made while another cycle is suspended at one of its awaits
      (where the flag is set) is dropped without touching anything. */
  lemma ReentrantCallDropped(s: Coordinator, env: Env, env': Env)
    requires !s.isSyncing && env.online
    ensures var mid := s.(isSyncing := true);
            Attempt(mid, env).state.isSyncing
            && SyncVocabularies(mid, env') == Outcome(mid, false, [])
  {
  }

  /** The first query is the one planned from the stored cursor. */
  lemma FirstQueryFollowsCursor(s: Coordinator, env: Env)
    requires env.online && !s.isSyncing && env.faults.readMeta.None?
    ensures var o := SyncVocabularies(s, env);
            |o.queries| >= 1 && o.queries[0] == Plan(s.cursor)
  {
  }

  /** An empty fetch advances the cursor to now and leaves the cache alone. */
  lemma EmptyFetchAdvancesCursor(s: Coordinator, env: Env)
    requires env.online && !s.isSyncing
    requires env.faults.readMeta.None? && env.faults.query.None? && env.faults.writeMeta.None?
    requires Run(env.remote, Plan(s.cursor)) == []
    ensures SyncVocabularies(s, env) == Outcome(s.(cursor := Some(env.now)), true, [Plan(s.cursor)])
  {
  }

  /** A non-empty fetch is upserted, then the cursor advances to now. */
  lemma FetchUpsertsThenAdvances(s: Coordinator, env: Env)
    requires env.online && !s.isSyncing && env.faults == NoFaults
    requires Run(env.remote, Plan(s.cursor)) != []
    ensures var items := Run(env.remote, Plan(s.cursor));
            SyncVocabularies(s, env)
              == Outcome(Coordinator(false, Some(env.now), Upsert(s.cache, items)), true, [Plan(s.cursor)])
  {
  }

  /** A failed query with an index error issues exactly one fallback query
      for the newest 50; the cursor stays where it was, and the cycle
      succeeds only if the fallback returned something and it was written. */
  lemma IndexFailureFallsBack(s: Coordinator, env: Env)
    requires env.online && !s.isSyncing && env.faults.readMeta.None?
    requires env.faults.query.Some? && IsIndexError(env.faults.query.value)
    ensures var o := SyncVocabularies(s, env);
            var items := Run(env.remote, Newest(FallbackLimit));
            && o.queries == [Plan(s.cursor), Newest(FallbackLimit)]
            && o.state.cursor == s.cursor
            && (o.ok <==> env.faults.fallbackQuery.None? && items != [] && env.faults.fallbackWrite.None?)
            && (o.ok ==> o.state.cache == Upsert(s.cache, items))
            && (!o.ok ==> o.state == s)
  {
  }

  /** Any other query failure returns false with no fallback and changes
      nothing. */
  lemma OtherFailureChangesNothing(s: Coordinator, env: Env)
    requires env.online && !s.isSyncing && env.faults.readMeta.None?
    requires env.faults.query.Some? && !IsIndexError(env.faults.query.value)
    ensures SyncVocabularies(s, env) == Outcome(s, false, [Plan(s.cursor)])
  {
  }

  /** A failing metadata write after a successful cache write lands in the
      same `catch`: the fetched records stay cached, the cursor does not
      move, and an index-like message still triggers the fallback. */
  lemma MetadataWriteFailureKeepsCacheWrite(s: Coordinator, env: Env)
    requires env.online && !s.isSyncing
    requires env.faults.readMeta.None? && env.faults.query.None? && env.faults.writeCache.None?
    requires env.faults.writeMeta.Some?
    requires Run(env.remote, Plan(s.cursor)) != []
    ensures var o := SyncVocabularies(s, env);
            var items := Run(env.remote, Plan(s.cursor));
            && o.state.cursor == s.cursor
            && (!IsIndexError(env.faults.writeMeta.value) ==>
                  !o.ok && o.state.cache == Upsert(s.cache, items))
            && (IsIndexError(env.faults.writeMeta.value) ==> |o.queries| == 2)
  {
  }

  /** Document ids are unique within the collection. */
  predicate UniqueIds(remote: seq<Record>) {
    forall i, j :: 0 <= i < j < |remote| ==> remote[i].id != remote[j].id
  }

  /** When `x` is the only record in `items` carrying its id, the upsert
      leaves exactly `x` under that id. */
  lemma {:induction false} LastByIdSole(items: seq<Record>, x: Record)
    requires x in items
    requires forall y :: y in items && y.id == x.id ==> y == x
    ensures LastById(items, x.id) == Some(x)
  {
    var n := |items|;
    if items[n - 1].id != x.id {
      assert items[n - 1] != x;
      assert x in items[..n - 1] by {
        var i :| 0 <= i < n && items[i] == x;
        assert i < n - 1;
        assert items[..n - 1][i] == x;
      }
      LastByIdSole(items[..n - 1], x);
    }
  }

  /** After a fault-free incremental cycle from a non-zero cursor `c`,
      every remote document updated after `c` is in the cache, exactly as the remote
      store holds it. */
  lemma IncrementalPullComplete(s: Coordinator, env: Env, x: Record)
    requires env.online && !s.isSyncing && env.faults == NoFaults
    requires Truthy(s.cursor) && UniqueIds(env.remote)
    requires x in env.remote && x.updatedAt > s.cursor.value
    ensures var o := SyncVocabularies(s, env);
            o.ok && x.id in o.state.cache && o.state.cache[x.id] == x
  {
    var items := Run(env.remote, Plan(s.cursor));
    assert x in items;
    forall y | y in items && y.id == x.id
      ensures y == x
    {
      var a :| 0 <= a < |env.remote| && env.remote[a] == y;
      var b :| 0 <= b < |env.remote| && env.remote[b] == x;
      assert a == b;
    }
    LastByIdSole(items, x);
    FetchUpsertsThenAdvances(s, env);
    assert Lookup(Upsert(s.cache, items), x.id) == Some(x);
  }

  // ---------------------------------------------------------------------
  // startSyncManager / stopSyncManager

  const DefaultIntervalMinutes: int := 10

  /** The background manager: the coordinator plus the `setInterval`
      handle (with its period in milliseconds) and the `online` listener. */
  datatype Manager = Manager(coordinator: Coordinator, interval: Option<int>, onlineListener: bool)

  /** `startSyncManager`: a no-op while a timer handle exists; otherwise
      installs the timer and the listener and runs one cycle at once. */
  function StartSyncManager(m: Manager, intervalMinutes: int, env: Env): (r: (Manager, Option<Outcome>))
    ensures m.interval.Some? ==> r == (m, None)
    ensures m.interval.None? ==>
              && r.0.interval == Some(intervalMinutes * 60 * 1000)
              && r.0.onlineListener
              && r.1 == Some(SyncVocabularies(m.coordinator, env))
              && r.0.coordinator == r.1.value.state
  {
    if m.interval.Some? then (m, None)
    else
      var o := SyncVocabularies(m.coordinator, env);
      (Manager(o.state, Some(intervalMinutes * 60 * 1000), true), Some(o))
  }

  /** `stopSyncManager`: clears both handles; the coordinator is untouched. */
  function StopSyncManager(m: Manager): (r: Manager)
    ensures r.interval.None? && !r.onlineListener
    ensures r.coordinator == m.coordinator
  {
    Manager(m.coordinator, None, false)
  }

  /** Starting twice installs one timer and runs one immediate cycle. */
  lemma StartIsIdempotent(m: Manager, minutes: int, minutes': int, env: Env, env': Env)
    ensures var first := StartSyncManager(m, minutes, env).0;
            StartSyncManager(first, minutes', env') == (first, None)
  {
  }

  /** Stopping twice is the same as stopping once, and after a stop the
      manager can be started again. */
  lemma StopIsIdempotent(m: Manager, minutes: int, env: Env)
    ensures StopSyncManager(StopSyncManager(m)) == StopSyncManager(m)
    ensures StartSyncManager(StopSyncManager(m), minutes, env).1.Some?
  {
  }

  /** The default period is ten minutes. */
  lemma DefaultPeriod(m: Manager, env: Env)
    requires m.interval.None?
    ensures StartSyncManager(m, DefaultIntervalMinutes, env).0.interval == Some(600000)
  {
  }

  /** A timer tick or an `online` event runs the same guarded cycle when the
      matching handle is installed, and nothing otherwise. */
  function OnTimerTick(m: Manager, env: Env): (r: (Manager, Option<Outcome>))
    ensures m.interval.None? ==> r == (m, None)
    ensures m.interval.Some? ==> r.1 == Some(SyncVocabularies(m.coordinator, env))
    ensures m.interval.Some? ==> r.0.coordinator == r.1.value.state
    ensures r.0.interval == m.interval && r.0.onlineListener == m.onlineListener
  {
    if m.interval.None? then (m, None)
    else
      var o := SyncVocabularies(m.coordinator, env);
      (m.(coordinator := o.state), Some(o))
  }

  function OnOnline(m: Manager, env: Env): (r: (Manager, Option<Outcome>))
    ensures !m.onlineListener ==> r == (m, None)
    ensures m.onlineListener ==> r.1 == Some(SyncVocabularies(m.coordinator, env))
    ensures m.onlineListener ==> r.0.coordinator == r.1.value.state
    ensures r.0.interval == m.interval && r.0.onlineListener == m.onlineListener
  {
    if !m.onlineListener then (m, None)
    else
      var o := SyncVocabularies(m.coordinator, env);
      (m.(coordinator := o.state), Some(o))
  }
}

=== FILE: text_cleaner.dfy ===
/** Cleaning of text pasted into the vocabulary editor
    (`src/utils/textCleaner.ts`): HTML is only trimmed; plain text and
    markdown lose invisible and control characters, get uniform spaces and
    line breaks, lose runs of three or more line breaks and trailing
    whitespace on every line, and are trimmed. */
module TextCleaner {
  import Strings
  import Seqs

  // ---------------------------------------------------------------------
  // Character classes of the regular expressions.

  /** `[​-‍﻿]`. */
  predicate IsZeroWidth(c: char) {
    (0x200B <= c as int <= 0x200D) || c as int == 0xFEFF
  }

  /** `[\x00-\x08\x0B\x0C\x0E-\x1F\x7F]`: the C0 controls except tab,
      line feed and carriage return, and DEL. */
  predicate IsStrippedControl(c: char) {
    var n := c as int;
    n <= 0x08 || n == 0x0B || n == 0x0C || (0x0E <= n <= 0x1F) || n == 0x7F
  }

  /** `[   -   　]`. */
  predicate IsSpecialSpace(c: char) {
    var n := c as int;
    n == 0xA0 || n == 0x1680 || (0x2000 <= n <= 0x200A) || n == 0x202F || n == 0x205F || n == 0x3000
  }

  /** A character that never survives the plain-text pipeline. */
  predicate IsStripped(c: char) {
    IsZeroWidth(c) || IsStrippedControl(c) || IsSpecialSpace(c) || c == '\r'
  }

  predicate IsKept(c: char) { !IsStripped(c) }

  lemma NewlineIsKept()
    ensures IsKept('\n')
  {
    assert '\n' as int == 10;
  }

  /** `/<[a-z][\s\S]*>/i`: a `<` directly followed by an ASCII letter,
      with a `>` somewhere after that letter. */
  predicate IsHtml(s: string) {
    exists i, j :: 0 <= i < j < |s| && HtmlAt(s, i, j)
  }

  /** The match of the HTML test that opens at `i` and closes at `j`. */
  predicate HtmlAt(s: string, i: int, j: int) {
    0 <= i && i + 1 < j < |s| && s[i] == '<' && Strings.IsAsciiLetter(s[i + 1]) && s[j] == '>'
  }

  // ---------------------------------------------------------------------
  // The steps of the plain-text branch.

  predicate NotZeroWidth(c: char) { !IsZeroWidth(c) }
  predicate NotStrippedControl(c: char) { !IsStrippedControl(c) }

  /** `replace(/[​-‍﻿]/g, '')`: the other characters survive, in
      order. */
  function RemoveZeroWidth(s: string): (r: string)
    ensures r == Seqs.Filter(s, NotZeroWidth)
    ensures forall k :: 0 <= k < |r| ==> !IsZeroWidth(r[k]) && r[k] in s
    ensures (forall k :: 0 <= k < |s| ==> !IsZeroWidth(s[k])) ==> r == s
  {
    Seqs.FilterAll(s, NotZeroWidth);
    Seqs.Filter(s, NotZeroWidth)
  }

  /** `replace(/^﻿/, '')`: drops one leading byte order mark. */
  function StripLeadingBom(s: string): (r: string)
    ensures |s| > 0 && s[0] as int == 0xFEFF ==> r == s[1..]
    ensures |s| == 0 || s[0] as int != 0xFEFF ==> r == s
  {
    if |s| > 0 && s[0] as int == 0xFEFF then s[1..] else s
  }

  /** After the zero-width removal there is no byte order mark left to
      strip. */
  lemma BomStepIsNoOp(s: string)
    ensures StripLeadingBom(RemoveZeroWidth(s)) == RemoveZeroWidth(s)
  {
  }

  /** `replace(/[\x00-\x08\x0B\x0C\x0E-\x1F\x7F]/g, '')`: the other
      characters survive, in order. */
  function RemoveControls(s: string): (r: string)
    ensures r == Seqs.Filter(s, NotStrippedControl)
    ensures forall k :: 0 <= k < |r| ==> !IsStrippedControl(r[k]) && r[k] in s
    ensures (forall k :: 0 <= k < |s| ==> !IsStrippedControl(s[k])) ==> r == s
  {
    Seqs.FilterAll(s, NotStrippedControl);
    Seqs.Filter(s, NotStrippedControl)
  }

  function NormalizeSpaces(s: string): (r: string)
    ensures |r| == |s|
    ensures forall k :: 0 <= k < |s| ==> !IsSpecialSpace(r[k])
    ensures forall k :: 0 <= k < |s| ==> if IsSpecialSpace(s[k]) then r[k] == ' ' else r[k] == s[k]
  {
    seq(|s|, k requires 0 <= k < |s| => if IsSpecialSpace(s[k]) then ' ' else s[k])
  }

  /** `replace(/\r\n/g, '\n')`. */
  function CollapseCrLf(s: string): (r: string)
    ensures |r| <= |s|
    ensures forall c :: c in r ==> c in s
    ensures '\r' !in s ==> r == s
    decreases |s|
  {
    if s == [] then []
    else if |s| >= 2 && s[0] == '\r' && s[1] == '\n' then
      var rest := CollapseCrLf(s[2..]);
      assert forall c :: c in s[2..] ==> c in s;
      "\n" + rest
    else
      var rest := CollapseCrLf(s[1..]);
      assert forall c :: c in s[1..] ==> c in s;
      assert '\r' !in s ==> s == [s[0]] + s[1..];
      [s[0]] + rest
  }

  /** Both line-break replacements: no carriage return is left, and text
      without one is unchanged. */
  function NormalizeLineBreaks(s: string): (r: string)
    ensures '\r' !in r
    ensures forall x :: x in r ==> x == '\n' || x in s
    ensures '\r' !in s ==> r == s
  {
    var c := CollapseCrLf(s);
    var r := Strings.ReplaceChar(c, '\r', '\n');
    assert forall k :: 0 <= k < |r| ==> r[k] == '\n' || r[k] == c[k];
    assert forall x :: x in r ==> x == '\n' || x in c;
    assert '\r' !in s ==> r == c;
    r
  }

  /** One left-to-right pass in which a CR LF pair, or a CR on its own,
      becomes a single LF and every other character is copied. */
  function LineBreaksOnePass(s: string): (r: string)
    decreases |s|
  {
    if s == [] then [] else StepOut(s) + LineBreaksOnePass(s[StepLen(s)..])
  }

  /** What one step of the pass writes: a line feed for a carriage
      return, the character itself otherwise. */
  function StepOut(s: string): string
    requires s != []
  {
    if s[0] == '\r' then "\n" else [s[0]]
  }

  /** How many characters one step of the pass reads: two for a CR LF
      pair, one otherwise. */
  function StepLen(s: string): (k: nat)
    requires s != []
    ensures 1 <= k <= |s|
  {
    if s[0] == '\r' && |s| >= 2 && s[1] == '\n' then 2 else 1
  }

  /** The two global replacements of lines 28 and 29 are that single
      pass: a CR LF pair gives one LF, not two. */
  lemma {:induction false} NormalizeLineBreaksOnePass(s: string)
    ensures NormalizeLineBreaks(s) == LineBreaksOnePass(s)
    decreases |s|
  {
    if s != [] {
      var t := s[StepLen(s)..];
      NormalizeLineBreaksOnePass(t);
      var c := CollapseCrLf(t);
      var head := StepOut(s);
      var rawHead := if s[0] == '\r' && |s| >= 2 && s[1] == '\n' then "\n" else [s[0]];
      assert CollapseCrLf(s) == rawHead + c;
      ReplaceCharConcat(rawHead, c);
      assert Strings.ReplaceChar(rawHead, '\r', '\n') == head;
    }
  }

  /** A "\r\n" pair becomes exactly one line feed, splitting the text
      around it, when nothing before it ends in a carriage return. */
  lemma CrLfBecomesOneBreak(a: string, b: string)
    requires a == [] || a[|a| - 1] != '\r'
    ensures NormalizeLineBreaks(a + "\r\n" + b) == NormalizeLineBreaks(a) + "\n" + NormalizeLineBreaks(b)
  {
    NormalizeLineBreaksOnePass(a + "\r\n" + b);
    NormalizeLineBreaksOnePass(a);
    NormalizeLineBreaksOnePass(b);
    OnePassCrLf(a, b);
  }

  lemma OnePassCrLf(a: string, b: string)
    requires a == [] || a[|a| - 1] != '\r'
    ensures LineBreaksOnePass(a + "\r\n" + b) == LineBreaksOnePass(a) + "\n" + LineBreaksOnePass(b)
  {
    var crlfB := "\r\n" + b;
    Seqs.AppendAssoc(a, "\r\n", b);
    OnePassConcat(a, crlfB);
    OnePassCrLfHead(b);
    Seqs.AppendAssoc(LineBreaksOnePass(a), "\n", LineBreaksOnePass(b));
  }

  /** A leading "\r\n" is one step that writes one line feed. */
  lemma OnePassCrLfHead(b: string)
    ensures LineBreaksOnePass("\r\n" + b) == "\n" + LineBreaksOnePass(b)
  {
    var crlfB := "\r\n" + b;
    assert crlfB[0] == '\r' && crlfB[1] == '\n';
    assert StepLen(crlfB) == 2 && crlfB[2..] == b;
  }

  /** The pass works on the two halves separately when the first does
      not end in a carriage return. */
  lemma {:induction false} OnePassConcat(x: string, y: string)
    requires x == [] || x[|x| - 1] != '\r'
    ensures LineBreaksOnePass(x + y) == LineBreaksOnePass(x) + LineBreaksOnePass(y)
    decreases |x|
  {
    if x == [] {
      assert x + y == y;
    } else {
      var k := StepLen(x);
      var rest := x[k..];
      StepConcat(x, y);
      assert rest == [] || rest[|rest| - 1] == x[|x| - 1];
      OnePassConcat(rest, y);
      assert LineBreaksOnePass(x + y) == StepOut(x) + LineBreaksOnePass(rest + y);
      Seqs.AppendAssoc(StepOut(x), LineBreaksOnePass(rest), LineBreaksOnePass(y));
    }
  }

  /** A first step that ends before a trailing '\r' of `x` is the same step
      in `x + y`. */
  lemma StepConcat(x: string, y: string)
    requires x != [] && x[|x| - 1] != '\r'
    ensures (x + y) != [] && StepLen(x + y) == StepLen(x) && StepOut(x + y) == StepOut(x)
    ensures (x + y)[StepLen(x)..] == x[StepLen(x)..] + y
  {
    var xy := x + y;
    assert xy[0] == x[0];
    assert |x| >= 2 ==> xy[1] == x[1];
  }

  lemma ReplaceCharConcat(a: string, b: string)
    ensures Strings.ReplaceChar(a + b, '\r', '\n') == Strings.ReplaceChar(a, '\r', '\n') + Strings.ReplaceChar(b, '\r', '\n')
  {
    var l := Strings.ReplaceChar(a + b, '\r', '\n');
    var r := Strings.ReplaceChar(a, '\r', '\n') + Strings.ReplaceChar(b, '\r', '\n');
    assert forall k :: 0 <= k < |l| ==> l[k] == r[k] by {
      forall k | 0 <= k < |l| ensures l[k] == r[k] {
        if k < |a| { assert (a + b)[k] == a[k]; } else { assert (a + b)[k] == b[k - |a|]; }
      }
    }
  }

  /** No three consecutive line feeds. */
  predicate NoTripleNewline(s: string) {
    forall i :: 0 <= i < |s| ==> !TripleNewlineAt(s, i)
  }

  predicate TripleNewlineAt(s: string, i: int) {
    0 <= i && i + 2 < |s| && s[i] == '\n' && s[i + 1] == '\n' && s[i + 2] == '\n'
  }

  /** Length of the run of line feeds that starts `s`. */
  function LeadingNewlines(s: string): (k: nat)
    ensures k <= |s|
    ensures forall i :: 0 <= i < k ==> s[i] == '\n'
    ensures k < |s| ==> s[k] != '\n'
  {
    if s != [] && s[0] == '\n' then 1 + LeadingNewlines(s[1..]) else 0
  }

  lemma NoTripleAfterChar(c: char, rest: string)
    requires c != '\n' && NoTripleNewline(rest)
    ensures NoTripleNewline([c] + rest)
  {
    var r := [c] + rest;
    forall i | 0 <= i < |r| ensures !TripleNewlineAt(r, i) {
      if i >= 1 && TripleNewlineAt(r, i) {
        assert TripleNewlineAt(rest, i - 1);
      }
    }
  }

  lemma NoTripleAfterRun(run: string, rest: string)
    requires |run| <= 2 && forall k :: 0 <= k < |run| ==> run[k] == '\n'
    requires NoTripleNewline(rest) && (|rest| > 0 ==> rest[0] != '\n')
    ensures NoTripleNewline(run + rest)
  {
    var r := run + rest;
    forall i | 0 <= i < |r| ensures !TripleNewlineAt(r, i) {
      if i >= |run| && TripleNewlineAt(r, i) {
        assert TripleNewlineAt(rest, i - |run|);
      }
    }
  }

  /** `replace(/\n{3,}/g, '\n\n')`. */
  function CollapseBlankLines(s: string): (r: string)
    ensures NoTripleNewline(r)
    ensures (|r| > 0 && r[0] == '\n') <==> (|s| > 0 && s[0] == '\n')
    ensures forall c :: c in r ==> c == '\n' || c in s
    decreases |s|
  {
    if s == [] then []
    else if s[0] != '\n' then
      var rest := CollapseBlankLines(s[1..]);
      NoTripleAfterChar(s[0], rest);
      assert forall c :: c in s[1..] ==> c in s;
      [s[0]] + rest
    else
      var n := LeadingNewlines(s);
      var rest := CollapseBlankLines(s[n..]);
      var run := if n >= 3 then "\n\n" else s[..n];
      NoTripleAfterRun(run, rest);
      assert forall c :: c in s[n..] ==> c in s;
      assert forall c :: c in run ==> c == '\n';
      run + rest
  }

  /** Collapsing changes nothing in text that has no run of three line
      feeds. */
  lemma {:induction false} CollapseBlankLinesFixpoint(s: string)
    requires NoTripleNewline(s)
    ensures CollapseBlankLines(s) == s
    decreases |s|
  {
    if s != [] {
      var k := CollapseKeepsHead(s);
      CollapseBlankLinesFixpoint(s[k..]);
      Seqs.CutAndGlue(s, k);
    }
  }

  /** Without a triple line feed, the first step of the collapse copies
      its characters unchanged, and the rest has no triple either. */
  lemma CollapseKeepsHead(s: string) returns (k: nat)
    requires s != [] && NoTripleNewline(s)
    ensures 0 < k <= |s|
    ensures CollapseBlankLines(s) == s[..k] + CollapseBlankLines(s[k..])
    ensures NoTripleNewline(s[k..])
  {
    var n := CollapseStep(s);
    if s[0] != '\n' {
      k := 1;
      assert [s[0]] == s[..1];
    } else {
      assert !TripleNewlineAt(s, 0);
      k := n;
    }
    NoTripleSuffix(s, k);
  }

  lemma NoTripleSuffix(s: string, k: nat)
    requires k <= |s| && NoTripleNewline(s)
    ensures NoTripleNewline(s[k..])
  {
    forall i | 0 <= i < |s| - k ensures !TripleNewlineAt(s[k..], i) {
      assert !TripleNewlineAt(s, i + k);
    }
  }

  /** Whitespace other than a line feed is never the last character of a
      line: every line has been `trimEnd`-ed. */
  predicate LinesTrimmed(s: string) {
    forall k :: 0 <= k < |s| ==> !TrailingSpaceAt(s, k)
  }

  /** Position `k` holds whitespace that ends a line. */
  predicate TrailingSpaceAt(s: string, k: int) {
    0 <= k < |s| && Strings.IsJsWhitespace(s[k]) && s[k] != '\n' && (k + 1 == |s| || s[k + 1] == '\n')
  }

  function TrimEachLine(lines: seq<string>): (r: seq<string>)
    ensures |r| == |lines|
    ensures forall i :: 0 <= i < |lines| ==> r[i] == Strings.TrimEnd(lines[i])
  {
    seq(|lines|, i requires 0 <= i < |lines| => Strings.TrimEnd(lines[i]))
  }

  /** A line that holds no line feed and does not end in whitespace. */
  predicate IsTrimmedLine(l: string) {
    '\n' !in l && (|l| > 0 ==> !Strings.IsJsWhitespace(l[|l| - 1]))
  }

  lemma {:induction false} JoinTrimmedLines(lines: seq<string>)
    requires forall i :: 0 <= i < |lines| ==> IsTrimmedLine(lines[i])
    ensures LinesTrimmed(Strings.Join(lines, "\n"))
  {
    if |lines| >= 2 {
      JoinTrimmedLines(lines[1..]);
      var h := lines[0];
      var t := Strings.Join(lines[1..], "\n");
      var j := h + "\n" + t;
      forall k | 0 <= k < |j| ensures !TrailingSpaceAt(j, k) {
        if k < |h| {
          assert j[k] == h[k];
          if k < |h| - 1 {
            assert j[k + 1] == h[k + 1];
          }
        } else if k > |h| {
          assert j[k] == t[k - |h| - 1];
          assert !TrailingSpaceAt(t, k - |h| - 1);
          if k + 1 < |j| {
            assert j[k + 1] == t[k - |h|];
          }
        }
      }
    }
  }

  /** `split('\n').map(line => line.trimEnd()).join('\n')`. */
  function TrimLineEnds(s: string): (r: string)
    ensures LinesTrimmed(r)
  {
    var lines := TrimEachLine(Strings.Split(s, '\n'));
    assert forall i :: 0 <= i < |lines| ==> IsTrimmedLine(lines[i]) by {
      forall i | 0 <= i < |lines| ensures IsTrimmedLine(lines[i]) {
        var l := Strings.Split(s, '\n')[i];
        assert lines[i] == l[..|lines[i]|];
        assert '\n' !in l;
      }
    }
    JoinTrimmedLines(lines);
    Strings.Join(lines, "\n")
  }

  /** Line by line, the output is the input with each line's trailing
      whitespace removed: no line is merged, split, added or lost. */
  lemma TrimLineEndsLinewise(s: string)
    ensures Strings.Split(TrimLineEnds(s), '\n') == TrimEachLine(Strings.Split(s, '\n'))
  {
    var lines := TrimEachLine(Strings.Split(s, '\n'));
    forall i | 0 <= i < |lines| ensures '\n' !in lines[i] {
      var l := Strings.Split(s, '\n')[i];
      assert lines[i] == l[..|lines[i]|];
    }
    Strings.SplitJoin(lines, '\n');
  }

  /** Trimming keeps the line property: it only cuts whitespace off the
      ends. */
  lemma TrimKeepsLinesTrimmed(s: string)
    requires LinesTrimmed(s)
    ensures LinesTrimmed(Strings.Trim(s))
  {
    var r := Strings.Trim(s);
    var a := Strings.TrimSlice(s);
    forall k | 0 <= k < |r| ensures !TrailingSpaceAt(r, k) {
      SliceNoTrailing(r, s, a, k);
    }
  }

  /** Inside a slice that does not end in whitespace, a position ends a
      line in the slice only where it ends one in the whole text. */
  lemma SliceNoTrailing(r: string, s: string, a: nat, k: nat)
    requires Strings.IsSliceAt(r, s, a) && k < |r|
    requires !Strings.IsJsWhitespace(r[|r| - 1])
    requires !TrailingSpaceAt(s, a + k)
    ensures !TrailingSpaceAt(r, k)
  {
    assert r[k] == s[a + k];
    if k < |r| - 1 {
      assert r[k + 1] == s[a + k + 1];
    }
  }

  // ---------------------------------------------------------------------
  // What cleaning keeps: every visible character, in order.

  /** A character that no step of the plain-text branch removes or
      rewrites: one that is kept and is not whitespace. */
  predicate IsVisible(c: char) { IsKept(c) && !Strings.IsJsWhitespace(c) }

  /** The visible characters of `s`, in order. */
  function Visible(s: string): string { Seqs.Filter(s, IsVisible) }

  lemma NoVisible(s: string)
    requires forall k :: 0 <= k < |s| ==> !IsVisible(s[k])
    ensures Visible(s) == []
  {
    Seqs.FilterAll(s, IsVisible);
  }

  lemma VisibleCons(c: char, s: string)
    ensures Visible([c] + s) == (if IsVisible(c) then [c] else []) + Visible(s)
  {
    assert ([c] + s)[0] == c && ([c] + s)[1..] == s;
  }

  /** Lines 16 to 25 keep the visible characters. */
  lemma VisibleRemoveInvisibles(s: string)
    ensures Visible(RemoveInvisibles(s)) == Visible(s)
  {
    var s0 := RemoveZeroWidth(s);
    Seqs.FilterFilter(s, NotZeroWidth, IsVisible);
    assert |s0| > 0 ==> NotZeroWidth(s0[0]);
    var s1 := StripLeadingBom(s0);
    var s2 := RemoveControls(s1);
    Seqs.FilterFilter(s1, NotStrippedControl, IsVisible);
    Seqs.FilterPointwise(s2, NormalizeSpaces(s2), IsVisible);
  }

  /** Lines 28 and 29 keep the visible characters. */
  lemma {:induction false} VisibleLineBreaks(s: string)
    ensures Visible(LineBreaksOnePass(s)) == Visible(s)
    decreases |s|
  {
    if s != [] {
      var k := StepLen(s);
      VisibleLineBreaks(s[k..]);
      Seqs.FilterConcat(StepOut(s), LineBreaksOnePass(s[k..]), IsVisible);
      VisibleSplitAt(s, k);
      if s[0] == '\r' {
        NoVisible(StepOut(s));
        NoVisible(s[..k]);
      } else {
        assert StepOut(s) == s[..k];
      }
    }
  }

  /** Line 32 keeps the visible characters. */
  lemma {:induction false} VisibleCollapse(s: string)
    ensures Visible(CollapseBlankLines(s)) == Visible(s)
    decreases |s|, 1
  {
    if s != [] {
      if s[0] != '\n' {
        VisibleCollapseChar(s);
      } else {
        VisibleCollapseRun(s);
      }
    }
  }

  lemma {:induction false} VisibleCollapseChar(s: string)
    requires s != [] && s[0] != '\n'
    ensures Visible(CollapseBlankLines(s)) == Visible(s)
    decreases |s|, 0
  {
    var _ := CollapseStep(s);
    VisibleCollapse(s[1..]);
    Seqs.FilterSamePrefix([s[0]], CollapseBlankLines(s[1..]), s[1..], IsVisible);
    assert s == [s[0]] + s[1..];
  }

  lemma {:induction false} VisibleCollapseRun(s: string)
    requires s != [] && s[0] == '\n'
    ensures Visible(CollapseBlankLines(s)) == Visible(s)
    decreases |s|, 0
  {
    var n, pre := CollapseRun(s);
    VisibleCollapse(s[n..]);
    VisibleAfterNewlines(pre, CollapseBlankLines(s[n..]));
    VisibleSplitAt(s, n);
    NoVisible(s[..n]);
  }

  /** A leading run of `n` line feeds collapses to `pre`, which is line
      feeds only. */
  lemma CollapseRun(s: string) returns (n: nat, pre: string)
    requires s != [] && s[0] == '\n'
    ensures 0 < n <= |s| && forall k :: 0 <= k < n ==> s[k] == '\n'
    ensures forall k :: 0 <= k < |pre| ==> pre[k] == '\n'
    ensures CollapseBlankLines(s) == pre + CollapseBlankLines(s[n..])
  {
    n := CollapseStep(s);
    pre := if n >= 3 then "\n\n" else s[..n];
  }

  /** Line feeds in front add no visible character. */
  lemma VisibleAfterNewlines(pre: string, t: string)
    requires forall k :: 0 <= k < |pre| ==> pre[k] == '\n'
    ensures Visible(pre + t) == Visible(t)
  {
    Seqs.FilterConcat(pre, t, IsVisible);
    NoVisible(pre);
  }

  /** One step of the collapse: a character that is not a line feed is
      copied, and a run of `n` line feeds is kept or cut down to two. */
  lemma CollapseStep(s: string) returns (n: nat)
    requires s != []
    ensures s[0] != '\n' ==> CollapseBlankLines(s) == [s[0]] + CollapseBlankLines(s[1..])
    ensures s[0] == '\n' ==> n == LeadingNewlines(s) && 0 < n <= |s|
    ensures s[0] == '\n' ==>
              CollapseBlankLines(s) == (if n >= 3 then "\n\n" else s[..n]) + CollapseBlankLines(s[n..])
  {
    n := LeadingNewlines(s);
  }

  /** The visible characters of each line, one line after another. */
  function VisibleLines(lines: seq<string>): string {
    if lines == [] then [] else Visible(lines[0]) + VisibleLines(lines[1..])
  }

  lemma {:induction false} VisibleJoin(lines: seq<string>)
    ensures Visible(Strings.Join(lines, "\n")) == VisibleLines(lines)
  {
    if |lines| == 1 {
      assert VisibleLines(lines) == Visible(lines[0]) + VisibleLines([]);
    } else if |lines| >= 2 {
      VisibleJoin(lines[1..]);
      Seqs.FilterConcat(lines[0] + "\n", Strings.Join(lines[1..], "\n"), IsVisible);
      Seqs.FilterConcat(lines[0], "\n", IsVisible);
      NoVisible("\n");
    }
  }

  lemma VisibleTrimEnd(l: string)
    ensures Visible(Strings.TrimEnd(l)) == Visible(l)
  {
    var r := Strings.TrimEnd(l);
    assert l == r + l[|r|..];
    Seqs.FilterConcat(r, l[|r|..], IsVisible);
    NoVisible(l[|r|..]);
  }

  lemma {:induction false} VisibleTrimEachLine(lines: seq<string>)
    ensures VisibleLines(TrimEachLine(lines)) == VisibleLines(lines)
  {
    if lines != [] {
      VisibleTrimEachLine(lines[1..]);
      assert TrimEachLine(lines)[1..] == TrimEachLine(lines[1..]);
      VisibleTrimEnd(lines[0]);
    }
  }

  /** Line 35 keeps the visible characters. */
  lemma VisibleTrimLineEnds(s: string)
    ensures Visible(TrimLineEnds(s)) == Visible(s)
  {
    VisibleJoin(TrimEachLine(Strings.Split(s, '\n')));
    VisibleTrimEachLine(Strings.Split(s, '\n'));
    VisibleJoin(Strings.Split(s, '\n'));
    Strings.JoinSplit(s, '\n');
  }

  lemma VisibleSplitAt(s: string, i: nat)
    requires i <= |s|
    ensures Visible(s) == Visible(s[..i]) + Visible(s[i..])
  {
    assert s == s[..i] + s[i..];
    Seqs.FilterConcat(s[..i], s[i..], IsVisible);
  }

  /** Line 38 keeps the visible characters. */
  lemma VisibleTrim(s: string)
    ensures Visible(Strings.Trim(s)) == Visible(s)
  {
    var r := Strings.Trim(s);
    var a := Strings.TrimSlice(s);
    var b := a + |r|;
    var head, tail := s[..a], s[b..];
    forall k | 0 <= k < |head| ensures !IsVisible(head[k]) {
      assert head[k] == s[k];
    }
    forall k | 0 <= k < |tail| ensures !IsVisible(tail[k]) {
      assert tail[k] == s[b + k];
    }
    NoVisible(head);
    NoVisible(tail);
    VisibleMiddle(s, a, b);
    assert s[a..b] == r;
  }

  /** With nothing visible before `a` or from `b` on, the visible
      characters are those of the middle. */
  lemma VisibleMiddle(s: string, a: nat, b: nat)
    requires a <= b <= |s|
    requires Visible(s[..a]) == [] && Visible(s[b..]) == []
    ensures Visible(s) == Visible(s[a..b])
  {
    var mid := s[a..];
    var x := Visible(s[a..b]);
    Seqs.DropThenCut(s, a, b - a);
    assert Visible(mid[..b - a]) == x;
    assert Visible(mid[b - a..]) == [];
    VisibleSplitAt(mid, b - a);
    assert Visible(mid) == x;
    VisibleSplitAt(s, a);
  }

  // ---------------------------------------------------------------------
  // Already clean text is left alone.

  /** A line that is empty or does not end in whitespace. */
  predicate EndsClean(l: string) {
    |l| > 0 ==> !Strings.IsJsWhitespace(l[|l| - 1])
  }

  lemma SplitHeadEmpty(t: string)
    ensures Strings.Split(t, '\n')[0] == [] ==> t == [] || t[0] == '\n'
  {
    if t != [] && t[0] != '\n' {
      assert Strings.Split(t, '\n')[0] == [t[0]] + Strings.Split(t[1..], '\n')[0];
    }
  }

  /** In text whose lines are trimmed, no piece of the line split ends in
      whitespace. */
  lemma {:induction false} SplitPiecesEndClean(s: string)
    requires LinesTrimmed(s)
    ensures forall i :: 0 <= i < |Strings.Split(s, '\n')| ==> EndsClean(Strings.Split(s, '\n')[i])
    decreases |s|
  {
    if s != [] {
      assert LinesTrimmed(s[1..]) by {
        forall k | 0 <= k < |s[1..]| ensures !TrailingSpaceAt(s[1..], k) {
          assert !TrailingSpaceAt(s, k + 1);
        }
      }
      SplitPiecesEndClean(s[1..]);
      var rest := Strings.Split(s[1..], '\n');
      var parts := Strings.Split(s, '\n');
      if s[0] == '\n' {
        assert parts == [[]] + rest;
        forall i | 0 <= i < |parts| ensures EndsClean(parts[i]) {
          if i > 0 { assert parts[i] == rest[i - 1]; }
        }
      } else {
        var p := [s[0]] + rest[0];
        assert parts == [p] + rest[1..];
        if rest[0] == [] {
          SplitHeadEmpty(s[1..]);
          assert !TrailingSpaceAt(s, 0);
        } else {
          assert p[|p| - 1] == rest[0][|rest[0]| - 1];
        }
        forall i | 0 <= i < |parts| ensures EndsClean(parts[i]) {
          if i > 0 { assert parts[i] == rest[i]; }
        }
      }
    }
  }

  /** Text whose lines are already trimmed keeps its lines. */
  lemma TrimLineEndsFixpoint(s: string)
    requires LinesTrimmed(s)
    ensures TrimLineEnds(s) == s
  {
    var parts := Strings.Split(s, '\n');
    SplitPiecesEndClean(s);
    forall i | 0 <= i < |parts| ensures Strings.TrimEnd(parts[i]) == parts[i] {
      assert EndsClean(parts[i]);
    }
    assert TrimEachLine(parts) == parts;
    Strings.JoinSplit(s, '\n');
  }

  // ---------------------------------------------------------------------
  // The three exported operations.

  /** What the plain-text branch guarantees about its result. */
  predicate IsCleanPlainText(r: string) {
    && Strings.AllChars(r, IsKept)
    && LinesTrimmed(r)
    && (|r| > 0 ==> !Strings.IsJsWhitespace(r[0]) && !Strings.IsJsWhitespace(r[|r| - 1]))
  }

  /** Lines 15 to 25: invisible characters, controls and special spaces
      are gone. */
  function RemoveInvisibles(s: string): (r: string)
    ensures forall k :: 0 <= k < |r| ==> !IsZeroWidth(r[k]) && !IsStrippedControl(r[k]) && !IsSpecialSpace(r[k])
  {
    var s0 := RemoveZeroWidth(s);
    var s1 := StripLeadingBom(s0);
    var s2 := RemoveControls(s1);
    var r := NormalizeSpaces(s2);
    BomStepIsNoOp(s);
    RemoveControlsKeepsNoZeroWidth(s1);
    assert forall k :: 0 <= k < |r| ==> !IsZeroWidth(r[k]) && !IsStrippedControl(r[k]) && !IsSpecialSpace(r[k]) by {
      forall k | 0 <= k < |r| ensures !IsZeroWidth(r[k]) && !IsStrippedControl(r[k]) && !IsSpecialSpace(r[k]) {
        if !IsSpecialSpace(s2[k]) { assert r[k] == s2[k]; }
      }
    }
    r
  }

  lemma RemoveControlsKeepsNoZeroWidth(s1: string)
    requires forall k :: 0 <= k < |s1| ==> !IsZeroWidth(s1[k])
    ensures forall k :: 0 <= k < |RemoveControls(s1)| ==>
              !IsZeroWidth(RemoveControls(s1)[k]) && !IsStrippedControl(RemoveControls(s1)[k])
  {
    var s2 := RemoveControls(s1);
    forall k | 0 <= k < |s2| ensures !IsZeroWidth(s2[k]) && !IsStrippedControl(s2[k]) {
      assert s2[k] in s1;
    }
  }

  lemma NoStrippedLeft(t: string)
    ensures forall c :: c in NormalizeLineBreaks(RemoveInvisibles(t)) ==> IsKept(c)
  {
    var u := RemoveInvisibles(t);
    assert forall c :: c in u ==> !IsZeroWidth(c) && !IsStrippedControl(c) && !IsSpecialSpace(c);
    NewlineIsKept();
  }

  /** Lines 28 to 32: after these, every character is kept. */
  function NormalizeBreaks(s: string): (r: string)
    ensures Strings.AllChars(r, IsKept)
    ensures Visible(r) == Visible(s)
  {
    var s2 := NormalizeLineBreaks(RemoveInvisibles(s));
    NoStrippedLeft(s);
    VisibleRemoveInvisibles(s);
    NormalizeLineBreaksOnePass(RemoveInvisibles(s));
    VisibleLineBreaks(RemoveInvisibles(s));
    VisibleCollapse(s2);
    var r := CollapseBlankLines(s2);
    NewlineIsKept();
    assert forall k :: 0 <= k < |r| ==> r[k] in r;
    r
  }

  /** Line trimming removes characters only. */
  lemma TrimLineEndsKeeps(s: string, p: char -> bool)
    requires Strings.AllChars(s, p)
    requires p('\n')
    ensures Strings.AllChars(TrimLineEnds(s), p)
  {
    var lines := Strings.Split(s, '\n');
    Strings.SplitAllChars(s, '\n', p);
    var trimmed := TrimEachLine(lines);
    forall i | 0 <= i < |trimmed| ensures Strings.AllChars(trimmed[i], p) {
      assert trimmed[i] == lines[i][..|trimmed[i]|];
    }
    Strings.JoinAllChars(trimmed, "\n", p);
  }

  /** The final `trim` removes characters only. */
  lemma TrimKeeps(s: string, p: char -> bool)
    requires Strings.AllChars(s, p)
    ensures Strings.AllChars(Strings.Trim(s), p)
  {
    var r := Strings.Trim(s);
    var a := Strings.TrimSlice(s);
    forall k | 0 <= k < |r| ensures p(r[k]) {
      assert r[k] == s[a + k];
    }
  }

  lemma TrimIsClean(s: string)
    requires Strings.AllChars(s, IsKept) && LinesTrimmed(s)
    ensures IsCleanPlainText(Strings.Trim(s))
  {
    TrimKeeps(s, IsKept);
    TrimKeepsLinesTrimmed(s);
  }

  /** Lines 13 to 38 of `cleanTextContent`. */
  function CleanPlainText(s: string): (r: string)
    ensures IsCleanPlainText(r)
    ensures Visible(r) == Visible(s)
  {
    var s1 := NormalizeBreaks(s);
    var s2 := TrimLineEnds(s1);
    VisibleTrimLineEnds(s1);
    VisibleTrim(s2);
    NewlineIsKept();
    TrimLineEndsKeeps(s1, IsKept);
    TrimIsClean(s2);
    Strings.Trim(s2)
  }

  /** `cleanTextContent`: empty stays empty; HTML is only trimmed; any
      other text comes out free of stripped characters, with trimmed lines
      and no whitespace at either end. */
  function CleanTextContent(s: string): (r: string)
    ensures s == [] ==> r == []
    ensures s != [] && IsHtml(s) ==> r == Strings.Trim(s)
    ensures !IsHtml(s) ==> IsCleanPlainText(r)
    ensures !IsHtml(s) ==> Visible(r) == Visible(s)
  {
    if s == [] then
      assert IsCleanPlainText([]) by { assert Strings.AllChars([], IsKept); }
      []
    else if IsHtml(s) then Strings.Trim(s)
    else CleanPlainText(s)
  }

  /** Text that is already clean and has no run of three line feeds comes
      out of the plain-text branch, and so out of the cleaner, unchanged. */
  lemma CleanPlainTextFixpoint(s: string)
    requires IsCleanPlainText(s) && NoTripleNewline(s)
    ensures CleanPlainText(s) == s
    ensures !IsHtml(s) ==> CleanTextContent(s) == s
  {
    assert forall k :: 0 <= k < |s| ==> IsKept(s[k]);
    assert RemoveZeroWidth(s) == s;
    assert StripLeadingBom(s) == s;
    assert RemoveControls(s) == s;
    assert NormalizeSpaces(s) == s;
    assert '\r' !in s;
    CollapseBlankLinesFixpoint(s);
    assert NormalizeBreaks(s) == s;
    TrimLineEndsFixpoint(s);
    Strings.TrimUnchanged(s);
  }

  /** Whichever branch is taken, the result neither starts nor ends with
      whitespace. */
  lemma CleanTextContentTrimmed(s: string)
    ensures var r := CleanTextContent(s);
            |r| > 0 ==> !Strings.IsJsWhitespace(r[0]) && !Strings.IsJsWhitespace(r[|r| - 1])
  {
  }

  /** Printable ASCII or a line feed. */
  predicate IsPlainAscii(c: char) {
    c == '\n' || (0x20 <= c as int <= 0x7E)
  }

  /** Printable ASCII text without a carriage return passes the character
      steps unchanged. */
  lemma PlainAsciiUnchanged(s: string)
    requires Strings.AllChars(s, IsPlainAscii)
    ensures RemoveInvisibles(s) == s
    ensures NormalizeLineBreaks(s) == s
  {
    assert forall k :: 0 <= k < |s| ==> !IsZeroWidth(s[k]) && !IsStrippedControl(s[k]) && !IsSpecialSpace(s[k]);
    assert StripLeadingBom(RemoveZeroWidth(s)) == s;
    assert NormalizeSpaces(s) == s;
  }

  lemma NotHtmlExamples()
    ensures !IsHtml("a\n \n \nb") && !IsHtml("a\n\n\nb")
  {
    assert '<' !in "a\n \n \nb";
    assert '<' !in "a\n\n\nb";
  }

  lemma BreaksExampleWithSpaces()
    ensures NormalizeBreaks("a\n \n \nb") == "a\n \n \nb"
  {
    var s := "a\n \n \nb";
    PlainAsciiExamples();
    PlainAsciiUnchanged(s);
    NoTripleExample();
    CollapseBlankLinesFixpoint(s);
  }

  lemma PlainAsciiExamples()
    ensures Strings.AllChars("a\n \n \nb", IsPlainAscii)
    ensures Strings.AllChars("a\n\n\nb", IsPlainAscii)
  {
    var s := "a\n \n \nb";
    forall k | 0 <= k < |s| ensures IsPlainAscii(s[k]) {
      assert s[k] == 'a' || s[k] == '\n' || s[k] == ' ' || s[k] == 'b';
    }
    var t := "a\n\n\nb";
    forall k | 0 <= k < |t| ensures IsPlainAscii(t[k]) {
      assert t[k] == 'a' || t[k] == '\n' || t[k] == 'b';
    }
  }

  lemma NoTripleExample()
    ensures NoTripleNewline("a\n \n \nb")
  {
    var s := "a\n \n \nb";
    forall i | 0 <= i < |s| ensures !TripleNewlineAt(s, i) {
      if i + 2 < |s| {
        assert i == 0 || i == 1 || i == 2 || i == 3 || i == 4;
      }
    }
  }

  lemma LinesExampleWithSpaces()
    ensures TrimLineEnds("a\n \n \nb") == "a\n\n\nb"
  {
    JoinExample();
    Strings.SplitJoin(["a", " ", " ", "b"], '\n');
    TrimEachLineExamples();
  }

  lemma CleanExampleWithSpaces()
    ensures CleanTextContent("a\n \n \nb") == "a\n\n\nb"
  {
    NotHtmlExamples();
    BreaksExampleWithSpaces();
    LinesExampleWithSpaces();
    TrimExamples();
  }

  lemma JoinExample()
    ensures Strings.Join(["a", " ", " ", "b"], "\n") == "a\n \n \nb"
    ensures Strings.Join(["a", "", "", "b"], "\n") == "a\n\n\nb"
    ensures Strings.Join(["a", "", "b"], "\n") == "a\n\nb"
    ensures forall i :: 0 <= i < |["a", " ", " ", "b"]| ==> '\n' !in ["a", " ", " ", "b"][i]
    ensures forall i :: 0 <= i < |["a", "", "b"]| ==> '\n' !in ["a", "", "b"][i]
  {
    assert Strings.Join([" ", "b"], "\n") == " \nb";
    assert Strings.Join(["", "b"], "\n") == "\nb";
    assert Strings.Join(["", "", "b"], "\n") == "\n\nb";
    assert Strings.Join([" ", " ", "b"], "\n") == " \n \nb";
  }

  lemma TrimEachLineExamples()
    ensures TrimEachLine(["a", " ", " ", "b"]) == ["a", "", "", "b"]
    ensures TrimEachLine(["a", "", "b"]) == ["a", "", "b"]
  {
    assert Strings.TrimEnd(" ") == "" by {
      assert Strings.IsJsWhitespace(' ');
      assert " "[..0] == "";
    }
    assert Strings.TrimEnd("a") == "a" by {
      assert !Strings.IsJsWhitespace('a');
    }
    assert Strings.TrimEnd("b") == "b" by {
      assert !Strings.IsJsWhitespace('b');
    }
    assert Strings.TrimEnd("") == "";
    var l1 := TrimEachLine(["a", " ", " ", "b"]);
    assert l1[0] == "a" && l1[1] == "" && l1[2] == "" && l1[3] == "b";
    var l2 := TrimEachLine(["a", "", "b"]);
    assert l2[0] == "a" && l2[1] == "" && l2[2] == "b";
  }

  lemma TrimExamples()
    ensures Strings.Trim("a\n\n\nb") == "a\n\n\nb"
    ensures Strings.Trim("a\n\nb") == "a\n\nb"
  {
    Strings.TrimUnchanged("a\n\n\nb");
    Strings.TrimUnchanged("a\n\nb");
  }

  lemma BreaksExampleWithoutSpaces()
    ensures NormalizeBreaks("a\n\n\nb") == "a\n\nb"
  {
    var t := "a\n\n\nb";
    PlainAsciiExamples();
    PlainAsciiUnchanged(t);
    CollapseExample();
  }

  lemma CollapseExample()
    ensures CollapseBlankLines("a\n\n\nb") == "a\n\nb"
  {
    var t := "a\n\n\nb";
    assert t[1..] == "\n\n\nb";
    assert LeadingNewlines("b") == 0;
    assert LeadingNewlines("\nb") == 1 by { assert "\nb"[1..] == "b"; }
    assert LeadingNewlines("\n\nb") == 2 by { assert "\n\nb"[1..] == "\nb"; }
    assert LeadingNewlines("\n\n\nb") == 3 by { assert "\n\n\nb"[1..] == "\n\nb"; }
    assert t[1..][3..] == "b";
    assert CollapseBlankLines("b") == "b";
    assert CollapseBlankLines(t[1..]) == "\n\nb";
  }

  lemma LinesExampleWithoutSpaces()
    ensures TrimLineEnds("a\n\nb") == "a\n\nb"
  {
    JoinExample();
    Strings.SplitJoin(["a", "", "b"], '\n');
    TrimEachLineExamples();
  }

  lemma CleanExampleWithoutSpaces()
    ensures CleanTextContent("a\n\n\nb") == "a\n\nb"
  {
    NotHtmlExamples();
    BreaksExampleWithoutSpaces();
    LinesExampleWithoutSpaces();
    TrimExamples();
  }

  /** A line holding only spaces is not empty when the blank-line step
      looks at it, so two such lines in a row come out as three
      consecutive line feeds, and cleaning the result again removes one:
      the cleaner is not idempotent. */
  lemma WhitespaceLinesEscapeCollapse()
    ensures var once := CleanTextContent("a\n \n \nb");
            !NoTripleNewline(once) && CleanTextContent(once) != once
  {
    CleanExampleWithSpaces();
    CleanExampleWithoutSpaces();
    assert TripleNewlineAt("a\n\n\nb", 1);
    assert |"a\n\nb"| != |"a\n\n\nb"|;
  }

  /** `sanitizeForDisplay`: exactly the cleaned text. */
  function SanitizeForDisplay(s: string): (r: string)
    ensures r == CleanTextContent(s)
    ensures s == [] ==> r == []
  {
    if s == [] then [] else CleanTextContent(s)
  }

  // ---------------------------------------------------------------------
  // Tag removal of `stripMarkdown`.

  /** No `<` has a `>` anywhere after it. */
  predicate NoTagLeft(s: string) {
    forall i, j :: 0 <= i < j < |s| && s[i] == '<' ==> s[j] != '>'
  }

  /** Text without a complete tag is never taken for HTML. */
  lemma NoTagIsNotHtml(s: string)
    requires NoTagLeft(s)
    ensures !IsHtml(s)
  {
  }

  function FirstIndexOf(s: string, c: char): (i: nat)
    requires c in s
    ensures i < |s| && s[i] == c
    ensures forall k :: 0 <= k < i ==> s[k] != c
  {
    if s[0] == c then 0 else 1 + FirstIndexOf(s[1..], c)
  }

  /** `replace(/<[^>]*>/g, '')`: each `<` is removed together with the
      text up to and including the next `>`; a `<` with no later `>`
      stays. */
  function RemoveTags(s: string): (r: string)
    ensures NoTagLeft(r)
    ensures NoTagLeft(s) ==> r == s
    ensures |r| <= |s|
    decreases |s|
  {
    if s == [] then []
    else if s[0] == '<' && '>' in s[1..] then
      RemoveTags(s[1..][FirstIndexOf(s[1..], '>') + 1..])
    else
      var rest := RemoveTags(s[1..]);
      var r := [s[0]] + rest;
      assert s[0] == '<' ==> forall j :: 1 <= j < |s| ==> s[j] != '>';
      assert s[0] == '<' ==> NoTagLeft(s[1..]);
      assert forall j :: 1 <= j < |r| ==> r[j] == rest[j - 1];
      assert NoTagLeft(s) ==> NoTagLeft(s[1..]);
      assert NoTagLeft(s) ==> s == [s[0]] + s[1..];
      r
  }

  /** Removing tags twice is the same as once. */
  lemma RemoveTagsIdempotent(s: string)
    ensures RemoveTags(RemoveTags(s)) == RemoveTags(s)
  {
  }

  /** `stripMarkdown`. The markdown rewrites of lines 67 to 91 are the
      parameter `markdownSteps`; the tag removal of line 94 and the final
      cleaning are modelled. The result never comes from the HTML branch
      of the cleaner. */
  function StripMarkdown(text: string, markdownSteps: string -> string): (r: string)
    ensures text == [] ==> r == []
    ensures text != [] ==> r == CleanPlainText(RemoveTags(markdownSteps(text)))
    ensures IsCleanPlainText(r)
  {
    if text == [] then []
    else
      var untagged := RemoveTags(markdownSteps(text));
      NoTagIsNotHtml(untagged);
      assert untagged == [] ==> CleanPlainText(untagged) == [];
      CleanTextContent(untagged)
  }
}

=== FILE: utm_context.dfy ===
/** The UTM provider of `src/contexts/UTMContext.tsx`: the parameters it
    holds in state, how a change of the location's query updates them, and
    the callbacks it hands out, all of which read that state. */
module UtmContext {
  import opened Wrappers
  import UtmTracking

  /** The provider's `utmParams` state and the local storage it uses. */
  datatype Provider = Provider(utmParams: Option<UtmTracking.UtmParams>, storage: UtmTracking.Storage)

  /** A freshly mounted provider holds `null`. */
  function Mount(storage: UtmTracking.Storage): (p: Provider)
    ensures p.utmParams.None? && p.storage == storage
  {
    Provider(None, storage)
  }

  /** Lines 27 to 44: the effect that runs whenever `location.search`
      changes, at time `now`, with `fault` describing the persist writes. */
  function OnSearchChange(p: Provider, search: UtmTracking.Search, now: int,
                          fault: UtmTracking.WriteFault): (p': Provider)
    ensures var url := UtmTracking.ExtractUTMParams(search);
            |url| > 0 ==> p'.utmParams == Some(url)
                          && p'.storage == UtmTracking.PersistUTMParams(url, now, p.storage, fault)
    ensures var url := UtmTracking.ExtractUTMParams(search);
            var read := UtmTracking.GetStoredUTMParams(p.storage, now);
            |url| == 0 ==> p'.storage == read.storage
                           && p'.utmParams == (if read.value.Some? then read.value else p.utmParams)
  {
    var url := UtmTracking.ExtractUTMParams(search);
    if |url| > 0 then
      Provider(Some(url), UtmTracking.PersistUTMParams(url, now, p.storage, fault))
    else
      var read := UtmTracking.GetStoredUTMParams(p.storage, now);
      match read.value
      case Some(stored) => Provider(Some(stored), read.storage)
      case None => Provider(p.utmParams, read.storage)
  }

  /** The query carries some UTM parameter. */
  predicate HasUtm(search: UtmTracking.Search) {
    exists k :: UtmTracking.InSearch(search, k)
  }

  /** A query with UTM parameters sets the state to exactly those
      parameters, whatever was stored. */
  lemma UrlWins(p: Provider, search: UtmTracking.Search, now: int, fault: UtmTracking.WriteFault)
    requires HasUtm(search)
    ensures OnSearchChange(p, search, now, fault).utmParams == Some(UtmTracking.ExtractUTMParams(search))
  {
    var k :| UtmTracking.InSearch(search, k);
    assert k in UtmTracking.ExtractUTMParams(search);
  }

  /** Parameters captured from one visit come back on a later visit without
      any, up to 30 days on, even in a freshly mounted provider. */
  lemma CapturedParamsReturn(p: Provider, s1: UtmTracking.Search, now: int,
                             s2: UtmTracking.Search, t: int)
    requires HasUtm(s1) && !HasUtm(s2)
    requires t <= now + UtmTracking.ExpiryMs
    ensures var p1 := OnSearchChange(p, s1, now, UtmTracking.NoFault);
            OnSearchChange(Mount(p1.storage), s2, t, UtmTracking.NoFault).utmParams
              == Some(UtmTracking.ExtractUTMParams(s1))
  {
    var url := UtmTracking.ExtractUTMParams(s1);
    var k :| UtmTracking.InSearch(s1, k);
    assert k in url;
    UtmTracking.ExtractEmptyIff(s2);
    UtmTracking.PersistThenRead(url, now, p.storage, t);
  }

  /** A visit without UTM parameters and nothing usable in storage keeps
      the previous state; it is not reset to `null`. */
  lemma NothingStoredKeepsState(p: Provider, search: UtmTracking.Search, now: int, fault: UtmTracking.WriteFault)
    requires !HasUtm(search)
    requires UtmTracking.GetStoredUTMParams(p.storage, now).value.None?
    ensures OnSearchChange(p, search, now, fault).utmParams == p.utmParams
  {
    UtmTracking.ExtractEmptyIff(search);
  }

  /** Lines 55 to 57: `trackEvent` tags the event with the current state. */
  function TrackEvent(p: Provider, name: string, now: int): (e: UtmTracking.Event)
    ensures e.utm == p.utmParams && e.name == name
  {
    UtmTracking.TrackEvent(name, p.utmParams, now)
  }

  /** Lines 60 to 62: `getUTMLink` appends the current state. */
  function GetUTMLink(p: Provider, url: string, parse: string -> Option<UtmTracking.Url>,
                      serialize: UtmTracking.Url -> string): (r: string)
    ensures p.utmParams.None? ==> r == url
    ensures r == UtmTracking.AppendUTMToUrl(url, p.utmParams, parse, serialize)
  {
    UtmTracking.AppendUTMToUrl(url, p.utmParams, parse, serialize)
  }

  /** Lines 65 to 67: `getUTMQuery` serialises the current state. */
  function GetUTMQuery(p: Provider, encode: string -> string): (r: string)
    ensures r == [] <==> p.utmParams.None? || forall k :: !UtmTracking.Truthy(p.utmParams.value, k)
  {
    UtmTracking.GetUTMQueryString(p.utmParams, encode)
  }

  /** After a visit with UTM parameters, the callbacks all see those
      parameters: the query string is non-empty and the events carry them. */
  lemma CallbacksFollowUrl(p: Provider, search: UtmTracking.Search, now: int,
                           fault: UtmTracking.WriteFault, encode: string -> string, name: string)
    requires HasUtm(search)
    ensures var p' := OnSearchChange(p, search, now, fault);
            && GetUTMQuery(p', encode) == UtmTracking.GetUTMQueryString(Some(UtmTracking.ExtractUTMParams(search)), encode)
            && GetUTMQuery(p', encode) != []
            && TrackEvent(p', name, now).utm == Some(UtmTracking.ExtractUTMParams(search))
  {
    UrlWins(p, search, now, fault);
    var k :| UtmTracking.InSearch(search, k);
    assert UtmTracking.Truthy(UtmTracking.ExtractUTMParams(search), k);
  }

  /** `useUTM`: the provider's value, or the error thrown outside one. */
  function UseUTM(context: Option<Provider>): (r: Result<Provider, string>)
    ensures context.None? <==> r.Err?
    ensures r.Err? ==> r.error == "useUTM must be used within a UTMProvider"
    ensures context.Some? ==> r == Ok(context.value)
  {
    match context
    case None => Err("useUTM must be used within a UTMProvider")
    case Some(c) => Ok(c)
  }
}

=== FILE: utm_tracking.dfy ===
/** The UTM attribution helpers of `src/utils/utmTracking.ts`: reading the
    five `utm_*` parameters off a query, keeping them in local storage for
    30 days, and writing them back into a link or a query string.

    Local storage is a value of `Storage` holding what the two storage keys
    hold; the clock is a parameter in milliseconds. URL parsing, URL
    serialisation and form-urlencoding are oracles. The entries of a
    parameter object are visited in the fixed key order: every such object
    in the application is built by `extractUTMParams` (or parsed back from
    its JSON), so that is its insertion order. */
module UtmTracking {
  import opened Wrappers
  import Strings
  import Seqs

  /** The five keys of `UTMParams`. */
  datatype UtmKey = Source | Medium | Campaign | Term | Content

  function KeyName(k: UtmKey): string {
    match k
    case Source => "utm_source"
    case Medium => "utm_medium"
    case Campaign => "utm_campaign"
    case Term => "utm_term"
    case Content => "utm_content"
  }

  /** Different keys have different names. */
  lemma KeyNamesDistinct(k: UtmKey, l: UtmKey)
    ensures KeyName(k) == KeyName(l) ==> k == l
  {
    if k != l {
      assert |KeyName(k)| != |KeyName(l)| || KeyName(k)[4] != KeyName(l)[4];
    }
  }

  /** Lines 19 to 25: the keys in the order they are read. */
  function UtmKeys(): (keys: seq<UtmKey>)
    ensures forall k :: k in keys
    ensures forall i, j :: 0 <= i < j < |keys| ==> keys[i] != keys[j]
  {
    var keys := [Source, Medium, Campaign, Term, Content];
    assert forall k :: k in keys by {
      forall k ensures k in keys {
        KeyListed(k, keys);
      }
    }
    keys
  }

  lemma KeyListed(k: UtmKey, keys: seq<UtmKey>)
    requires keys == [Source, Medium, Campaign, Term, Content]
    ensures k in keys
  {
    if k == Source { assert keys[0] == k; }
    else if k == Medium { assert keys[1] == k; }
    else if k == Campaign { assert keys[2] == k; }
    else if k == Term { assert keys[3] == k; }
    else { assert keys[4] == k; }
  }

  /** A `UTMParams` object: the keys it defines and their values. */
  type UtmParams = map<UtmKey, string>

  /** `if (value)`: the key is set to a non-empty string. */
  predicate Truthy(utm: UtmParams, k: UtmKey) {
    k in utm && utm[k] != []
  }

  /** The query of a URL as `URLSearchParams.get` sees it: for each name
      that occurs, its first value. */
  type Search = map<string, string>

  /** `search.get(KeyName(k))` is a non-empty string. */
  predicate InSearch(search: Search, k: UtmKey) {
    KeyName(k) in search && search[KeyName(k)] != []
  }

  function ExtractKeys(keys: seq<UtmKey>, search: Search): (p: UtmParams)
    ensures forall k :: k in p <==> k in keys && InSearch(search, k)
    ensures forall k :: k in p ==> InSearch(search, k) && p[k] == search[KeyName(k)]
  {
    if keys == [] then map[]
    else
      var init := keys[..|keys| - 1];
      var k := keys[|keys| - 1];
      assert keys == init + [k];
      var p := ExtractKeys(init, search);
      if InSearch(search, k) then p[k := search[KeyName(k)]] else p
  }

  /** `extractUTMParams`: exactly the keys whose value in the query is a
      non-empty string, with that value. */
  function ExtractUTMParams(search: Search): (p: UtmParams)
    ensures forall k :: k in p <==> InSearch(search, k)
    ensures forall k :: k in p ==> InSearch(search, k) && p[k] == search[KeyName(k)] && Truthy(p, k)
  {
    ExtractKeys(UtmKeys(), search)
  }

  /** The extracted object is empty exactly when the query carries no UTM
      parameter with a non-empty value. */
  lemma ExtractEmptyIff(search: Search)
    ensures |ExtractUTMParams(search)| == 0 <==> forall k :: !InSearch(search, k)
  {
    var p := ExtractUTMParams(search);
    if |p| != 0 {
      var k :| k in p;
      assert InSearch(search, k);
    }
  }

  // ---------------------------------------------------------------------
  // Storage with expiry.

  const ExpiryDays: nat := 30
  const DayMs: nat := 86400000
  /** The lifetime of persisted parameters, in milliseconds. */
  const ExpiryMs: nat := ExpiryDays * DayMs

  /** What the parameters key holds: the JSON of a parameter object, or a
      string `JSON.parse` rejects. */
  datatype Stored = Json(params: UtmParams) | Malformed

  /** What the expiry key holds: an instant, or a string that does not
      denote one (an invalid date compares false with every instant). */
  datatype Expiry = At(ms: int) | Unreadable

  /** The two storage keys; `None` is an absent key. */
  datatype Storage = Storage(params: Option<Stored>, expiry: Option<Expiry>)

  /** Which `setItem` of a persist throws, if any. */
  datatype WriteFault = NoFault | ParamsWriteFails | ExpiryWriteFails

  /** `persistUTMParams` at time `now`. An empty object writes nothing; a
      failing first write leaves storage as it was; a failing second write
      leaves the new parameters beside the old expiry. */
  function PersistUTMParams(p: UtmParams, now: int, s: Storage, fault: WriteFault): (s': Storage)
    ensures |p| == 0 || fault == ParamsWriteFails ==> s' == s
    ensures |p| > 0 && fault != ParamsWriteFails ==> s'.params == Some(Json(p))
    ensures |p| > 0 && fault == NoFault ==> s'.expiry == Some(At(now + ExpiryMs))
    ensures fault == ExpiryWriteFails ==> s'.expiry == s.expiry
  {
    if |p| == 0 then s
    else match fault
      case ParamsWriteFails => s
      case ExpiryWriteFails => s.(params := Some(Json(p)))
      case NoFault => Storage(Some(Json(p)), Some(At(now + ExpiryMs)))
  }

  /** `new Date() > expiryDate`. */
  predicate Expired(s: Storage, now: int) {
    s.expiry.Some? && s.expiry.value.At? && now > s.expiry.value.ms
  }

  /** Once past its expiry, stored data stays expired at every later
      instant; data without an expiry never expires. */
  lemma ExpiredStaysExpired(s: Storage, now: int, later: int)
    requires now <= later
    ensures Expired(s, now) ==> Expired(s, later)
    ensures s.expiry.None? ==> !Expired(s, later)
  {
  }

  /** `clearUTMParams`: both keys removed. */
  function ClearUTMParams(s: Storage): (s': Storage)
    ensures s'.params.None? && s'.expiry.None?
  {
    Storage(None, None)
  }

  /** A read returns the parameters (or `None` for `null`) and the storage
      it leaves behind. */
  datatype Read = Read(value: Option<UtmParams>, storage: Storage)

  /** `getStoredUTMParams` at time `now`. */
  function GetStoredUTMParams(s: Storage, now: int): (r: Read)
    ensures r.value.Some? <==> s.params.Some? && s.params.value.Json? && !Expired(s, now)
    ensures r.value.Some? ==> r.value.value == s.params.value.params
    ensures s.params.Some? && Expired(s, now) ==> r.storage.params.None? && r.storage.expiry.None?
    ensures !(s.params.Some? && Expired(s, now)) ==> r.storage == s
  {
    if s.params.None? then Read(None, s)
    else if Expired(s, now) then Read(None, ClearUTMParams(s))
    else match s.params.value
      case Malformed => Read(None, s)
      case Json(p) => Read(Some(p), s)
  }

  /** A persist followed by a read no later than 30 days on gives back the
      persisted parameters and leaves storage alone. */
  lemma PersistThenRead(p: UtmParams, now: int, s: Storage, t: int)
    requires |p| > 0
    requires t <= now + ExpiryMs
    ensures var s' := PersistUTMParams(p, now, s, NoFault);
            GetStoredUTMParams(s', t) == Read(Some(p), s')
  {
  }

  /** A read after the 30 days returns `null` and removes both keys. */
  lemma PersistThenReadExpired(p: UtmParams, now: int, s: Storage, t: int)
    requires |p| > 0
    requires t > now + ExpiryMs
    ensures GetStoredUTMParams(PersistUTMParams(p, now, s, NoFault), t) == Read(None, Storage(None, None))
  {
  }

  /** Parameters stored without an expiry key never expire. */
  lemma NoExpiryNeverExpires(p: UtmParams, t: int)
    ensures GetStoredUTMParams(Storage(Some(Json(p)), None), t).value == Some(p)
  {
  }

  /** When only the expiry write fails, the fresh parameters live as long as
      the previous expiry: if that has passed, the next read loses them. */
  lemma FailedExpiryWriteKeepsOldDeadline(p: UtmParams, now: int, s: Storage, e: int, t: int)
    requires |p| > 0
    requires s.expiry == Some(At(e))
    requires t > e
    ensures GetStoredUTMParams(PersistUTMParams(p, now, s, ExpiryWriteFails), t) == Read(None, Storage(None, None))
  {
  }

  /** Reading twice at the same instant gives the same answer. */
  lemma ReadTwice(s: Storage, now: int)
    ensures var r := GetStoredUTMParams(s, now);
            GetStoredUTMParams(r.storage, now).value == r.value
  {
  }

  /** The record `trackEvent` logs, without the additional data. */
  datatype Event = Event(name: string, timestamp: int, utm: Option<UtmParams>)

  /** `trackEvent` at time `now`: the event carries the parameters it is
      given. */
  function TrackEvent(name: string, utm: Option<UtmParams>, now: int): (e: Event)
    ensures e.name == name && e.timestamp == now && e.utm == utm
  {
    Event(name, now, utm)
  }

  // ---------------------------------------------------------------------
  // Links and query strings.

  type Pair = (string, string)

  /** A parsed URL: its query as a list of name-value pairs, and everything
      else. */
  datatype Url = Url(rest: string, query: seq<Pair>)

  function Named(n: string): Pair -> bool {
    (p: Pair) => p.0 == n
  }

  function Other(n: string): Pair -> bool {
    (p: Pair) => p.0 != n
  }

  /** The position of the first pair named `n`, or `|q|` when there is
      none. */
  function FirstNamed(q: seq<Pair>, n: string): (j: nat)
    ensures j <= |q|
    ensures j < |q| ==> q[j].0 == n
    ensures forall k :: 0 <= k < j ==> q[k].0 != n
    decreases |q|
  {
    if q == [] || q[0].0 == n then 0 else 1 + FirstNamed(q[1..], n)
  }

  /** Some pair is named `n` exactly when the first one is inside the list. */
  lemma FirstNamedIff(q: seq<Pair>, n: string)
    ensures Seqs.Filter(q, Named(n)) != [] <==> FirstNamed(q, n) < |q|
  {
    var f := Seqs.Filter(q, Named(n));
    var j := FirstNamed(q, n);
    if j < |q| {
      assert Named(n)(q[j]);
    }
    if f != [] {
      assert Named(n)(f[0]) && f[0] in q;
    }
  }

  /** Replaces the value of the first pair named `n` in place and drops the
      other pairs named `n`. */
  function SetFirst(q: seq<Pair>, n: string, v: string): (r: seq<Pair>)
    requires Seqs.Filter(q, Named(n)) != []
    ensures Seqs.Filter(r, Named(n)) == [(n, v)]
    ensures Seqs.Filter(r, Other(n)) == Seqs.Filter(q, Other(n))
  {
    if q[0].0 == n then
      var tail := Seqs.Filter(q[1..], Other(n));
      var r := [(n, v)] + tail;
      Seqs.FilterConcat([(n, v)], tail, Named(n));
      Seqs.FilterConcat([(n, v)], tail, Other(n));
      Seqs.FilterAll(tail, Named(n));
      Seqs.FilterFilter(q[1..], Other(n), Other(n));
      assert Seqs.Filter([(n, v)], Named(n)) == [(n, v)] + Seqs.Filter([(n, v)][1..], Named(n));
      assert Seqs.Filter([(n, v)], Other(n)) == [] + Seqs.Filter([(n, v)][1..], Other(n));
      assert Seqs.Filter(q, Other(n)) == [] + Seqs.Filter(q[1..], Other(n));
      r
    else
      assert Seqs.Filter(q, Named(n)) == [] + Seqs.Filter(q[1..], Named(n));
      var rest := SetFirst(q[1..], n, v);
      var r := [q[0]] + rest;
      assert r[1..] == rest;
      r
  }

  /** The new pair takes the place of the first pair named `n`, at `j`;
      the pairs before it are kept and only other names are kept after
      it. */
  lemma {:induction false} SetFirstInPlace(q: seq<Pair>, n: string, v: string, j: nat)
    requires Seqs.Filter(q, Named(n)) != [] && j == FirstNamed(q, n)
    ensures j < |q| && SetFirst(q, n, v) == q[..j] + [(n, v)] + Seqs.Filter(q[j + 1..], Other(n))
    decreases |q|
  {
    if q[0].0 == n {
      SetFirstHere(q, n, v);
    } else {
      SetFirstSkips(q, n, v);
      SetFirstInPlace(q[1..], n, v, j - 1);
      SkipStep(q, n, v, j, SetFirst(q, n, v), SetFirst(q[1..], n, v));
    }
  }

  /** The placement in the tail, moved one step right past the head. */
  lemma SkipStep(q: seq<Pair>, n: string, v: string, j: nat, r: seq<Pair>, r1: seq<Pair>)
    requires 0 < j < |q| && r == [q[0]] + r1
    requires r1 == q[1..][..j - 1] + [(n, v)] + Seqs.Filter(q[1..][j - 1 + 1..], Other(n))
    ensures r == q[..j] + [(n, v)] + Seqs.Filter(q[j + 1..], Other(n))
  {
    var t := Seqs.Filter(q[j + 1..], Other(n));
    assert Seqs.Filter(q[1..][j - 1 + 1..], Other(n)) == t by {
      assert q[1..][j - 1 + 1..] == q[j + 1..];
    }
    ConsShift(q, j, (n, v), r1, t);
  }


  /** A leading pair with the name is the one replaced. */
  lemma SetFirstHere(q: seq<Pair>, n: string, v: string)
    requires q != [] && q[0].0 == n
    ensures SetFirst(q, n, v) == q[..0] + [(n, v)] + Seqs.Filter(q[1..], Other(n))
  {
    assert q[..0] + [(n, v)] == [(n, v)];
  }

  /** A leading pair with another name is kept in front. */
  lemma SetFirstSkips(q: seq<Pair>, n: string, v: string)
    requires Seqs.Filter(q, Named(n)) != [] && q[0].0 != n
    ensures Seqs.Filter(q[1..], Named(n)) != []
    ensures SetFirst(q, n, v) == [q[0]] + SetFirst(q[1..], n, v)
  {
    assert Seqs.Filter(q, Named(n)) == [] + Seqs.Filter(q[1..], Named(n));
  }

  /** Putting back the head of `q` in front of a placement in its tail
      moves the placement one step right. */
  lemma ConsShift<T>(q: seq<T>, j: nat, x: T, r: seq<T>, t: seq<T>)
    requires 0 < j < |q| && r == q[1..][..j - 1] + [x] + t
    ensures [q[0]] + r == q[..j] + [x] + t
  {
    assert q[..j] == [q[0]] + q[1..][..j - 1];
  }

  /** `URLSearchParams.set` (section 6.2 of the WHATWG URL Standard): the
      name ends up with exactly one pair, holding the new value, and the
      pairs of every other name keep their order. The new pair takes the
      place of the first pair with the name, the later ones are dropped,
      and it goes at the end when the name was absent. */
  function SetParam(q: seq<Pair>, n: string, v: string): (r: seq<Pair>)
    ensures Seqs.Filter(r, Named(n)) == [(n, v)]
    ensures Seqs.Filter(r, Other(n)) == Seqs.Filter(q, Other(n))
    ensures r == Placed(q, n, v)
  {
    FirstNamedIff(q, n);
    if FirstNamed(q, n) < |q| then
      SetFirstPlaced(q, n, v);
      SetFirst(q, n, v)
    else
      AppendAbsent(q, n, v);
      q + [(n, v)]
  }

  /** Replacing the first pair named `n` puts the new pair where Placed
      says. */
  lemma SetFirstPlaced(q: seq<Pair>, n: string, v: string)
    requires Seqs.Filter(q, Named(n)) != []
    ensures SetFirst(q, n, v) == Placed(q, n, v)
  {
    var j := FirstNamed(q, n);
    SetFirstInPlace(q, n, v, j);
    assert Placed(q, n, v) == q[..j] + [(n, v)] + Seqs.Filter(q[j + 1..], Other(n));
  }

  /** Where `set` puts the new pair, by position: in place of the first
      pair named `n`, with only other names kept after it, or at the end
      when there is none. */
  function Placed(q: seq<Pair>, n: string, v: string): seq<Pair> {
    var j := FirstNamed(q, n);
    if j == |q| then q + [(n, v)]
    else q[..j] + [(n, v)] + Seqs.Filter(q[j + 1..], Other(n))
  }

  /** Appending a pair whose name is absent gives the name that one pair
      and leaves the other names alone. */
  lemma AppendAbsent(q: seq<Pair>, n: string, v: string)
    requires Seqs.Filter(q, Named(n)) == []
    ensures Seqs.Filter(q + [(n, v)], Named(n)) == [(n, v)]
    ensures Seqs.Filter(q + [(n, v)], Other(n)) == Seqs.Filter(q, Other(n))
    ensures q + [(n, v)] == Placed(q, n, v)
  {
    FirstNamedIff(q, n);
    Seqs.FilterConcat(q, [(n, v)], Named(n));
    Seqs.FilterConcat(q, [(n, v)], Other(n));
    assert Seqs.Filter([(n, v)], Named(n)) == [(n, v)] + Seqs.Filter([(n, v)][1..], Named(n));
    assert Seqs.Filter([(n, v)], Other(n)) == [] + Seqs.Filter([(n, v)][1..], Other(n));
  }

  /** Setting one name leaves the pairs of any other name as they were. */
  lemma SetParamOtherName(q: seq<Pair>, n: string, v: string, m: string)
    requires m != n
    ensures Seqs.Filter(SetParam(q, n, v), Named(m)) == Seqs.Filter(q, Named(m))
  {
    assert forall x :: Named(m)(x) ==> Other(n)(x);
    Seqs.FilterFilter(SetParam(q, n, v), Other(n), Named(m));
    Seqs.FilterFilter(q, Other(n), Named(m));
  }

  /** Lines 126 to 130 and 148 to 152: `set` for every truthy entry, in key
      order. */
  function SetAll(q: seq<Pair>, keys: seq<UtmKey>, utm: UtmParams): (r: seq<Pair>)
    ensures (forall k :: k in keys ==> !Truthy(utm, k)) ==> r == q
    decreases keys
  {
    if keys == [] then q
    else
      var k := keys[0];
      SetAll(if Truthy(utm, k) then SetParam(q, KeyName(k), utm[k]) else q, keys[1..], utm)
  }

  /** No truthy key among `keys` is named `m`. */
  predicate Untouched(keys: seq<UtmKey>, utm: UtmParams, m: string) {
    forall k :: k in keys && Truthy(utm, k) ==> KeyName(k) != m
  }

  /** After the sets, each truthy key has exactly one pair, with its value,
      and every other name keeps its pairs. */
  lemma {:induction false} SetAllSets(q: seq<Pair>, keys: seq<UtmKey>, utm: UtmParams)
    ensures forall k :: k in keys && Truthy(utm, k) ==>
              Seqs.Filter(SetAll(q, keys, utm), Named(KeyName(k))) == [(KeyName(k), utm[k])]
    ensures forall m :: Untouched(keys, utm, m) ==>
              Seqs.Filter(SetAll(q, keys, utm), Named(m)) == Seqs.Filter(q, Named(m))
    decreases keys
  {
    if keys != [] {
      var k0 := keys[0];
      var q1 := if Truthy(utm, k0) then SetParam(q, KeyName(k0), utm[k0]) else q;
      SetAllSets(q1, keys[1..], utm);
      assert SetAll(q, keys, utm) == SetAll(q1, keys[1..], utm);
      forall k | k in keys && Truthy(utm, k)
        ensures Seqs.Filter(SetAll(q, keys, utm), Named(KeyName(k))) == [(KeyName(k), utm[k])]
      {
        if k !in keys[1..] {
          assert k == k0;
          forall l | l in keys[1..] && Truthy(utm, l) ensures KeyName(l) != KeyName(k) {
            KeyNamesDistinct(l, k);
          }
          assert Untouched(keys[1..], utm, KeyName(k));
        }
      }
      forall m | Untouched(keys, utm, m)
        ensures Seqs.Filter(SetAll(q, keys, utm), Named(m)) == Seqs.Filter(q, Named(m))
      {
        assert Untouched(keys[1..], utm, m);
        if Truthy(utm, k0) {
          SetParamOtherName(q, KeyName(k0), utm[k0], m);
        }
      }
    }
  }

  /** The URL with the parameters set: each truthy key has exactly one
      pair, with its value; every other name is left alone; the rest of the
      URL is unchanged. */
  function WithUtm(u: Url, utm: UtmParams): (u': Url)
    ensures u'.rest == u.rest
    ensures forall k :: Truthy(utm, k) ==> Seqs.Filter(u'.query, Named(KeyName(k))) == [(KeyName(k), utm[k])]
    ensures forall m :: (forall k :: Truthy(utm, k) ==> KeyName(k) != m) ==>
              Seqs.Filter(u'.query, Named(m)) == Seqs.Filter(u.query, Named(m))
  {
    SetAllSets(u.query, UtmKeys(), utm);
    Url(u.rest, SetAll(u.query, UtmKeys(), utm))
  }

  /** `appendUTMToUrl`. `parse` is `new URL(url, origin)`, `None` when it
      throws; `serialize` is `toString`. */
  function AppendUTMToUrl(url: string, utm: Option<UtmParams>,
                          parse: string -> Option<Url>, serialize: Url -> string): (r: string)
    ensures utm.None? || |utm.value| == 0 ==> r == url
    ensures parse(url).None? ==> r == url
    ensures utm.Some? && |utm.value| > 0 && parse(url).Some? ==>
              r == serialize(WithUtm(parse(url).value, utm.value))
  {
    if utm.None? || |utm.value| == 0 then url
    else match parse(url)
      case None => url
      case Some(u) => serialize(WithUtm(u, utm.value))
  }

  /** Reference definition: the truthy entries among `keys`, in order. */
  function Entries(keys: seq<UtmKey>, utm: UtmParams): seq<Pair> {
    if keys == [] then []
    else
      var k := keys[0];
      (if Truthy(utm, k) then [(KeyName(k), utm[k])] else []) + Entries(keys[1..], utm)
  }

  /** There are no entries exactly when no key among `keys` is truthy. */
  lemma {:induction false} EntriesEmptyIff(keys: seq<UtmKey>, utm: UtmParams)
    ensures Entries(keys, utm) == [] <==> forall k :: k in keys ==> !Truthy(utm, k)
  {
    if keys != [] {
      EntriesEmptyIff(keys[1..], utm);
      assert forall l :: l in keys <==> l == keys[0] || l in keys[1..];
    }
  }

  predicate Distinct(keys: seq<UtmKey>) {
    forall i, j :: 0 <= i < j < |keys| ==> keys[i] != keys[j]
  }

  /** The query holds no pair named after any of `keys`. */
  predicate Fresh(q: seq<Pair>, keys: seq<UtmKey>) {
    forall k :: k in keys ==> Seqs.Filter(q, Named(KeyName(k))) == []
  }

  /** On a query holding none of the names, each `set` appends, so the sets
      produce exactly the truthy entries in key order. */
  lemma {:induction false} FreshSetAppends(q: seq<Pair>, keys: seq<UtmKey>, utm: UtmParams)
    requires Distinct(keys)
    requires Fresh(q, keys)
    ensures SetAll(q, keys, utm) == q + Entries(keys, utm)
    decreases keys
  {
    if keys != [] {
      FreshStep(q, keys, utm);
      FreshSetAppends(q + FirstEntry(keys, utm), keys[1..], utm);
    }
  }

  /** The entry the first key contributes, if it is truthy. */
  function FirstEntry(keys: seq<UtmKey>, utm: UtmParams): seq<Pair>
    requires |keys| > 0
  {
    if Truthy(utm, keys[0]) then [(KeyName(keys[0]), utm[keys[0]])] else []
  }

  /** One step of `FreshSetAppends`: the first `set` appends, and what is
      left satisfies the same conditions. */
  lemma FreshStep(q: seq<Pair>, keys: seq<UtmKey>, utm: UtmParams)
    requires |keys| > 0
    requires Distinct(keys)
    requires Fresh(q, keys)
    ensures SetAll(q, keys, utm) == SetAll(q + FirstEntry(keys, utm), keys[1..], utm)
    ensures Distinct(keys[1..])
    ensures Fresh(q + FirstEntry(keys, utm), keys[1..])
    ensures q + Entries(keys, utm) == (q + FirstEntry(keys, utm)) + Entries(keys[1..], utm)
  {
    assert keys[0] in keys;
    FirstAppends(q, keys, utm);
    StillFresh(q, keys, utm);
    DistinctTail(keys);
    EntriesStep(q, keys, utm);
  }

  lemma DistinctTail(keys: seq<UtmKey>)
    requires |keys| > 0 && Distinct(keys)
    ensures Distinct(keys[1..])
  {
    assert forall i, j :: 0 <= i < j < |keys[1..]| ==> keys[1..][i] == keys[i + 1] && keys[1..][j] == keys[j + 1];
  }

  lemma EntriesStep(q: seq<Pair>, keys: seq<UtmKey>, utm: UtmParams)
    requires |keys| > 0
    ensures q + Entries(keys, utm) == (q + FirstEntry(keys, utm)) + Entries(keys[1..], utm)
  {
    var rest := Entries(keys[1..], utm);
    assert Entries(keys, utm) == FirstEntry(keys, utm) + rest;
  }

  /** The first `set` on a query without that name appends. */
  lemma FirstAppends(q: seq<Pair>, keys: seq<UtmKey>, utm: UtmParams)
    requires |keys| > 0
    requires Seqs.Filter(q, Named(KeyName(keys[0]))) == []
    ensures SetAll(q, keys, utm) == SetAll(q + FirstEntry(keys, utm), keys[1..], utm)
  {
    var k0 := keys[0];
    if Truthy(utm, k0) {
      assert SetParam(q, KeyName(k0), utm[k0]) == q + FirstEntry(keys, utm);
    } else {
      assert q + FirstEntry(keys, utm) == q;
    }
  }

  /** After the first key's entry is appended, the query still holds none
      of the remaining names. */
  lemma StillFresh(q: seq<Pair>, keys: seq<UtmKey>, utm: UtmParams)
    requires |keys| > 0
    requires Distinct(keys)
    requires Fresh(q, keys)
    ensures Fresh(q + FirstEntry(keys, utm), keys[1..])
  {
    var k0 := keys[0];
    var e0 := FirstEntry(keys, utm);
    forall k | k in keys[1..] ensures Seqs.Filter(q + e0, Named(KeyName(k))) == [] {
      var j :| 0 <= j < |keys[1..]| && keys[1..][j] == k;
      assert keys[j + 1] == k;
      KeyNamesDistinct(k, k0);
      Seqs.FilterConcat(q, e0, Named(KeyName(k)));
      if Truthy(utm, k0) {
        assert Seqs.Filter(e0, Named(KeyName(k))) == [] + Seqs.Filter(e0[1..], Named(KeyName(k)));
      }
    }
  }

  /** One pair as `URLSearchParams.toString` writes it. */
  function PairText(p: Pair, encode: string -> string): (t: string)
    ensures '=' in t
  {
    encode(p.0) + "=" + encode(p.1)
  }

  function Texts(ps: seq<Pair>, encode: string -> string): (ts: seq<string>)
    ensures |ts| == |ps|
    ensures forall i :: 0 <= i < |ps| ==> ts[i] == PairText(ps[i], encode)
  {
    if ps == [] then [] else [PairText(ps[0], encode)] + Texts(ps[1..], encode)
  }

  /** A join of at least one non-empty piece is non-empty. */
  lemma JoinNonEmpty(parts: seq<string>, sep: string)
    requires |parts| > 0 && parts[0] != []
    ensures Strings.Join(parts, sep) != []
  {
  }

  /** `getUTMQueryString`. `encode` is the form-urlencoded serialiser. */
  function GetUTMQueryString(utm: Option<UtmParams>, encode: string -> string): (r: string)
    ensures r == [] <==> utm.None? || forall k :: !Truthy(utm.value, k)
    ensures r != [] ==> r == "?" + Strings.Join(Texts(Entries(UtmKeys(), utm.value), encode), "&")
  {
    if utm.None? || |utm.value| == 0 then []
    else
      var pairs := SetAll([], UtmKeys(), utm.value);
      FreshSetAppends([], UtmKeys(), utm.value);
      EntriesEmptyIff(UtmKeys(), utm.value);
      assert pairs == Entries(UtmKeys(), utm.value);
      var qs := Strings.Join(Texts(pairs, encode), "&");
      assert pairs != [] ==> qs != [] by {
        if pairs != [] {
          JoinNonEmpty(Texts(pairs, encode), "&");
        }
      }
      if qs == [] then [] else "?" + qs
  }

  /** Splitting the query string after its "?" at each "&" gives back one
      `name=value` piece per truthy entry, in key order, as long as the
      encoder never writes a raw "&". */
  lemma QueryStringRoundTrip(utm: UtmParams, encode: string -> string)
    requires forall s :: '&' !in encode(s)
    requires exists k :: Truthy(utm, k)
    ensures var r := GetUTMQueryString(Some(utm), encode);
            r != [] && Strings.Split(r[1..], '&') == Texts(Entries(UtmKeys(), utm), encode)
  {
    var ps := Entries(UtmKeys(), utm);
    EntriesEmptyIff(UtmKeys(), utm);
    TextsNoAmp(ps, encode);
    SplitQuery(GetUTMQueryString(Some(utm), encode), Texts(ps, encode));
  }

  /** No piece holds a '&' when the encoder never writes one. */
  lemma TextsNoAmp(ps: seq<Pair>, encode: string -> string)
    requires forall s :: '&' !in encode(s)
    ensures forall i :: 0 <= i < |ps| ==> '&' !in Texts(ps, encode)[i]
  {
    var ts := Texts(ps, encode);
    forall i | 0 <= i < |ps| ensures '&' !in ts[i] {
      assert ts[i] == encode(ps[i].0) + "=" + encode(ps[i].1);
    }
  }

  /** Splitting a query string after its '?' at '&' gives back the joined
      pieces when none of them holds a '&'. */
  lemma SplitQuery(r: string, ts: seq<string>)
    requires |ts| >= 1 && forall i :: 0 <= i < |ts| ==> '&' !in ts[i]
    requires r == "?" + Strings.Join(ts, "&")
    ensures r != [] && Strings.Split(r[1..], '&') == ts
  {
    assert r[1..] == Strings.Join(ts, "&");
    assert "&" == ['&'];
    Strings.SplitJoin(ts, '&');
  }
}

=== FILE: vocab_card.dfy ===
/** The decisions of the vocabulary card (`src/components/VocabCard.tsx`):
    the text size class by length, which buttons are shown, when a delete
    goes through, and the `isImproving` flag around an improvement
    request. The confirmation dialog and the improvement request are
    oracles. */
module VocabCard {
  import opened Wrappers
  import Strings

  /** The three size tiers both text sizes use. */
  datatype Tier = Long | MidLength | Short

  /** Lines 24 to 27 and 31 to 34: more than 50 code units is long, more
      than 30 is mid-length, anything else is short. */
  function TierOf(text: string): (t: Tier)
    ensures t == Long <==> Strings.Utf16Length(text) > 50
    ensures t == MidLength <==> 30 < Strings.Utf16Length(text) <= 50
    ensures t == Short <==> Strings.Utf16Length(text) <= 30
  {
    var n := Strings.Utf16Length(text);
    if n > 50 then Long else if n > 30 then MidLength else Short
  }

  /** How large a tier's text is: Short is the largest. */
  function Rank(t: Tier): nat {
    match t
    case Long => 0
    case MidLength => 1
    case Short => 2
  }

  /** Longer text never gets larger type. */
  lemma TierMonotone(a: string, b: string)
    requires Strings.Utf16Length(a) <= Strings.Utf16Length(b)
    ensures Rank(TierOf(b)) <= Rank(TierOf(a))
  {
  }

  /** The two scripts whose text the card sizes. */
  datatype Script = Bangla | English

  /** The Tailwind classes of one script, one per tier. */
  datatype SizeTable = SizeTable(long: string, mid: string, short: string)

  /** Lines 23 to 28 (Bangla) and 30 to 35 (English). */
  function TableOf(script: Script): SizeTable {
    match script
    case Bangla => SizeTable("text-sm sm:text-base md:text-lg", "text-base sm:text-lg md:text-xl",
                             "text-base sm:text-xl md:text-2xl")
    case English => SizeTable("text-xs sm:text-sm md:text-base", "text-sm sm:text-base md:text-lg",
                              "text-sm sm:text-lg md:text-xl")
  }

  /** The entry of a table for a tier. */
  function SizeClass(t: Tier, table: SizeTable): string {
    match t
    case Long => table.long
    case MidLength => table.mid
    case Short => table.short
  }

  /** `getBanglaTextSize` and `getEnglishTextSize`: the class of the
      text's tier in the script's table. */
  function TextSize(script: Script, text: string): (c: string)
    ensures script == Bangla && TierOf(text) == Long ==> c == "text-sm sm:text-base md:text-lg"
    ensures script == Bangla && TierOf(text) == MidLength ==> c == "text-base sm:text-lg md:text-xl"
    ensures script == Bangla && TierOf(text) == Short ==> c == "text-base sm:text-xl md:text-2xl"
    ensures script == English && TierOf(text) == Long ==> c == "text-xs sm:text-sm md:text-base"
    ensures script == English && TierOf(text) == MidLength ==> c == "text-sm sm:text-base md:text-lg"
    ensures script == English && TierOf(text) == Short ==> c == "text-sm sm:text-lg md:text-xl"
  {
    SizeClass(TierOf(text), TableOf(script))
  }

  /** No two tiers of a table share a class. */
  predicate DistinctEntries(table: SizeTable) {
    table.long != table.mid && table.mid != table.short && table.long != table.short
  }

  /** A table with distinct entries tells the tier back from the class. */
  lemma SizeClassInjective(table: SizeTable, t: Tier, u: Tier)
    requires DistinctEntries(table)
    ensures SizeClass(t, table) == SizeClass(u, table) <==> t == u
  {
  }

  /** Each script's table gives its three tiers three different classes. */
  lemma TableDistinct(script: Script)
    ensures DistinctEntries(TableOf(script))
  {
    match script
    case Bangla =>
      assert "text-sm sm:text-base md:text-lg"[5] != "text-base sm:text-lg md:text-xl"[5];
      assert "text-base sm:text-lg md:text-xl"[18] != "text-base sm:text-xl md:text-2xl"[18];
      assert |"text-sm sm:text-base md:text-lg"| != |"text-base sm:text-xl md:text-2xl"|;
    case English =>
      assert "text-xs sm:text-sm md:text-base"[5] != "text-sm sm:text-base md:text-lg"[5];
      assert "text-sm sm:text-base md:text-lg"[16] != "text-sm sm:text-lg md:text-xl"[16];
      assert |"text-xs sm:text-sm md:text-base"| != |"text-sm sm:text-lg md:text-xl"|;
  }

  /** Each size class belongs to one tier: the class tells the tier back,
      in either script. */
  lemma SizeClassesDistinct(script: Script, a: string, b: string)
    ensures TextSize(script, a) == TextSize(script, b) <==> TierOf(a) == TierOf(b)
  {
    var table := TableOf(script);
    TableDistinct(script);
    SizeClassInjective(table, TierOf(a), TierOf(b));
  }

  /** What the card is given. An unset `isOnline` or `isAdmin` is false. */
  datatype Props = Props(id: string, isOnline: bool, isAdmin: bool, hasDelete: bool, hasImprove: bool)

  /** The buttons on the card. */
  datatype Buttons = Buttons(speak: bool, favorite: bool, improve: bool, delete: bool)

  /** Lines 99, 128 to 161: speak is always there; favourite and improve
      only for local entries, improve only with a handler; delete only for
      an admin with a handler. */
  function ButtonsOf(p: Props): (b: Buttons)
    ensures b.speak
    ensures b.favorite <==> !p.isOnline
    ensures b.improve <==> p.hasImprove && !p.isOnline
    ensures b.delete <==> p.isAdmin && p.hasDelete
  {
    Buttons(true, !p.isOnline, p.hasImprove && !p.isOnline, p.isAdmin && p.hasDelete)
  }

  /** An entry from the server offers only speaking and, for an admin,
      deleting. */
  lemma OnlineEntryButtons(p: Props)
    requires p.isOnline
    ensures !ButtonsOf(p).favorite && !ButtonsOf(p).improve
  {
  }

  /** Lines 60 to 65: `onDelete` receives the entry's id only when a
      handler exists and the confirmation was accepted; the dialog is only
      shown when a handler exists. */
  function HandleDelete(p: Props, confirmed: bool): (r: (bool, Option<string>))
    ensures r.0 <==> p.hasDelete
    ensures r.1.Some? <==> p.hasDelete && confirmed
    ensures r.1.Some? ==> r.1.value == p.id
  {
    if p.hasDelete then (true, if confirmed then Some(p.id) else None) else (false, None)
  }

  /** How an improvement request ends. */
  datatype Settled = Resolved | Rejected

  /** What one click on the improve button does. */
  datatype ImproveRun = ImproveRun(flags: seq<bool>, calls: seq<string>, errorLogged: bool)

  /** Lines 67 to 79: the successive values of `isImproving`, the ids the
      improvement handler was called with, and whether the `catch` logged a
      failure. The `finally` clears the flag on both paths, so whether the
      request resolves or rejects changes only whether an error is logged. */
  function HandleImprove(p: Props, outcome: Settled): (r: ImproveRun)
    ensures p.hasImprove ==> r.flags == [true, false] && r.calls == [p.id]
    ensures r.errorLogged <==> p.hasImprove && outcome == Rejected
    ensures !p.hasImprove ==> r == ImproveRun([], [], false)
  {
    if !p.hasImprove then ImproveRun([], [], false)
    else
      var caught := outcome == Rejected;
      ImproveRun([true] + [false], [p.id], caught)
  }
}

=== FILE: voice_search.dfy ===
/** The voice-search hook (`src/hooks/useVoiceSearch.ts`) as an
    event-driven state machine. Two recognizers, English and Bangla, listen
    at once; the first final result from either wins and is handed to the
    caller. Recognizer callbacks, the two `setTimeout` timers and the
    caller's stop button are events; toasts are kept as a list of notices.
    A pending timer fires by its position in the list of pending timers, in
    any order the environment chooses. */
module VoiceSearch {
  import opened Wrappers

  datatype Lang = English | Bangla

  /** The timers the error and end handlers schedule. */
  datatype Timer = ErrorTimer(code: string) | EndTimer

  /** The toasts that report something (the loading toast is not kept). */
  datatype Notice =
    | NotSupported
    | StartFailed
    | NoSpeechDetected
    | MicrophoneDenied
    | RecognitionFailed
    | NoSpeechInfo
    | LanguageDetected(lang: Lang, transcript: string)

  /** The hook's state and refs. `startInterim` is the interim transcript
      the handlers of the running session captured when it started: the
      end handler reads that captured value, not the live state. `delivered`
      lists every transcript handed to the caller's `onResult`. */
  datatype Voice = Voice(
    listening: bool,
    detected: Option<Lang>,
    interim: string,
    hasFinal: bool,
    startInterim: string,
    delivered: seq<string>,
    pending: seq<Timer>,
    notices: seq<Notice>)

  const Initial: Voice := Voice(false, None, "", false, "", [], [], [])

  datatype Event =
    | Start(supported: bool, startThrows: bool)
    | Result(lang: Lang, transcript: string, isFinal: bool)
    | Error(lang: Lang, code: string)
    | End(lang: Lang)
    | Fire(index: nat)
    | Stop

  /** Lines 56 to 75 and 220 to 235: `startListening`. */
  function StartListening(s: Voice, supported: bool, startThrows: bool): (r: Voice)
    ensures !supported ==> r == s.(notices := s.notices + [NotSupported])
    ensures supported ==>
              && !r.hasFinal && r.detected.None? && r.interim == []
              && r.startInterim == s.interim
              && (r.listening <==> !startThrows)
              && r.delivered == s.delivered && r.pending == s.pending
              && r.notices == s.notices + (if startThrows then [StartFailed] else [])
  {
    if !supported then s.(notices := s.notices + [NotSupported])
    else
      var started := s.(hasFinal := false, detected := None, interim := [], listening := true,
                        startInterim := s.interim);
      if startThrows then started.(listening := false, notices := s.notices + [StartFailed])
      else started
  }

  /** Lines 89 to 143: `handleResult`. */
  function HandleResult(s: Voice, lang: Lang, transcript: string, isFinal: bool): (r: Voice)
    ensures s.hasFinal ==> r == s
    ensures !s.hasFinal && !isFinal ==>
              r == s.(interim := transcript, detected := Some(lang))
    ensures !s.hasFinal && isFinal ==>
              && r.hasFinal && !r.listening && r.detected == Some(lang) && r.interim == []
              && r.delivered == s.delivered + [transcript]
              && r.notices == s.notices + [LanguageDetected(lang, transcript)]
              && r.pending == s.pending
  {
    if s.hasFinal then s
    else if !isFinal then s.(interim := transcript, detected := Some(lang))
    else s.(hasFinal := true, detected := Some(lang), interim := [], listening := false,
            delivered := s.delivered + [transcript],
            notices := s.notices + [LanguageDetected(lang, transcript)])
  }

  /** Lines 145 to 185: `handleError`: "aborted" is always ignored,
      "no-speech" once a result exists; any other error before a final
      result schedules the error timer. */
  function HandleError(s: Voice, code: string): (r: Voice)
    ensures code == "aborted" || s.hasFinal ==> r == s
    ensures code != "aborted" && !s.hasFinal ==> r == s.(pending := s.pending + [ErrorTimer(code)])
  {
    if code == "aborted" then s
    else if code == "no-speech" && s.hasFinal then s
    else if !s.hasFinal then s.(pending := s.pending + [ErrorTimer(code)])
    else s
  }

  /** Lines 187 to 204: `handleEnd` schedules the end timer unless a final
      result exists or the captured interim transcript is non-empty. */
  function HandleEnd(s: Voice): (r: Voice)
    ensures !s.hasFinal && s.startInterim == [] ==> r == s.(pending := s.pending + [EndTimer])
    ensures s.hasFinal || s.startInterim != [] ==> r == s
  {
    if !s.hasFinal && s.startInterim == [] then s.(pending := s.pending + [EndTimer]) else s
  }

  /** The notice an error timer shows for an error code. */
  function ErrorNotice(code: string): (n: Notice)
    ensures code == "no-speech" ==> n == NoSpeechDetected
    ensures code == "not-allowed" ==> n == MicrophoneDenied
    ensures code != "no-speech" && code != "not-allowed" ==> n == RecognitionFailed
  {
    if code == "no-speech" then NoSpeechDetected
    else if code == "not-allowed" then MicrophoneDenied
    else RecognitionFailed
  }

  function RemoveAt<T>(s: seq<T>, i: nat): (r: seq<T>)
    requires i < |s|
    ensures |r| == |s| - 1
    ensures forall j :: 0 <= j < i ==> r[j] == s[j]
    ensures forall j :: i <= j < |r| ==> r[j] == s[j + 1]
  {
    s[..i] + s[i + 1..]
  }

  /** Lines 160 to 183 and 189 to 202: a timer fires. Without a final
      result it ends the listening, clears the interim text and shows its
      notice; with one it does nothing. */
  function FireTimer(s: Voice, i: nat): (r: Voice)
    ensures i >= |s.pending| ==> r == s
    ensures i < |s.pending| ==> r.pending == RemoveAt(s.pending, i) && r.delivered == s.delivered
    ensures i < |s.pending| && s.hasFinal ==> r == s.(pending := RemoveAt(s.pending, i))
    ensures i < |s.pending| && !s.hasFinal ==>
              && !r.listening && r.interim == [] && r.hasFinal == s.hasFinal
              && r.notices == s.notices + [match s.pending[i]
                                           case ErrorTimer(code) => ErrorNotice(code)
                                           case EndTimer => NoSpeechInfo]
  {
    if i >= |s.pending| then s
    else
      var rest := RemoveAt(s.pending, i);
      if s.hasFinal then s.(pending := rest)
      else
        var notice := match s.pending[i]
          case ErrorTimer(code) => ErrorNotice(code)
          case EndTimer => NoSpeechInfo;
        s.(pending := rest, listening := false, interim := [], notices := s.notices + [notice])
  }

  /** Lines 238 to 252: `stopListening`. Timers already scheduled stay
      scheduled. */
  function StopListening(s: Voice): (r: Voice)
    ensures !r.listening && r.interim == [] && !r.hasFinal
    ensures r.delivered == s.delivered && r.pending == s.pending && r.detected == s.detected
  {
    s.(listening := false, interim := [], hasFinal := false)
  }

  function Step(s: Voice, e: Event): (r: Voice)
    ensures |s.delivered| <= |r.delivered| <= |s.delivered| + 1
    ensures r.delivered[..|s.delivered|] == s.delivered
    ensures |r.delivered| > |s.delivered| ==>
              e.Result? && e.isFinal && !s.hasFinal && r.hasFinal && !r.listening
              && r.delivered == s.delivered + [e.transcript]
  {
    match e
    case Start(supported, startThrows) => StartListening(s, supported, startThrows)
    case Result(lang, transcript, isFinal) => HandleResult(s, lang, transcript, isFinal)
    case Error(_, code) => HandleError(s, code)
    case End(_) => HandleEnd(s)
    case Fire(i) => FireTimer(s, i)
    case Stop => StopListening(s)
  }

  function Run(s: Voice, events: seq<Event>): Voice
    decreases |events|
  {
    if events == [] then s else Run(Step(s, events[0]), events[1..])
  }

  predicate WithinSession(events: seq<Event>) {
    forall i :: 0 <= i < |events| ==> !events[i].Start? && !events[i].Stop?
  }

  /** Inside one session, `base` transcripts were delivered before it
      started, and one more exactly when a final result has arrived. */
  predicate SessionInv(s: Voice, base: nat) {
    |s.delivered| == base + (if s.hasFinal then 1 else 0)
  }

  /** A started session satisfies the invariant. */
  lemma StartOpensSession(s: Voice, startThrows: bool)
    ensures SessionInv(Step(s, Start(true, startThrows)), |s.delivered|)
  {
  }

  /** `onResult` fires at most once per session: whatever the recognizers
      and timers do until the next start or stop, at most one transcript is
      delivered, and once one is, nothing else changes what was delivered. */
  lemma {:induction false} AtMostOneResult(s: Voice, events: seq<Event>, base: nat)
    requires SessionInv(s, base)
    requires WithinSession(events)
    ensures SessionInv(Run(s, events), base)
    ensures |Run(s, events).delivered| <= base + 1
    ensures s.hasFinal ==> Run(s, events).delivered == s.delivered
    decreases |events|
  {
    if events != [] {
      var t := Step(s, events[0]);
      assert !events[0].Start? && !events[0].Stop?;
      assert s.hasFinal ==> t.hasFinal && t.delivered == s.delivered;
      assert WithinSession(events[1..]) by {
        forall i | 0 <= i < |events[1..]| ensures !events[1..][i].Start? && !events[1..][i].Stop? {
          assert events[1..][i] == events[i + 1];
        }
      }
      AtMostOneResult(t, events[1..], base);
    }
  }

  /** Before any final result, interim results never reach `onResult`. */
  lemma InterimNeverDelivers(s: Voice, lang: Lang, transcript: string)
    ensures Step(s, Result(lang, transcript, false)).delivered == s.delivered
  {
  }

  // ---------------------------------------------------------------------
  // Recognizer configuration (lines 77 to 87).

  /** The settings the hook gives a recognizer. A recognizer only reports
      non-final results when `interimResults` is set; it is unset by
      default. */
  datatype Recognizer = Recognizer(lang: string, interimResults: bool, continuous: bool)

  const Fresh: Recognizer := Recognizer("", false, false)

  /** The two recognizers as the code configures them: line 86 sets
      `interimResults` on the English recognizer a second time, so the
      Bangla one keeps the default. */
  function ConfigureAsWritten(): (rs: (Recognizer, Recognizer))
    ensures rs.0 == Recognizer("en-US", true, false)
    ensures rs.1 == Recognizer("bn-BD", false, false)
  {
    var en := Fresh.(lang := "en-US");
    var en := en.(interimResults := true);
    var en := en.(continuous := false);
    var bn := Fresh.(lang := "bn-BD");
    var en := en.(interimResults := true);
    var bn := bn.(continuous := false);
    (en, bn)
  }

  /** The intended configuration: both recognizers give live feedback. */
  function Configure(): (rs: (Recognizer, Recognizer))
    ensures rs.0.interimResults && rs.1.interimResults
    ensures rs.0.lang == "en-US" && rs.1.lang == "bn-BD"
    ensures !rs.0.continuous && !rs.1.continuous
  {
    (Recognizer("en-US", true, false), Recognizer("bn-BD", true, false))
  }

  function RecognizerOf(rs: (Recognizer, Recognizer), lang: Lang): Recognizer {
    if lang == English then rs.0 else rs.1
  }

  /** The result events a configuration lets the recognizers produce. */
  predicate Possible(rs: (Recognizer, Recognizer), e: Event) {
    e.Result? ==> e.isFinal || RecognizerOf(rs, e.lang).interimResults
  }

  predicate AllPossible(rs: (Recognizer, Recognizer), events: seq<Event>) {
    forall i :: 0 <= i < |events| ==> Possible(rs, events[i])
  }

  /** Live text only ever comes from the English recognizer. */
  predicate LiveTextIsEnglish(s: Voice) {
    s.interim != [] ==> s.detected == Some(English)
  }

  /** As written, no run ever shows live Bangla text: every interim
      transcript on screen was heard by the English recognizer. */
  lemma {:induction false} AsWrittenNoLiveBangla(s: Voice, events: seq<Event>)
    requires LiveTextIsEnglish(s)
    requires AllPossible(ConfigureAsWritten(), events)
    ensures LiveTextIsEnglish(Run(s, events))
    decreases |events|
  {
    if events != [] {
      var e := events[0];
      assert Possible(ConfigureAsWritten(), e);
      var t := Step(s, e);
      assert LiveTextIsEnglish(t);
      assert AllPossible(ConfigureAsWritten(), events[1..]) by {
        forall i | 0 <= i < |events[1..]| ensures Possible(ConfigureAsWritten(), events[1..][i]) {
          assert events[1..][i] == events[i + 1];
        }
      }
      AsWrittenNoLiveBangla(t, events[1..]);
    }
  }

  /** With the intended configuration, live Bangla text appears: the
      Bangla recognizer's interim result is shown right after a start. */
  lemma ConfiguredShowsLiveBangla()
    ensures var events := [Start(true, false), Result(Bangla, "ami", false)];
            && AllPossible(Configure(), events)
            && Run(Initial, events).interim == "ami"
            && Run(Initial, events).detected == Some(Bangla)
  {
    var events := [Start(true, false), Result(Bangla, "ami", false)];
    assert events[1..][1..] == [];
  }
}

=== FILE: wrappers.dfy ===
/** Optional values and error-carrying results, used wherever the source
    returns `null`, throws, or swallows an exception. */
module Wrappers {

  datatype Option<+T> = None | Some(value: T) {
    function GetOr(default: T): T {
      match this
      case Some(v) => v
      case None => default
    }
  }

  datatype Result<+R, +E> = Ok(value: R) | Err(error: E)
}
